=== FILE: README.md ===
# Screeps colony task system, modelled in Dafny

This project models the decision logic of a Screeps bot organised around one
shared task table.

The room scanner creates tasks for the things a room contains: mine a source,
carry a miner there, collect a pile, build, repair, upgrade, spawn. The task
manager keeps those tasks in the table and moves each one through PENDING,
IN_PROGRESS and COMPLETED. Creeps of each role pick tasks from the table,
bind to them, work on them, report progress, and release or complete them.
The spawner decides which role to spawn next and with which body. Two
task-execution modules (spawn-creep and transfer-energy) run finer state
machines of their own.

Every operation is a pure function. Its inputs are the task table, the
creep's memory and one tick's observations of the world. Its outputs are the
new table, the new memory and the list of game actions requested, in call
order. The game itself never appears. Each object lookup, search and action
return code that the original asks of the game is a field of an observation
record (`Creeps.Obs`, `TransferEnergy.XObs`). Each action the logic requests
is recorded as a value of `Types.Action`.

Modules follow the source files:

| module | source |
|---|---|
| `TaskManager` | taskManager.js |
| `Creeps`, `CreepPrototype` | creepPrototype.js |
| `Roles`, `Miner`, `Taxi`, `Courier`, `Workers` | roles/*.js and their creep.prototype.*.js twins |
| `Universal` | creep.prototype.universal.js |
| `CreepManager` | creepManager.js |
| `RoomScanner` | roomScanner.js |
| `Spawner` | spawnerManager.js |
| `CommonBody` | common.js |
| `SpawnTask` | task.spawnCreep.js |
| `TransferEnergy` | task.transferEnergy.js |
| `Sorting`, `Types` | shared helpers |

The task table is a sequence in insertion order, which is the order that
`Object.values` visits it. Task ids come from a counter. The original draws
them from `Math.random`; the only facts used here are that ids are distinct
and always truthy.

`Valid` and `Inv` are the two table invariants. `Valid` says ids increase
along the table and stay below the counter. `Inv` says each task is
consistent: a PENDING task has no assignee, an IN_PROGRESS task has one, and
progress never exceeds the task's maximum. Every operation that changes the table preserves
both.

## Model

| member | source | states |
|---|---|---|
| TaskManager.CreateTask | taskManager.js:45-86 | Appends one PENDING task with a fresh id. Its progress is 0, its maximum comes from the type table, and its defaults are MEDIUM priority, no roles, not infinite, group size 1. Every other task is unchanged and both invariants are kept. |
| TaskManager.Append | taskManager.js:45-86 | Appending a task whose id is the counter keeps the ids increasing. The new id was absent before, and lookups of all other ids are unchanged. |
| TaskManager.SortTasksByPriority | taskManager.js:131-136 | The result is a permutation of the input, sorted HIGH before MEDIUM before LOW. Within one priority the original order is kept, as a stable sort with that comparator keeps it: a list drawn from the table in id order comes out in `Precedes` order (priority first, then id). |
| TaskManager.TasksForRole | taskManager.js:121-126 | A task is listed exactly when it is in the table, PENDING, and lists the role. |
| TaskManager.AvailableTasksForRole | taskManager.js:218-223 | A task is listed exactly when it is PENDING, lists the role and has a free slot below its group size. The list is ordered by descending priority, and in a valid table ties stay in table order. |
| TaskManager.AssignTaskToCreep | taskManager.js:141-149 | Succeeds exactly when the task exists and is PENDING. On success the task becomes IN_PROGRESS with the creep appended to its assignees. Nothing else changes, and on failure nothing changes at all. |
| TaskManager.RemoveName | taskManager.js:157-158 | Removes every occurrence of the creep name from the assignees and keeps all other names. With no name given, the list is unchanged. |
| TaskManager.Released | taskManager.js:154-167 | A released task loses the creep's name and returns to PENDING once nobody is left on it. No other field changes. |
| TaskManager.ReleaseTask | taskManager.js:154-167 | Succeeds exactly when the task is IN_PROGRESS. It changes only that task, as `Released` describes. |
| TaskManager.AssignThenRelease | taskManager.js:141-167 | On a table meeting both invariants, assigning a PENDING task to a creep and then releasing it by that creep restores the original table. |
| TaskManager.Finished | taskManager.js:172-186 | An infinite task restarts: PENDING, progress 0, no assignees. Any other task becomes COMPLETED. |
| TaskManager.CompleteTask | taskManager.js:172-186 | Succeeds exactly when the task exists, whatever its state. Only that task changes, as `Finished` describes. |
| TaskManager.UpdateTaskProgress | taskManager.js:191-198 | Succeeds exactly when the task is IN_PROGRESS. It sets the progress to the value capped at the task's maximum and changes nothing else. |
| TaskManager.CleanupCompletedTasks | taskManager.js:203-213 | Removes exactly the COMPLETED tasks that are not infinite. The counter and all other tasks are kept. |
| TaskManager.CanCreepPerformTask | taskManager.js:228-250 | True exactly when the creep is idle, has a role the task lists, is in the task's room (or the task has none), and the task has a free slot. |
| TaskManager.CanPerformKeepsGroupSize | taskManager.js:141-149 | Assigning a creep that `canCreepPerformTask` approves never pushes a task past its group size. |
| Creeps.GetTask | creepPrototype.js:13-19 | The creep's task is found exactly when the creep holds a task id that is in the table. |
| Creeps.FirstNear | roles/taxi.js:82-92 | Returns the first creep, in search order, that is within range 1 of the centre and passes the filter. It returns nothing exactly when no creep qualifies. |
| Creeps.FirstNearIsFirst | roles/taxi.js:91 | The pick is the earliest qualifying creep. |
| CreepPrototype.AssignTask | creepPrototype.js:21-43 | Succeeds exactly when the task exists, accepts the creep's role and the creep is idle. The task's state is not checked. On success the creep holds the id and the task is IN_PROGRESS with the creep's name appended. |
| CreepPrototype.ReleaseTask | creepPrototype.js:45-63 | A creep with a task always ends with its binding cleared. If the task is still in the table, it is released by the creep's name. All other tasks are unchanged. |
| CreepPrototype.CompleteTask | creepPrototype.js:65-84 | A creep with a task ends with its binding cleared. The task, if present, is completed as `Finished` describes. |
| CreepPrototype.UpdateTaskProgress | creepPrototype.js:86-97 | Forwards to the task manager for the creep's task. It fails without a task. On success the progress is the value capped at the maximum. |
| CreepPrototype.ProgressOnActive | creepPrototype.js:86-97 | When the creep's task is IN_PROGRESS, the report succeeds and sets the capped progress. |
| CreepPrototype.ReleaseAgreesWithManager | creepPrototype.js:45-63 | On an IN_PROGRESS task, the creep's release leaves the same table as the manager's release by the creep's name. |
| CreepPrototype.CompleteAgreesWithManager | creepPrototype.js:65-84 | The creep's completion leaves the same table as the manager's completion. |
| CreepPrototype.AssignThenReleaseRestores | creepPrototype.js:21-63 | An idle creep that takes a PENDING task and releases it leaves the table as it was, and is idle again. |
| CreepPrototype.GetAvailableTasks | creepPrototype.js:127-135 | Lists exactly the tasks open to the creep: PENDING, with the creep's role listed, and in the creep's room or in no room. Group size is not consulted. The list is ordered by descending priority, and in a valid table ties stay in table order. |
| CreepPrototype.FewestFirst | creepPrototype.js:150-154 | The group tasks are reordered, as a permutation, by ascending number of assignees. |
| CreepPrototype.FewestFirstTies | creepPrototype.js:150-154 | The sort by assignee count is stable: tasks with as many assignees keep the priority-and-table order they came in. |
| CreepPrototype.FindBestTask | creepPrototype.js:137-158 | If a single-slot task is open, the pick is the first of them in priority order, with ties in table order. Otherwise it is a group task with room and the fewest assignees, the first such in priority and table order. It is nothing exactly when no group task has room. |
| CreepPrototype.LeastCrowded | creepPrototype.js:150-157 | Picks a group task with room that has no more assignees than any other with room. Among equally crowded ones it picks the first in the list's order, as the stable sort and `find` do. It picks nothing exactly when none has room. |
| CreepPrototype.SinglesHead | creepPrototype.js:141-147 | The head of the filtered single-slot list ranks highest among the single-slot tasks open to the creep. |
| CreepPrototype.FewestWithRoom | creepPrototype.js:157 | `find` on the sorted list yields the least crowded task with room. |
| CreepPrototype.RefillEnergy | creepPrototype.js:274-286 | With no storage, or an empty one, it reports not-enough-energy. Otherwise it withdraws from storage, walks there when out of range, and reports the move's code. |
| CreepPrototype.Vanished | creepPrototype.js:160-182 | A task whose target is gone is released and reported as an invalid target. |
| CreepPrototype.WorkTwice | creepPrototype.js:231-271 | The build, repair and upgrade handlers act once. When the creep is out of energy they refill; otherwise they act a second time and report that second call's code. |
| CreepPrototype.PerformTask | creepPrototype.js:160-182 | Dispatches on the task type: no task or a gone target is an error, and unknown types are an invalid argument. The creep changes only by losing its binding, and only when the table changed. A mining task harvests its target. |
| CreepPrototype.PerformCompletesOnlyDelivery | creepPrototype.js:195-215 | Of the prototype's handlers, only miner delivery completes a task, and only with a waiting miner on the taxi's tile while standing on the source. |
| Roles.FirstOfType | roles/miner.js:30-34 | The first available task of the wanted types is open to the creep and of those types. In a valid table it comes before every other such task in priority order, with ties in table order. None exists exactly when no open task has those types. |
| Roles.AssignFirstOfType | roles/builder.js:29-40 | An idle creep takes that task whenever one exists. The creep then holds its id and the task is IN_PROGRESS with the creep's name. Failure changes nothing. |
| Roles.Taken | roles/miner.js:83-92 | The task `findAndAssignTask` binds is `findBestTask`'s pick, and `assignTask` accepts it. |
| Roles.FindAndAssignTask | roles/miner.js:83-92 | Without a pick, or with a busy creep, nothing happens. Otherwise assignTask accepts the pick: the creep is bound to it, the task gains the creep's name and goes IN_PROGRESS, and no other task changes. The result is then exactly performTask on that store and creep. Name, role and source are kept. |
| Roles.TakenAssigns | roles/miner.js:83-89 | assignTask always accepts the pick findAndAssignTask takes. It binds the creep and marks the task IN_PROGRESS with the creep's name added. |
| Roles.FindAndAssignBinds | roles/miner.js:83-92 | After taking a task the creep is bound to it, or released when the target was gone. A mining task's only possible action is harvesting that task's source. |
| Roles.GiveUp | roles/builder.js:47-50 | A creep that gives up its task ends with no binding and no action. Its task is released by its name and nothing else changes. |
| Roles.CheckStatus | roles/builder.js:136-156 | Outside spawning, a binding to a vanished or COMPLETED task is released, and no stale binding survives. Otherwise nothing changes. |
| Roles.Refill | roles/builder.js:91-117 | Takes from the closest stocked storage or container, else from the closest stocked spawn, else does nothing. It walks there exactly when the withdraw is out of range. |
| Roles.Unload | roles/courier.js:136-167 | Transfers to an adjacent extension or spawn with room, else to an adjacent container with room, else does nothing. It walks there exactly when out of range. Storage never passes the first filter, which reads `energy`/`energyCapacity`, fields a storage lacks. |
| Miner.AssignMinerToSource | roles/miner.js:29-41 | An idle creep takes the task `FirstOfType` picks among MINE_SOURCE tasks whenever there is one. It holds that task's id, is listed on it with the task IN_PROGRESS, remembers its target as the source and becomes a miner. |
| Miner.PerformMining | roles/miner.js:46-78 | A miner never asks to move. If the source is gone it releases its task and forgets the source. Off the source tile it waits. On the tile it harvests: success reports one more unit of progress, and an exhausted source completes the task and forgets the source. |
| Miner.MiningReportsProgress | roles/miner.js:66-72 | A successful harvest on an IN_PROGRESS task raises its progress by one, capped at the maximum. |
| Miner.CheckMinerStatus | roles/miner.js:97-118 | Works like the common status check, and also forgets the source when it drops a stale binding. |
| Miner.Run | roles/miner.js:11-24 | A miner with a source mines. One without takes the first MINE_SOURCE task and mines its target in the same tick, or does nothing more when that target is empty. When no task is taken it falls back to `findAndAssignTask`. |
| Miner.MinerNeverWalks | roles/miner.js:11-92 | A miner's tick never contains a move, provided only MINE_SOURCE tasks are open to its role. |
| Miner.FallbackNeverWalks | roles/miner.js:83-92 | Under the same proviso, the fallback `findAndAssignTask` never moves either. |
| Taxi.FindMinerForDelivery | roles/taxi.js:82-92 | Finds the first miner within range 1 of the centre that has no source and no task, or none when no such miner is there. |
| Taxi.PerformDelivery | roles/taxi.js:45-77 | With a live target and a miner found, the taxi walks to the source. On arrival the task is completed and the binding cleared. Without task, source or miner, it releases the task. Every action is a move. |
| Taxi.Run | roles/taxi.js:11-24 | A taxi with a task performs the delivery. An idle taxi takes the first DELIVER_MINER task and performs it in the same tick, or falls back to `findAndAssignTask` when there is none. |
| Taxi.TwinsAgreeOnSource | creep.prototype.taxi.js:61 | The role file and the prototype agree whenever the taxi stands on the source. |
| Taxi.DeliveryFindsAdjacentMiner | roles/taxi.js:62 | With the search centred on the taxi, a waiting miner next to it keeps the delivery going. |
| Taxi.PrototypeMissesAdjacentMiner | creep.prototype.taxi.js:61 | The prototype drops a delivery although a waiting miner stands next to the taxi. |
| Taxi.DeliverMinerToSource | roles/taxi.js:136-156 | Returns true exactly when all three objects exist and an empty taxi with carry capacity stands on the miner's tile. It walks to the miner exactly when such a taxi stands elsewhere. Otherwise it returns false with no action. |
| Taxi.UnloadMinerAtSource | roles/taxi.js:161-174 | True exactly on the source tile; otherwise the taxi walks to the source. |
| Courier.PerformLoad | roles/courier.js:121-131 | No action ever follows, because the task field it reads (`task.source`) is never set. |
| Courier.PerformTransport | roles/courier.js:106-116 | An empty courier tries to load. A loaded one unloads. |
| Courier.PerformCollectFromPile | roles/courier.js:72-101 | A gone pile releases the task. A full courier unloads. Otherwise it picks up: success reports the carried energy as progress, out of range walks, and a full store unloads. |
| Courier.PerformCollection | roles/courier.js:48-67 | Dispatches pile collection and transport. Any other task, or none, is released. |
| Courier.Run | roles/courier.js:11-24 | A courier with a task performs the collection. An idle courier takes the first COLLECT_FROM_PILE or TRANSPORT task and performs it in the same tick, or falls back to `findAndAssignTask` when there is none. |
| Courier.CollectRespectsCapacity | roles/courier.js:72-101 | A full courier never picks up. The pile task changes only through a successful pickup, to the carried energy capped at its maximum. |
| Workers.Perform | roles/builder.js:45-86 | Shared by builder, repairer and upgrader. A gone task or target is released. An empty worker refills. Otherwise it acts: success reports progress and completes the task when the job is finished, out of range walks, and out of energy refills. |
| Workers.Run | roles/upgrader.js:11-24 | A worker with a task performs it. An idle worker takes the first task of its kind and performs it in the same tick, or falls back to `findAndAssignTask` when there is none. |
| Workers.WorkerLetsGoOnlyWhenDone | roles/repairer.js:45-86 | A worker drops its binding exactly when the task or target is gone, or when successful work finished the job. |
| Workers.UpgraderNeverCompletes | roles/upgrader.js:45-81 | The upgrader never turns a task COMPLETED. |
| Workers.FiniteWorkCompletes | roles/builder.js:66-85 | A finite IN_PROGRESS build or repair task becomes COMPLETED exactly in the tick when successful work finishes it. |
| Workers.PrioritizeRepair | roles/repairer.js:176-200 | A damaged road or container within range comes first, then a damaged wall or rampart. There is none exactly when neither exists. |
| Universal.FindPriorityTasks | creep.prototype.universal.js:55-71 | A permutation of the open tasks, ordered by descending type rank. Ties keep the priority order. |
| Universal.Mining | creep.prototype.universal.js:134-159 | A gone source is given up. A full creep unloads. Otherwise it harvests and reports progress. |
| Universal.Delivery | creep.prototype.universal.js:164-190 | It searches around the source for a waiting miner. With none, the task is given up. Otherwise the task is completed and the cached type dropped. |
| Universal.Collection | creep.prototype.universal.js:195-230 | A gone pile is given up. A full creep unloads. A pickup reports progress, and an exhausted pile completes the task. |
| Universal.Work | creep.prototype.universal.js:235-352 | The shared form of building, repairing and upgrading: give up, refill, or act and report progress, completing when the job is done. |
| Universal.Finish | creep.prototype.universal.js:179-181 | Completion clears the binding and the cached task type. |
| Universal.Progress | creep.prototype.universal.js:152-153 | The progress report changes only the creep's own task, and never removes it. |
| Universal.PerformTask | creep.prototype.universal.js:92-129 | Dispatches on the cached type, or the task's own type when nothing is cached, and caches it. No task means giving up. |
| Universal.FreshCacheIsNoCache | creep.prototype.universal.js:101-103 | With a cache that matches the bound task (or no cache), performTask does exactly what it does without a cache. |
| Universal.ReleaseKeepsCache | creep.prototype.universal.js:235-240 | Giving up a task keeps the cached type, so the creep is idle with a stale cache. |
| Universal.StaleCacheMisroutes | creep.prototype.universal.js:101-106 | A creep caching BUILD and bound to an UPGRADE task "builds" the controller. |
| Universal.StaleCacheExample | creep.prototype.universal.js:92-129 | In a concrete two-step run, a vanished site is given up, and the next task (UPGRADE) is performed as a build. |
| Universal.PerformTaskCorrected | creep.prototype.universal.js:92-129 | Clears the cache whenever the binding goes. An idle creep caches nothing, a fresh cache stays fresh, and table and actions are those of the original. |
| Universal.KeepsBinding | creep.prototype.universal.js:92-129 | A creep still bound after performTask is bound to the same task, which kept its type, and caches that type. |
| Universal.StaysOnTask | creep.prototype.universal.js:92-129 | A creep that stays bound is otherwise unchanged. The table is unchanged or took only a progress report. |
| Universal.FindAnyTask | creep.prototype.universal.js:76-87 | A busy creep, or one with no open task, does nothing. Otherwise it tries to assign the first available task: on success the result is performTask on the assigned creep, and on failure nothing changes. |
| Universal.FindAnyTakesFirst | creep.prototype.universal.js:76-87 | On a valid table an idle creep with tasks open to it always takes the first available task and performs it. That task comes first in priority and table order, whatever its type rank. |
| Universal.FindAndAssignTask | creep.prototype.universal.js:29-50 | A busy creep, or one with no open task, does nothing. |
| Universal.TakesTopRank | creep.prototype.universal.js:29-50 | On a valid table an idle creep takes the open task of the highest type rank and performs it. |
| Universal.TopRankIsHighest | creep.prototype.universal.js:55-71 | The head of the ranked list outranks every open task. |
| Universal.Run | creep.prototype.universal.js:11-24 | One tick keeps the creep's name and role and both table invariants. |
| Universal.TakenTaskRunsTwice | creep.prototype.universal.js:11-24 | A creep that takes a task and stays bound performs it twice in one tick: once in `findAndAssignTask` and again in `runUniversal`. |
| Universal.GiveUpThenFindsAny | creep.prototype.universal.js:11-24 | A creep left idle by `findAndAssignTask` continues into `findAnyTask` in the same tick. This happens when no task was open or when performTask gave the taken task up. The tick's actions are those of both calls in order, and the table and creep are what `findAnyTask` leaves. |
| CreepManager.Pick | creepManager.js:73-86 | The task each handler picks is open to the role and wanted by it, with the highest priority among such tasks. In a valid table it comes before every other such task, with ties in table order, as `availableTasks[0]` and `.find` give. It picks none exactly when no open task is wanted. |
| CreepManager.Assign | creepManager.js:258-270 | An assignment succeeds whenever a task is picked on a valid table. The task becomes IN_PROGRESS with the creep's name. A miner also records its source and role. |
| CreepManager.Mine | creepManager.js:50-68 | A miner harvests its remembered source, walking when out of range. A gone source is forgotten while the task is kept. |
| CreepManager.HandleMiner | creepManager.js:50-68 | A miner without a source is assigned one first. |
| CreepManager.Drop | creepManager.js:148-149 | A handler gives up by clearing the binding and releasing the task with no creep name. |
| CreepManager.TaxiWork | creepManager.js:130-156 | Without a live target or a miner on its tile, the taxi drops the task. Otherwise it walks to the source and completes the task on arrival. |
| CreepManager.CourierWork | creepManager.js:209-218 | A TRANSPORT task raises an error, because its handler is undefined. A pile task is collected or dropped. |
| CreepManager.Labour | creepManager.js:275-297 | Build, repair and upgrade: a gone target is dropped. Otherwise the creep acts. Out of energy, it withdraws from storage. Otherwise it acts a second time and walks when that try is out of range. It never reports progress and never completes. |
| CreepManager.Work | creepManager.js:209-218 | Routes each role to its work handler. Only a courier on a TRANSPORT task raises. |
| CreepManager.Attend | creepManager.js:239-253 | A bound creep whose task is gone or not IN_PROGRESS just drops its binding. |
| CreepManager.Handle | creepManager.js:239-253 | An idle creep is assigned first, then attended. Name, role and source are kept. |
| CreepManager.HandleCreep | creepManager.js:11-45 | Dispatches on the creep's role. Role-less creeps and unlisted roles are skipped. Only a courier can raise. |
| CreepManager.ManageCreeps | creepManager.js:11-45 | Handles creeps in order until one raises, and raising implies a courier. Both table invariants are kept. |
| CreepManager.SweepKeepsCreeps | creepManager.js:11-45 | Every creep keeps its name, and role-less creeps are untouched. |
| CreepManager.DropOrphansTask | creepManager.js:148-154 | Releasing without a name leaves the task IN_PROGRESS with its assignees while the creep forgets it. |
| CreepManager.OnlyTaxiCompletes | creepManager.js:175-423 | Apart from the taxi, no handler completes a task. |
| CreepManager.TaxiCompletesOnSource | creepManager.js:130-156 | The taxi completes a finite task exactly with a miner on its tile while standing on the source. |
| CreepManager.MinerKeepsTask | creepManager.js:50-68 | A miner with a source keeps its binding and leaves the table alone. |
| CreepManager.NoCourierNoThrow | creepManager.js:11-45 | A sweep without couriers handles every creep. |
| RoomScanner.CreateAll | roomScanner.js:40-68 | Creating tasks only appends, one per spec, with consecutive ids. |
| RoomScanner.CreateAllCovers | roomScanner.js:40-68 | Every spec gets its task. |
| RoomScanner.Uncovered | roomScanner.js:42-47 | The ids that have no task of the type yet. |
| RoomScanner.CreateForUncovered | roomScanner.js:73-89 | Exactly the ids not yet covered get one new task each, built from the spec. |
| RoomScanner.MinePairs | roomScanner.js:45-66 | Each uncovered source yields an infinite HIGH MINE_SOURCE task for miners, followed by a HIGH DELIVER_MINER task for taxis. |
| RoomScanner.ScanSources | roomScanner.js:40-68 | Adds that pair for exactly the sources without a MINE_SOURCE task. |
| RoomScanner.ScanSites | roomScanner.js:73-89 | Adds a MEDIUM BUILD task for builders and repairers for each uncovered site. |
| RoomScanner.RepairableIds | roomScanner.js:95-104 | Lists exactly the roads, containers, walls and ramparts that are below full hits. |
| RoomScanner.ScanStructures | roomScanner.js:94-124 | Adds a REPAIR task for each uncovered repairable structure. |
| RoomScanner.RepairPriorityByKind | roomScanner.js:111-113 | Walls and ramparts get LOW priority; everything else gets MEDIUM. |
| RoomScanner.ScanController | roomScanner.js:129-145 | An owned controller ends with an UPGRADE task. A task is added exactly when none was there. |
| RoomScanner.ScanSpawners | roomScanner.js:150-168 | Adds a SPAWN_CREEP task for each uncovered spawn. |
| RoomScanner.SpawnersDistinct | roomScanner.js:150-168 | The spawn targets it creates are distinct even when the list repeats a spawn. |
| RoomScanner.EnergyPileIds | roomScanner.js:175-177 | Lists exactly the dropped resources that are energy. |
| RoomScanner.ScanPiles | roomScanner.js:173-193 | Adds a COLLECT_FROM_PILE task for each uncovered energy pile. |
| RoomScanner.ScanRoom | roomScanner.js:11-35 | Without a room or controller nothing changes. Otherwise the table only grows, and ends with a task for every source, site, repairable structure, owned controller, spawn and pile. |
| RoomScanner.CoveredScanIsNoop | roomScanner.js:11-35 | Scanning a room that is already covered changes nothing. |
| RoomScanner.ScanIdempotent | roomScanner.js:11-35 | Scanning twice gives the same table as scanning once. |
| RoomScanner.ValidateTasks | roomScanner.js:198-220 | Completes each mining, build, repair or pile task whose target is gone, or whose structure is repaired or pile emptied. The cleanup that follows then removes the finite ones. An infinite one restarts instead. Other tasks are unchanged. |
| RoomScanner.StaleIdGet | roomScanner.js:198-220 | The scan's per-entry test agrees with looking the task up. |
| RoomScanner.VanishedSourceLingers | roomScanner.js:225-231 | The MINE_SOURCE task of a vanished source is reset to PENDING instead of removed, and cleanup never removes it. |
| RoomScanner.ValidateTasksCorrected | roomScanner.js:198-220 | Removes every task that validation would complete, infinite or not: target gone, structure repaired, or pile emptied. It also removes every finite COMPLETED task. Every other task is kept unchanged. |
| RoomScanner.CorrectedLeavesNoStaleTask | roomScanner.js:198-231 | No task left by the corrected validation points at a vanished target. |
| Spawner.Parts | spawnerManager.js:181-305 | WORK, then CARRY, then MOVE parts in the given numbers, costing 100 per WORK and 50 per other part. |
| Spawner.MinerBody | spawnerManager.js:181-194 | Only WORK parts, one per 100 energy. It never has MOVE and spends within 100 of the budget. |
| Spawner.TaxiBody | spawnerManager.js:199-214 | Costs 100 per 50 of budget. |
| Spawner.TaxiOverspends | spawnerManager.js:199-214 | The taxi body costs more than any budget of 50 or more. |
| Spawner.CourierBody | spawnerManager.js:219-235 | The part counts the courier formula gives, and its price. |
| Spawner.BalancedBody | spawnerManager.js:240-269 | The builder, repairer and universal body stays within budget. |
| Spawner.UpgraderBody | spawnerManager.js:274-288 | The part counts the upgrader formula gives, and its price. |
| Spawner.FallbackBudgetCosts | spawnerManager.js:142 | At the default 300: miner 300, balanced 300, courier 450, upgrader 350, taxi 600. |
| Spawner.CreepBody | spawnerManager.js:141-176 | Each role gets its body. The universal label matches only when the constant is defined. Anything else gets WORK, CARRY, MOVE. |
| Spawner.DetermineCreepType | spawnerManager.js:51-128 | The universal branch fires in a room with pending work and no miner, courier or universal creep. Otherwise it picks the first of miner, courier, builder, repairer, upgrader that is under its cap with an open task, or none when none qualifies. |
| Spawner.SpawnRequest | spawnerManager.js:11-46 | A spawn that is not busy requests exactly the chosen role, with that role's body. |
| Spawner.StrandedRoom | spawnerManager.js:74-84 | As written, a room with pending work, no miner, courier or role-less creep spawns nothing. With the constant defined it spawns a universal creep. |
| Spawner.EmptyRoomAlwaysSpawns | spawnerManager.js:74-84 | With the constant defined, an empty room with pending work always requests a creep. |
| CommonBody.PassCost | common.js:24-29 | One pass of the inner loop takes parts costing exactly what it spent. |
| CommonBody.PassResidue | common.js:24-29 | A pass keeps the remainder modulo 50. |
| CommonBody.LoopCost | common.js:23-30 | A body the loop returns costs exactly the budget. |
| CommonBody.BuildBody | common.js:14-38 | Non-universal roles get an empty body. The universal body costs exactly the budget. |
| CommonBody.LoopEnds | common.js:23-30 | A budget of q times 50 is used up in q passes. |
| CommonBody.LoopSpins | common.js:23-30 | Any other budget never finishes. |
| CommonBody.BuildBodyReturns | common.js:14-38 | buildBody returns exactly when the budget is a multiple of 50. |
| CommonBody.BuildBodyAt300 | common.js:14-38 | At 300 the body is MOVE, WORK, CARRY, MOVE, CARRY. |
| SpawnTask.ConvertPart | task.spawnCreep.js:42-73 | A part name costs what its converted part costs. Unknown names become MOVE. |
| SpawnTask.CostMatchesBody | task.spawnCreep.js:132-166 | The price checked equals the cost of the body requested. |
| SpawnTask.CompleteTask | task.spawnCreep.js:172-187 | Marks the task done or failed, stamps the tick and the result, and deletes it exactly when it is not repeatable. |
| SpawnTask.Run | task.spawnCreep.js:3-130 | With no executer at all the opening log line throws, and the task is left untouched with nothing requested. Otherwise invalid data fails at once, and then so does an executer without `spawnCreep`. A busy spawn or too little energy requests nothing. Otherwise the converted body is requested once, or twice on a name clash. A busy answer leaves the task open; any other answer finishes it, succeeding exactly on OK. |
| SpawnTask.FinishedTasksAreStamped | task.spawnCreep.js:3-187 | A finished task is stamped with the tick and result. It stays open exactly when there is no executer or the spawn is busy. |
| TransferEnergy.FindEnergySource | task.transferEnergy.js:39-87 | Chooses dropped energy, then a stocked container or storage, then a source. The choice sets how to take and moves to transferring; with none, nothing changes. |
| TransferEnergy.TransferToCreep | task.transferEnergy.js:89-151 | A gone source resets the search. The creep walks to the source and takes once adjacent. It moves on to finding a destination only after a successful take that leaves it full or the source drained. |
| TransferEnergy.BestDestination | task.transferEnergy.js:165-197 | Prefers a spawn or extension with room, then storage with room, then an owned adjacent controller. |
| TransferEnergy.FindEnergyDestination | task.transferEnergy.js:153-213 | An empty creep goes back to finding a source. With a destination, it moves to delivering. With none, it clears the data and returns true. |
| TransferEnergy.DeliverRecursesForever | task.transferEnergy.js:276-284 | When the adjacent controller refuses, the original call nests without bound. |
| TransferEnergy.DeliverEnergy | task.transferEnergy.js:215-296 | The corrected delivery. An empty creep returns to finding a source, and a gone destination returns to finding one. A creep not yet next to the destination only moves. Next to it: OK with the creep empty or the destination full clears the data and reports done, and OK otherwise keeps the state. A refusal with no owned adjacent controller clears the data and reports done. A refusal with one retargets the controller and tries it once; a second refusal ends the cycle. Any other code keeps the state. It is done exactly when it clears the data, and it requests at most four actions. |
| TransferEnergy.DeliverAgrees | task.transferEnergy.js:215-296 | Wherever the controller does not refuse, the correction answers exactly as the original. |
| TransferEnergy.DeliverGivesUpOnRefusingController | task.transferEnergy.js:276-290 | Under the same conditions, the correction ends the cycle. |
| TransferEnergy.Run | task.transferEnergy.js:3-37 | The corrected run: it initialises missing data and runs the phase's step, delivering through the corrected `DeliverEnergy`. It reports done only after a finished delivery. |
| TransferEnergy.RunAgrees | task.transferEnergy.js:3-37 | Wherever the controller does not refuse, the corrected run answers exactly as the run over the original delivery. |
| TransferEnergy.RunAsWrittenNeverReturns | task.transferEnergy.js:276-284 | Next to an owned controller that refuses, the original run never returns from the delivering phase. |
| TransferEnergy.FreshStart | task.transferEnergy.js:5-13 | A fresh creep starts searching in the same tick. |
| TransferEnergy.DestinationSearchNeverFinishes | task.transferEnergy.js:201-212 | The true that the destination search returns is dropped by run. |
| TransferEnergy.RunFollowsEdges | task.transferEnergy.js:17-33 | The phases only follow the cycle and its resets. |

## Left out

- Game I/O is left out. Object lookups, searches, positions and action return
  codes are fields of the observation records. Actions are recorded rather
  than carried out. `console.log` and `creep.say` are dropped.
- ERR_NOT_ENOUGH_ENERGY and ERR_NOT_ENOUGH_RESOURCES are the same game code.
  They are one code here.
- The task table is a sequence in insertion order, and ids come from a
  counter instead of `Math.random`. Only distinctness and truthiness of ids
  matter.
- main.js and task.manager.js (the loop and execution wiring) are not part
  of this model.
- The roles/*.js files and their creep.prototype.*.js twins are one module
  each, because their logic is the same. The only difference is in the
  taxi's miner search, which `Taxi.Twin` selects.
- The creeps are not composed into one prototype. Each file's functions are
  modelled on their own.
- Stubs and helpers whose results no decision reads are left out:
  - `handleSpawnWork`;
  - `optimize*`;
  - `check*Progress` and `checkControllerLevel`;
  - the find-nearest helpers;
  - `checkSpawnNeeds`;
  - `moveToTaskTarget` and `isAtTaskTarget`;
  - `checkUniversalStatus`;
  - `deliverMiner` (the miner's empty stub).
- `generateTaskId` and `generateCreepName` are kept symbolic: a counter, and
  the role plus the tick.
- Percentages and ratios in floating point are left out.
- CommonBody.BuildBody: takes a fuel bound on passes of the outer loop. None
  means it is still looping. BuildBodyReturns states when it returns.
- TransferEnergy.Run: it is the corrected run. It delivers through
  `DeliverEnergy`, so on the refusing-controller input of the findings it
  returns done with the data cleared. The original never returns there;
  `RunAsWritten` and `RunAsWrittenNeverReturns` describe that run.
- TransferEnergy.DeliverRecursesForever: it describes `DeliverAsWritten`,
  which takes a fuel bound on nesting depth. None means the calls are still
  nesting.
- common.js cannot load as written: `module.exorts`, the undefined
  `CreepRole`, and the unqualified `BodyPartCosts`. The model follows the
  evident meaning and takes the budget as a parameter.
- roomScanner.js line 1 carries stray text that would stop the file from
  parsing. The model reads past it.
- RoomScanner.ScanStructures: gives a repair task its kind from the first
  structure with that id. Ids are unique in the game.
- Tasks live in `Game.tasks`, which the game rebuilds every tick. The model
  treats the table as persisting between ticks, as the code evidently
  intends.
- Universal.Run and Universal.TakeTask: their contracts state only
  invariants and the idle cases. TakesTopRank pins the taking branch of
  findAndAssignTask. TakenTaskRunsTwice pins the run when the creep stays
  bound, and GiveUpThenFindsAny pins it when the creep is left idle.
  FindAnyTakesFirst and FindAnyTask's own contract pin findAnyTask.
- Roles.AssignAndPerform: states only invariants. Its behaviour is stated
  by FindAndAssignTask, through which every role reaches it.

## Findings

| source | as written | input that shows it | evidently intended | confidence | as-written member | corrected member |
|---|---|---|---|---|---|---|
| creep.prototype.taxi.js:61 | `this.findMinerForDelivery(source)` passes the source as the taxi parameter, so the search is centred on the source. | A taxi at (10,10) with a waiting miner at (10,11) and the source at (30,30): the prototype releases the task. | Search around the taxi, as roles/taxi.js:62 does. | high, not executed | Taxi.PrototypeMissesAdjacentMiner | Taxi.DeliveryFindsAdjacentMiner |
| creep.prototype.universal.js:101-103 | `currentTaskType` is cached and only deleted on completion. Giving a task up keeps it. | A creep caching BUILD whose site vanished takes an UPGRADE task next and calls `build` on the controller. | Drop the cache together with the binding. | high, not executed | Universal.StaleCacheExample | Universal.PerformTaskCorrected |
| spawnerManager.js:66 | `taskManager.ROLE.UNIVERSAL` does not exist, so the universal branch returns undefined. | A room with a pending miner task, no creeps of miner, courier or universal role, and no role-less creep: nothing is spawned. | ROLE has a UNIVERSAL entry, and the room spawns a universal creep. | high, not executed | Spawner.StrandedRoom | Spawner.EmptyRoomAlwaysSpawns |
| task.transferEnergy.js:276-284 | On a refused delivery next to an owned controller, it retargets the controller and calls itself again, with no bound. | A creep next to its controller while `upgradeController` answers ERR_INVALID_TARGET: the calls nest until the stack overflows, and the error escapes `run` and aborts the rest of the tick. | Try the controller once, then end the cycle. | high, not executed | TransferEnergy.DeliverRecursesForever | TransferEnergy.DeliverEnergy |
| roomScanner.js:225-231 | Validation completes the task of a vanished target, and an infinite MINE_SOURCE task restarts as PENDING instead of going away. | A source that disappears: its mining task stays PENDING for ever, and cleanup never removes it. | A task whose target is gone is removed. | medium, not executed | RoomScanner.VanishedSourceLingers | RoomScanner.ValidateTasksCorrected |

=== FILE: common_body.dfy ===
/** common.js buildBody: greedy allocation of MOVE, WORK and CARRY parts
    until the energy budget is spent exactly. The budget (the room's
    energyCapacityAvailable) is a parameter. */
module CommonBody {
  import opened Types
  import opened Spawner

  /** BodyPartCosts, in the order `for ... in` visits its keys. */
  const Order: seq<Part> := [Move, Work, Carry]

  /** One pass of the inner loop over Order, from part i on: a part is taken
      when the remainder still covers its price. */
  function Pass(aval: nat, i: nat): (r: (nat, seq<Part>))
    requires i <= |Order|
    ensures r.0 <= aval
    decreases |Order| - i
  {
    if i == |Order| then (aval, [])
    else
      var p := Order[i];
      if aval >= PartCost(p) then
        var rest := Pass(aval - PartCost(p), i + 1);
        (rest.0, [p] + rest.1)
      else Pass(aval, i + 1)
  }

  /** The parts a pass takes cost what it spent, and are all from Order. */
  lemma {:induction false} PassCost(aval: nat, i: nat)
    requires i <= |Order|
    ensures var r := Pass(aval, i);
            BodyCost(r.1) == aval - r.0 && forall k | 0 <= k < |r.1| :: r.1[k] in Order
    decreases |Order| - i
  {
    if i < |Order| {
      var p := Order[i];
      if aval >= PartCost(p) {
        var rest := Pass(aval - PartCost(p), i + 1);
        PassCost(aval - PartCost(p), i + 1);
        CostAppend([p], rest.1);
        assert BodyCost([p]) == PartCost(p) by { assert [p][..0] == []; }
      } else {
        PassCost(aval, i + 1);
      }
    }
  }

  /** A pass from a remainder of at least 50 spends something; from below 50
      it spends nothing. */
  lemma PassSpends(aval: nat)
    ensures aval >= 50 ==> Pass(aval, 0).0 < aval
    ensures aval < 50 ==> Pass(aval, 0) == (aval, [])
  {
  }

  /** A pass keeps the remainder's residue modulo 50 (every price is a
      multiple of 50). */
  lemma PassResidue(aval: nat, i: nat)
    requires i <= |Order|
    ensures Pass(aval, i).0 % 50 == aval % 50
    decreases |Order| - i
  {
    if i < |Order| {
      var c := PartCost(Order[i]);
      if aval >= c {
        assert c == 50 || c == 100;
        assert (aval - c) % 50 == aval % 50 by {
          if c == 50 { SubResidue(aval, 1); } else { SubResidue(aval, 2); }
        }
        PassResidue(aval - c, i + 1);
      } else {
        PassResidue(aval, i + 1);
      }
    }
  }

  lemma SubResidue(a: nat, q: nat)
    requires a >= 50 * q
    ensures (a - 50 * q) % 50 == a % 50
  {
    var d := a - 50 * q;
    assert a == d + 50 * q;
    assert d == 50 * (d / 50) + d % 50;
    assert a == 50 * (d / 50 + q) + d % 50;
  }

  /** The outer `while (aval > 0)` loop, run for at most `fuel` passes; None
      means it was still looping when the fuel ran out. */
  function Loop(aval: nat, fuel: nat): Option<seq<Part>>
    decreases fuel
  {
    if aval == 0 then Some([])
    else if fuel == 0 then None
    else
      var pass := Pass(aval, 0);
      var rest := Loop(pass.0, fuel - 1);
      if rest.None? then None else Some(pass.1 + rest.value)
  }

  /** Whatever the loop returns costs exactly the budget. */
  lemma {:induction false} LoopCost(aval: nat, fuel: nat)
    ensures Loop(aval, fuel).Some? ==> BodyCost(Loop(aval, fuel).value) == aval
    decreases fuel
  {
    if aval > 0 && fuel > 0 {
      var pass := Pass(aval, 0);
      var rest := Loop(pass.0, fuel - 1);
      if rest.Some? {
        var body := pass.1 + rest.value;
        assert Loop(aval, fuel) == Some(body);
        PassCost(aval, 0);
        LoopCost(pass.0, fuel - 1);
        CostAppend(pass.1, rest.value);
        assert BodyCost(body) == (aval - pass.0) + pass.0;
      }
    }
  }

  /** buildBody: the greedy body for the universal role, nothing for any other. */
  function BuildBody(role: Role, maxEnergy: nat, fuel: nat): (r: Option<seq<Part>>)
    ensures role != Universal ==> r == Some([])
    ensures role == Universal && r.Some? ==> BodyCost(r.value) == maxEnergy
  {
    LoopCost(maxEnergy, fuel);
    if role == Universal then Loop(maxEnergy, fuel) else Some([])
  }

  /** A budget of q times 50 is spent to the last unit within q passes. */
  lemma {:induction false} LoopEnds(aval: nat, q: nat, fuel: nat)
    requires aval == 50 * q && fuel >= q
    ensures Loop(aval, fuel).Some?
    decreases q
  {
    if q > 0 {
      var q' := NextMultiple(aval, q);
      LoopEnds(Pass(aval, 0).0, q', fuel - 1);
      LoopStep(aval, fuel);
    }
  }

  /** One turn of the outer loop. */
  lemma LoopStep(aval: nat, fuel: nat)
    requires aval > 0 && fuel > 0
    ensures Loop(aval, fuel).Some? <==> Loop(Pass(aval, 0).0, fuel - 1).Some?
  {
  }

  /** A pass from a positive multiple of 50 leaves a smaller multiple of 50. */
  lemma NextMultiple(aval: nat, q: nat) returns (q': nat)
    requires aval == 50 * q && q > 0
    ensures Pass(aval, 0).0 == 50 * q' && q' < q
  {
    var left := Pass(aval, 0).0;
    PassSpends(aval);
    PassResidue(aval, 0);
    assert aval % 50 == 0;
    q' := left / 50;
  }

  /** Any other budget never finishes: the remainder keeps its nonzero
      residue, so it never reaches 0, and once it is below 50 no pass spends
      anything. */
  lemma {:induction false} LoopSpins(aval: nat, fuel: nat)
    requires aval % 50 != 0
    ensures Loop(aval, fuel).None?
    decreases fuel
  {
    if fuel > 0 {
      PassResidue(aval, 0);
      LoopSpins(Pass(aval, 0).0, fuel - 1);
    }
  }

  /** buildBody returns, for some number of passes, exactly when the budget is
      a multiple of 50. */
  lemma BuildBodyReturns(maxEnergy: nat)
    ensures (exists fuel: nat :: BuildBody(Universal, maxEnergy, fuel).Some?) <==> maxEnergy % 50 == 0
  {
    if maxEnergy % 50 == 0 {
      LoopEnds(maxEnergy, maxEnergy / 50, maxEnergy / 50);
      assert BuildBody(Universal, maxEnergy, maxEnergy / 50).Some?;
    } else {
      forall fuel: nat ensures BuildBody(Universal, maxEnergy, fuel).None? {
        LoopSpins(maxEnergy, fuel);
      }
    }
  }

  /** The spawn's own capacity of 300 yields MOVE, WORK, CARRY, MOVE, CARRY. */
  lemma BuildBodyAt300()
    ensures BuildBody(Universal, 300, 2) == Some([Move, Work, Carry, Move, Carry])
  {
    assert Order[0] == Move && Order[1] == Work && Order[2] == Carry;
    assert Pass(100, 3) == (100, []);
    assert [Carry] + [] == [Carry];
    assert Pass(150, 2) == (100, [Carry]);
    assert [Work] + [Carry] == [Work, Carry];
    assert Pass(250, 1) == (100, [Work, Carry]);
    assert [Move] + [Work, Carry] == [Move, Work, Carry];
    assert Pass(300, 0) == (100, [Move, Work, Carry]);
    assert Pass(0, 3) == (0, []);
    assert Pass(50, 2) == (0, [Carry]);
    assert Pass(50, 1) == (0, [Carry]);
    assert [Move] + [Carry] == [Move, Carry];
    assert Pass(100, 0) == (0, [Move, Carry]);
    assert [Move, Carry] + [] == [Move, Carry];
    assert Loop(100, 1) == Some([Move, Carry]);
    assert [Move, Work, Carry] + [Move, Carry] == [Move, Work, Carry, Move, Carry];
  }
}

=== FILE: courier.dfy ===
/** The courier role of roles/courier.js and creep.prototype.courier.js:
    picks energy up from piles and unloads it next to itself. */
module Courier {
  import opened Types
  import opened TaskManager
  import opened Creeps
  import opened CreepPrototype
  import opened Roles

  /** performLoad withdraws from `task.source`, a field no task is ever
      created with, so the lookup finds nothing and no action follows. */
  function PerformLoad(o: Obs): (acts: seq<Action>)
    ensures acts == []
  {
    []
  }

  /** performTransport: load when empty, unload otherwise. */
  function PerformTransport(o: Obs): (acts: seq<Action>)
    ensures o.energy == 0 ==> acts == []
    ensures o.energy > 0 ==> acts == Unload(o)
  {
    if o.energy == 0 then PerformLoad(o) else Unload(o)
  }

  /** performCollectFromPile: unload when full, otherwise pick up; a successful
      pickup reports the carried energy as progress, an out-of-range pile is
      walked to, and a full store sends the courier to unload. */
  function PerformCollectFromPile(st: Store, c: Creep, t: Task, o: Obs): (r: Step)
    ensures !Present(o, t.target) ==>
              r == Step(CreepPrototype.ReleaseTask(st, c).store, CreepPrototype.ReleaseTask(st, c).creep, [])
    ensures Present(o, t.target) ==> r.creep == c
    ensures Present(o, t.target) && o.energy >= o.capacity ==> r == Step(st, c, Unload(o))
    ensures Present(o, t.target) && o.energy < o.capacity ==>
              && |r.actions| >= 1 && r.actions[0] == Pickup(t.target)
              && (o.work == Ok ==> r.actions == [Pickup(t.target)] &&
                                   r.store == CreepPrototype.UpdateTaskProgress(st, c, o.energy).store)
              && (o.work != Ok ==> r.store == st)
              && (o.work == ErrNotInRange ==> r.actions == [Pickup(t.target), MoveTo(t.target)])
              && (o.work == ErrFull ==> r.actions == [Pickup(t.target)] + Unload(o))
    ensures Valid(st) ==> Valid(r.store)
    ensures Inv(st) ==> Inv(r.store)
  {
    if !Present(o, t.target) then
      var b := CreepPrototype.ReleaseTask(st, c);
      Step(b.store, b.creep, [])
    else if o.energy >= o.capacity then Step(st, c, Unload(o))
    else
      var pick := [Pickup(t.target)];
      if o.work == Ok then Step(CreepPrototype.UpdateTaskProgress(st, c, o.energy).store, c, pick)
      else if o.work == ErrNotInRange then Step(st, c, pick + [MoveTo(t.target)])
      else if o.work == ErrFull then Step(st, c, pick + Unload(o))
      else Step(st, c, pick)
  }

  /** performCollection: dispatch on the task's type; other types are given up. */
  function PerformCollection(st: Store, c: Creep, o: Obs): (r: Step)
    ensures GetTask(st, c).None? || GetTask(st, c).value.ttype !in {CollectFromPile, Transport} ==>
              r == Step(CreepPrototype.ReleaseTask(st, c).store, CreepPrototype.ReleaseTask(st, c).creep, [])
    ensures GetTask(st, c).Some? && GetTask(st, c).value.ttype == Transport ==>
              r == Step(st, c, PerformTransport(o))
    ensures GetTask(st, c).Some? && GetTask(st, c).value.ttype == CollectFromPile ==>
              r == PerformCollectFromPile(st, c, GetTask(st, c).value, o)
    ensures r.creep == c || r.creep == c.(task := Cleared)
    ensures Valid(st) ==> Valid(r.store)
    ensures Inv(st) ==> Inv(r.store)
  {
    match GetTask(st, c)
    case None =>
      var b := CreepPrototype.ReleaseTask(st, c);
      Step(b.store, b.creep, [])
    case Some(t) =>
      if t.ttype == CollectFromPile then PerformCollectFromPile(st, c, t, o)
      else if t.ttype == Transport then Step(st, c, PerformTransport(o))
      else
        var b := CreepPrototype.ReleaseTask(st, c);
        Step(b.store, b.creep, [])
  }

  /** run: a bound courier collects; an idle one takes the first
      COLLECT_FROM_PILE or TRANSPORT task and works it at once, or else falls
      back to findAndAssignTask. */
  function Run(st: Store, c: Creep, o: Obs): (r: Step)
    ensures HasTask(c) ==> r == PerformCollection(st, c, o)
    ensures !HasTask(c) && FirstOfType(st, c, {CollectFromPile, Transport}).None? ==> r == FindAndAssignTask(st, c, o)
    ensures Valid(st) && !HasTask(c) && FirstOfType(st, c, {CollectFromPile, Transport}).Some? ==>
              r == PerformCollection(AssignFirstOfType(st, c, {CollectFromPile, Transport}).store,
                                     c.(task := Bound(FirstOfType(st, c, {CollectFromPile, Transport}).value.id)), o)
    ensures r.creep.name == c.name && r.creep.role == c.role
    ensures Valid(st) ==> Valid(r.store)
    ensures Inv(st) ==> Inv(r.store)
  {
    var a := if !HasTask(c) then AssignFirstOfType(st, c, {CollectFromPile, Transport}) else Bind(st, c, false);
    if HasTask(a.creep) then PerformCollection(a.store, a.creep, o)
    else FindAndAssignTask(a.store, a.creep, o)
  }

  /** A courier never picks up more than it can hold: when full it only
      unloads, and a pile's progress changes only through a successful pickup,
      to the energy carried (clamped to the task's limit). */
  lemma CollectRespectsCapacity(st: Store, c: Creep, o: Obs)
    requires GetTask(st, c).Some? && GetTask(st, c).value.ttype == CollectFromPile
    requires Present(o, GetTask(st, c).value.target)
    ensures var r := Run(st, c, o);
            var t := GetTask(st, c).value;
            && (o.energy >= o.capacity ==> forall i | 0 <= i < |r.actions| :: !r.actions[i].Pickup?)
            && (Get(r.store, t.id) != Get(st, t.id) ==>
                  o.energy < o.capacity && o.work == Ok && t.state == InProgress &&
                  Get(r.store, t.id) == Some(t.(progress := Min(o.energy, t.maxProgress))))
  {
    var t := GetTask(st, c).value;
    assert Run(st, c, o) == PerformCollection(st, c, o);
    if o.energy >= o.capacity {
      var u := Unload(o);
      assert forall i | 0 <= i < |u| :: u[i].Transfer? || u[i].MoveTo? by {
        if u != [] {
          forall i | 0 <= i < |u| ensures u[i].Transfer? || u[i].MoveTo? {
            assert u == Deliver(u[0].target, o.transfer);
          }
        }
      }
    }
  }
}

=== FILE: creep_manager.dfy ===
/** creepManager.js: the older, table-level creep driver. It works on the
    task table through taskManager directly (assignTaskToCreep, releaseTask,
    completeTask) and keeps only memory.taskId, memory.sourceId and
    memory.role on the creep side. */
module CreepManager {
  import opened Types
  import opened Sorting
  import opened TaskManager
  import opened Creeps
  import CreepPrototype
  import M = Miner

  /** The roles manageCreeps dispatches on, one handler each. */
  datatype Duty = MinerDuty | TaxiDuty | CourierDuty | BuilderDuty | RepairerDuty | UpgraderDuty | SpawnerDuty

  function DutyRole(d: Duty): Role {
    match d
    case MinerDuty => Miner
    case TaxiDuty => Taxi
    case CourierDuty => Courier
    case BuilderDuty => Builder
    case RepairerDuty => Repairer
    case UpgraderDuty => Upgrader
    case SpawnerDuty => Spawner
  }

  /** The handler manageCreeps runs for a role; DEFENDER (and any role the
      switch does not list) has none. */
  function DutyOf(role: Role): Option<Duty> {
    match role
    case Miner => Some(MinerDuty)
    case Taxi => Some(TaxiDuty)
    case Courier => Some(CourierDuty)
    case Builder => Some(BuilderDuty)
    case Repairer => Some(RepairerDuty)
    case Upgrader => Some(UpgraderDuty)
    case Spawner => Some(SpawnerDuty)
    case _ => None
  }

  /** The tasks an assign function accepts: the miner and the courier take
      the first available task whatever its type; the others look for their
      own type with `availableTasks.find`. */
  predicate Wanted(d: Duty, t: Task) {
    match d
    case MinerDuty => true
    case CourierDuty => true
    case TaxiDuty => t.ttype == DeliverMiner
    case BuilderDuty => t.ttype == Build
    case RepairerDuty => t.ttype == Repair
    case UpgraderDuty => t.ttype == Upgrade
    case SpawnerDuty => t.ttype == SpawnCreep
  }

  function WantedBy(d: Duty): Task -> bool { (t: Task) => Wanted(d, t) }

  /** What getAvailableTasksForRole lists for a role. */
  predicate Open(t: Task, role: Role) {
    t.state == Pending && role in t.roles && |t.assignees| < t.groupSize
  }

  /** The task an assign function picks: the first of getAvailableTasksForRole
      it wants, i.e. one of the highest priority and, in a valid table, the
      first of those in table order. */
  function Pick(st: Store, d: Duty): (r: Option<Task>)
    ensures r.Some? ==> r.value in st.tasks && Open(r.value, DutyRole(d)) && Wanted(d, r.value)
    ensures r.Some? ==> forall t | t in st.tasks && Open(t, DutyRole(d)) && Wanted(d, t) ::
                          PriorityRank(t) <= PriorityRank(r.value)
    ensures r.None? <==> forall t | t in st.tasks && Open(t, DutyRole(d)) :: !Wanted(d, t)
    ensures Valid(st) && r.Some? ==>
              forall t | t in st.tasks && Open(t, DutyRole(d)) && Wanted(d, t) && t != r.value :: Precedes(r.value, t)
  {
    var picked := Filter(AvailableTasksForRole(st, DutyRole(d)), WantedBy(d));
    if |picked| == 0 then
      NothingWanted(st, d);
      None
    else
      HeadWanted(st, d);
      WantedHeadFirst(st, d);
      Some(picked[0])
  }

  lemma WantedHeadFirst(st: Store, d: Duty)
    requires |Filter(AvailableTasksForRole(st, DutyRole(d)), WantedBy(d))| > 0
    ensures var h := Filter(AvailableTasksForRole(st, DutyRole(d)), WantedBy(d))[0];
            Valid(st) ==>
              forall t | t in st.tasks && Open(t, DutyRole(d)) && Wanted(d, t) && t != h :: Precedes(h, t)
  {
    var avail := AvailableTasksForRole(st, DutyRole(d));
    if Valid(st) {
      FilterHeadFirst(avail, WantedBy(d), Precedes);
      var h := Filter(avail, WantedBy(d))[0];
      forall t | t in st.tasks && Open(t, DutyRole(d)) && Wanted(d, t) && t != h ensures Precedes(h, t) {
        assert t in avail && WantedBy(d)(t);
      }
    }
  }

  lemma NothingWanted(st: Store, d: Duty)
    requires |Filter(AvailableTasksForRole(st, DutyRole(d)), WantedBy(d))| == 0
    ensures forall t | t in st.tasks && Open(t, DutyRole(d)) :: !Wanted(d, t)
  {
    var avail := AvailableTasksForRole(st, DutyRole(d));
    forall t | t in st.tasks && Open(t, DutyRole(d)) ensures !Wanted(d, t) {
      assert t in avail;
      assert t !in Filter(avail, WantedBy(d));
    }
  }

  lemma HeadWanted(st: Store, d: Duty)
    requires |Filter(AvailableTasksForRole(st, DutyRole(d)), WantedBy(d))| > 0
    ensures var h := Filter(AvailableTasksForRole(st, DutyRole(d)), WantedBy(d))[0];
            && h in st.tasks && Open(h, DutyRole(d)) && Wanted(d, h)
            && forall t | t in st.tasks && Open(t, DutyRole(d)) && Wanted(d, t) :: PriorityRank(t) <= PriorityRank(h)
  {
    var avail := AvailableTasksForRole(st, DutyRole(d));
    var picked := Filter(avail, WantedBy(d));
    assert picked[0] in picked;
    FilterHeadBest(avail, WantedBy(d), PriorityRank);
    forall t | t in st.tasks && Open(t, DutyRole(d)) && Wanted(d, t)
      ensures PriorityRank(t) <= PriorityRank(picked[0])
    {
      assert t in avail && WantedBy(d)(t);
    }
  }

  /** assignMinerToSource, assignTaxiTask, assignCourierTask, ...: bind the
      picked task through assignTaskToCreep; the miner also records the
      task's target as its source and its role as MINER. */
  function Assign(st: Store, c: Creep, d: Duty): (r: CreepPrototype.Bind)
    ensures !r.ok ==> r.store == st && r.creep == c
    ensures r.ok ==> Pick(st, d).Some?
    ensures Valid(st) && Pick(st, d).Some? ==> r.ok
    ensures r.ok ==>
              var t := Pick(st, d).value;
              && r.store == AssignTaskToCreep(st, t.id, c.name).store
              && r.creep == (if d == MinerDuty then c.(task := Bound(t.id), sourceId := Some(t.target), role := Some(Miner))
                             else c.(task := Bound(t.id)))
    ensures Valid(st) && r.ok ==>
              var t := Pick(st, d).value;
              Get(r.store, t.id) == Some(t.(state := InProgress, assignees := t.assignees + [c.name]))
    ensures Valid(st) ==> Valid(r.store)
    ensures Inv(st) ==> Inv(r.store)
  {
    match Pick(st, d)
    case None => CreepPrototype.Bind(st, c, false)
    case Some(t) =>
      GetMember(st, t);
      var u := AssignTaskToCreep(st, t.id, c.name);
      if !u.ok then CreepPrototype.Bind(st, c, false)
      else if d == MinerDuty then
        CreepPrototype.Bind(u.store, c.(task := Bound(t.id), sourceId := Some(t.target), role := Some(Miner)), true)
      else CreepPrototype.Bind(u.store, c.(task := Bound(t.id)), true)
  }

  /** The second half of handleMiner: harvest the remembered source, walking
      there when out of range, or forget a source that is gone while keeping
      the task. */
  function Mine(st: Store, c: Creep, o: Obs): (r: Step)
    ensures r.store == st && r.creep.task == c.task
    ensures !M.HasSource(c) ==> r.creep == c && r.actions == []
    ensures M.HasSource(c) && !Present(o, c.sourceId.value) ==> r.creep == c.(sourceId := None) && r.actions == []
    ensures M.HasSource(c) && Present(o, c.sourceId.value) ==>
              var src := c.sourceId.value;
              r.creep == c && r.actions == [Harvest(src)] + (if o.work == ErrNotInRange then [MoveTo(src)] else [])
  {
    if !M.HasSource(c) then Step(st, c, [])
    else
      var src := c.sourceId.value;
      if !Present(o, src) then Step(st, c.(sourceId := None), [])
      else if o.work == ErrNotInRange then Step(st, c, [Harvest(src), MoveTo(src)])
      else Step(st, c, [Harvest(src)])
  }

  /** handleMiner: a miner without a source is first assigned one. */
  function HandleMiner(st: Store, c: Creep, o: Obs): (r: Step)
    ensures M.HasSource(c) ==> r == Mine(st, c, o)
    ensures !M.HasSource(c) ==> r == Mine(Assign(st, c, MinerDuty).store, Assign(st, c, MinerDuty).creep, o)
    ensures r.creep.name == c.name
    ensures Valid(st) ==> Valid(r.store)
    ensures Inv(st) ==> Inv(r.store)
  {
    var a := if !M.HasSource(c) then Assign(st, c, MinerDuty) else CreepPrototype.Bind(st, c, false);
    Mine(a.store, a.creep, o)
  }

  /** The outcome of a handler. `threw` is set when the handler raises: the
      courier's TRANSPORT branch calls handleTransport, which the file never
      defines, so the call is a ReferenceError. */
  datatype Turn = Turn(step: Step, threw: bool)

  /** releaseTask(task.id) and memory.taskId = null. releaseTask is called
      without a creep name, so it removes nobody from the assignees. */
  function Drop(st: Store, c: Creep, t: Task): (r: Step)
    ensures r.creep == c.(task := Cleared) && r.actions == []
    ensures r.store == TaskManager.ReleaseTask(st, t.id, None).store
    ensures Valid(st) ==> Valid(r.store)
    ensures Inv(st) ==> Inv(r.store)
  {
    Step(TaskManager.ReleaseTask(st, t.id, None).store, c.(task := Cleared), [])
  }

  /** The creepManager version of findMinerForDelivery: a MINER with no
      source on the taxi's own tile (no range, no task check). */
  function OnTileMiner(p: Pos): CreepView -> bool {
    (v: CreepView) => v.role == Some(Miner) && !Sourced(v.sourceId) && v.pos == p
  }

  /** handleTaxiDelivery */
  function TaxiWork(st: Store, c: Creep, t: Task, o: Obs): (r: Step)
    ensures !Present(o, t.target) || FindFirst(o.creeps, OnTileMiner(o.pos)).None? ==> r == Drop(st, c, t)
    ensures Present(o, t.target) && FindFirst(o.creeps, OnTileMiner(o.pos)).Some? ==>
              if o.pos == o.targetPos then r == Step(TaskManager.CompleteTask(st, t.id).store, c.(task := Cleared), [])
              else r == Step(st, c, [MoveTo(t.target)])
    ensures Valid(st) ==> Valid(r.store)
    ensures Inv(st) ==> Inv(r.store)
  {
    if !Present(o, t.target) then Drop(st, c, t)
    else if FindFirst(o.creeps, OnTileMiner(o.pos)).None? then Drop(st, c, t)
    else if o.pos == o.targetPos then Step(TaskManager.CompleteTask(st, t.id).store, c.(task := Cleared), [])
    else Step(st, c, [MoveTo(t.target)])
  }

  /** handleCourierWork: collect from a pile; TRANSPORT raises; any other type
      falls through the switch. */
  function CourierWork(st: Store, c: Creep, t: Task, o: Obs): (r: Turn)
    ensures r.threw <==> t.ttype == Transport
    ensures t.ttype == CollectFromPile && !Present(o, t.target) ==> r.step == Drop(st, c, t)
    ensures t.ttype == CollectFromPile && Present(o, t.target) ==>
              r.step == Step(st, c, [Pickup(t.target)] + (if o.work == ErrNotInRange then [MoveTo(t.target)] else []))
    ensures t.ttype != CollectFromPile ==> r.step == Step(st, c, [])
    ensures Valid(st) ==> Valid(r.step.store)
    ensures Inv(st) ==> Inv(r.step.store)
  {
    if t.ttype == CollectFromPile then
      if !Present(o, t.target) then Turn(Drop(st, c, t), false)
      else if o.work == ErrNotInRange then Turn(Step(st, c, [Pickup(t.target), MoveTo(t.target)]), false)
      else Turn(Step(st, c, [Pickup(t.target)]), false)
    else Turn(Step(st, c, []), t.ttype == Transport)
  }

  /** build(site), repair(structure) or upgradeController(controller). */
  function DutyAction(d: Duty, target: EntityId): Action {
    match d
    case BuilderDuty => BuildAt(target)
    case RepairerDuty => RepairAt(target)
    case _ => UpgradeAt(target)
  }

  /** handleBuildWork, handleRepairWork, handleUpgradeWork: the action is tried;
      without energy the creep withdraws from the closest storage holding
      energy, otherwise it tries again and walks to the target when that
      second try is out of range. Progress is never reported and the task
      never completed. */
  function Labour(st: Store, c: Creep, t: Task, o: Obs, d: Duty): (r: Step)
    ensures !Present(o, t.target) ==> r == Drop(st, c, t)
    ensures Present(o, t.target) ==> r.store == st && r.creep == c
    ensures Present(o, t.target) && o.work == ErrNotEnough ==>
              r.actions == [DutyAction(d, t.target)] + CreepPrototype.RefillEnergy(o).1
    ensures Present(o, t.target) && o.work != ErrNotEnough ==>
              r.actions == [DutyAction(d, t.target), DutyAction(d, t.target)] +
                           (if o.work2 == ErrNotInRange then [MoveTo(t.target)] else [])
    ensures Valid(st) ==> Valid(r.store)
    ensures Inv(st) ==> Inv(r.store)
  {
    var act := DutyAction(d, t.target);
    if !Present(o, t.target) then Drop(st, c, t)
    else if o.work == ErrNotEnough then Step(st, c, [act] + CreepPrototype.RefillEnergy(o).1)
    else if o.work2 == ErrNotInRange then Step(st, c, [act, act, MoveTo(t.target)])
    else Step(st, c, [act, act])
  }

  /** The work a handler does on its IN_PROGRESS task. handleSpawnWork only logs. */
  function Work(st: Store, c: Creep, t: Task, o: Obs, d: Duty): (r: Turn)
    requires d != MinerDuty
    ensures r.threw ==> d == CourierDuty && t.ttype == Transport
    ensures d == TaxiDuty ==> r == Turn(TaxiWork(st, c, t, o), false)
    ensures d == CourierDuty ==> r == CourierWork(st, c, t, o)
    ensures d in {BuilderDuty, RepairerDuty, UpgraderDuty} ==> r == Turn(Labour(st, c, t, o, d), false)
    ensures d == SpawnerDuty ==> r == Turn(Step(st, c, []), false)
    ensures Valid(st) ==> Valid(r.step.store)
    ensures Inv(st) ==> Inv(r.step.store)
  {
    match d
    case TaxiDuty => Turn(TaxiWork(st, c, t, o), false)
    case CourierDuty => CourierWork(st, c, t, o)
    case SpawnerDuty => Turn(Step(st, c, []), false)
    case _ => Turn(Labour(st, c, t, o, d), false)
  }

  /** The task the creep's memory.taskId names, if it is still IN_PROGRESS. */
  function Active(st: Store, c: Creep): Option<Task> {
    if HasTask(c) && Get(st, c.task.id).Some? && Get(st, c.task.id).value.state == InProgress
    then Get(st, c.task.id) else None
  }

  /** The second half of handleTaxi, handleCourier, handleBuilder,
      handleRepairer, handleUpgrader and handleSpawner: a bound creep works
      on its task while it is IN_PROGRESS and otherwise just forgets it. */
  function Attend(st: Store, c: Creep, o: Obs, d: Duty): (r: Turn)
    requires d != MinerDuty
    ensures !HasTask(c) ==> r == Turn(Step(st, c, []), false)
    ensures HasTask(c) && Active(st, c).None? ==> r == Turn(Step(st, c.(task := Cleared), []), false)
    ensures Active(st, c).Some? ==> r == Work(st, c, Active(st, c).value, o, d)
    ensures r.step.creep == c || r.step.creep == c.(task := Cleared)
    ensures r.threw ==> d == CourierDuty
    ensures Valid(st) ==> Valid(r.step.store)
    ensures Inv(st) ==> Inv(r.step.store)
  {
    if !HasTask(c) then Turn(Step(st, c, []), false)
    else
      match Active(st, c)
      case None => Turn(Step(st, c.(task := Cleared), []), false)
      case Some(t) => Work(st, c, t, o, d)
  }

  /** The handlers other than handleMiner: an idle creep is first assigned a task. */
  function Handle(st: Store, c: Creep, o: Obs, d: Duty): (r: Turn)
    requires d != MinerDuty
    ensures HasTask(c) ==> r == Attend(st, c, o, d)
    ensures !HasTask(c) ==> r == Attend(Assign(st, c, d).store, Assign(st, c, d).creep, o, d)
    ensures r.step.creep.name == c.name && r.step.creep.role == c.role && r.step.creep.sourceId == c.sourceId
    ensures r.threw ==> d == CourierDuty
    ensures Valid(st) ==> Valid(r.step.store)
    ensures Inv(st) ==> Inv(r.step.store)
  {
    var a := if HasTask(c) then CreepPrototype.Bind(st, c, false) else Assign(st, c, d);
    Attend(a.store, a.creep, o, d)
  }

  /** One creep of manageCreeps: no role, or a role without a handler, is skipped. */
  function HandleCreep(st: Store, c: Creep, o: Obs): (r: Turn)
    ensures c.role.None? || DutyOf(c.role.value).None? ==> r == Turn(Step(st, c, []), false)
    ensures c.role == Some(Miner) ==> r == Turn(HandleMiner(st, c, o), false)
    ensures r.threw ==> c.role == Some(Courier)
    ensures r.step.creep.name == c.name
    ensures Valid(st) ==> Valid(r.step.store)
    ensures Inv(st) ==> Inv(r.step.store)
  {
    if c.role.None? then Turn(Step(st, c, []), false)
    else
      match DutyOf(c.role.value)
      case None => Turn(Step(st, c, []), false)
      case Some(d) =>
        if d == MinerDuty then Turn(HandleMiner(st, c, o), false)
        else
          assert d == CourierDuty ==> c.role == Some(Courier);
          Handle(st, c, o, d)
  }

  /** The outcome of a sweep over the creeps: the table, every creep's memory
      (in the order given), the actions of the creeps handled, and whether a
      handler raised, which ends the sweep with the state reached so far. */
  datatype Sweep = Sweep(store: Store, creeps: seq<Creep>, actions: seq<seq<Action>>, threw: bool)

  /** manageCreeps over Object.values(Game.creeps), each with what it sees. */
  function ManageCreeps(st: Store, cs: seq<(Creep, Obs)>): (r: Sweep)
    ensures |r.creeps| == |cs|
    ensures |r.actions| <= |cs| && (!r.threw ==> |r.actions| == |cs|)
    ensures r.threw ==> exists i | 0 <= i < |cs| :: cs[i].0.role == Some(Courier)
    ensures Valid(st) ==> Valid(r.store)
    ensures Inv(st) ==> Inv(r.store)
    decreases |cs|
  {
    if cs == [] then Sweep(st, [], [], false)
    else
      var h := HandleCreep(st, cs[0].0, cs[0].1);
      if h.threw then
        var unvisited := seq(|cs| - 1, i requires 0 <= i < |cs| - 1 => cs[i + 1].0);
        Sweep(h.step.store, [h.step.creep] + unvisited, [h.step.actions], true)
      else
        var tail := cs[1..];
        var rest := ManageCreeps(h.step.store, tail);
        assert rest.threw ==> exists i | 0 <= i < |tail| :: tail[i].0.role == Some(Courier);
        assert forall i | 0 <= i < |tail| :: tail[i] == cs[i + 1];
        Sweep(rest.store, [h.step.creep] + rest.creeps, [h.step.actions] + rest.actions, rest.threw)
  }

  /** A creep's memory after its turn: the same name, and exactly the memory it
      had when it has no role. */
  predicate Kept(before: Creep, after: Creep) {
    after.name == before.name && (before.role.None? ==> after == before)
  }

  /** Every creep's memory keeps its name, and a creep with no role is left
      exactly as it was. */
  lemma {:induction false} SweepKeepsCreeps(st: Store, cs: seq<(Creep, Obs)>)
    ensures var r := ManageCreeps(st, cs);
            forall i | 0 <= i < |cs| :: Kept(cs[i].0, r.creeps[i])
    decreases |cs|
  {
    if cs != [] {
      var h, later := SweepStep(st, cs);
      var tail := cs[1..];
      if !h.threw {
        SweepKeepsCreeps(h.step.store, tail);
      } else {
        assert forall i | 0 <= i < |tail| :: later[i] == tail[i].0;
      }
      KeptCons(cs, h.step.creep, later);
    }
  }

  /** The sweep's creeps are the head's turn followed by the rest. */
  lemma KeptCons(cs: seq<(Creep, Obs)>, first: Creep, later: seq<Creep>)
    requires cs != [] && |later| == |cs| - 1
    requires first.name == cs[0].0.name && (cs[0].0.role.None? ==> first == cs[0].0)
    requires forall i | 0 <= i < |cs[1..]| :: Kept(cs[1..][i].0, later[i])
    ensures forall i | 0 <= i < |cs| :: Kept(cs[i].0, ([first] + later)[i])
  {
    forall i | 0 <= i < |cs| ensures Kept(cs[i].0, ([first] + later)[i]) {
      if i > 0 {
        assert cs[i] == cs[1..][i - 1];
      }
    }
  }

  /** One creep of the sweep: its handler's turn, then the creeps after it,
      handled when it did not raise and as they were when it did. */
  lemma SweepStep(st: Store, cs: seq<(Creep, Obs)>) returns (h: Turn, later: seq<Creep>)
    requires cs != []
    ensures h == HandleCreep(st, cs[0].0, cs[0].1)
    ensures !h.threw ==> later == ManageCreeps(h.step.store, cs[1..]).creeps
    ensures h.threw ==> |later| == |cs| - 1 && forall i | 0 <= i < |later| :: later[i] == cs[i + 1].0
    ensures ManageCreeps(st, cs).creeps == [h.step.creep] + later
  {
    h := HandleCreep(st, cs[0].0, cs[0].1);
    later := if h.threw then seq(|cs| - 1, i requires 0 <= i < |cs| - 1 => cs[i + 1].0)
             else ManageCreeps(h.step.store, cs[1..]).creeps;
  }

  // ---------------------------------------------------------------------------
  // Properties

  /** A handler that gives up a task forgets it without taking its name off:
      the task stays IN_PROGRESS with the same assignees, although no creep
      will work on it through this binding again. */
  lemma DropOrphansTask(st: Store, c: Creep, t: Task)
    requires Inv(st) && Get(st, t.id) == Some(t) && t.state == InProgress
    ensures Drop(st, c, t).creep.task == Cleared
    ensures Get(Drop(st, c, t).store, t.id) == Some(t)
  {
    InvGet(st, t.id);
  }

  /** Outside the taxi's delivery, no handler of creepManager completes a
      task: every COMPLETED task afterwards was COMPLETED before. */
  lemma OnlyTaxiCompletes(st: Store, c: Creep, o: Obs, d: Duty)
    requires d != MinerDuty && d != TaxiDuty
    ensures var r := Handle(st, c, o, d);
            forall id | Get(r.step.store, id).Some? && Get(r.step.store, id).value.state == Completed ::
              Get(st, id).Some? && Get(st, id).value.state == Completed
  {
    if !HasTask(c) {
      var a := Assign(st, c, d);
      AssignCompletesNothing(st, c, d);
      AttendCompletesNothing(a.store, a.creep, o, d);
    } else {
      AttendCompletesNothing(st, c, o, d);
    }
  }

  lemma AssignCompletesNothing(st: Store, c: Creep, d: Duty)
    ensures var a := Assign(st, c, d);
            forall id | Get(a.store, id).Some? && Get(a.store, id).value.state == Completed ::
              Get(st, id).Some? && Get(st, id).value.state == Completed
  {
    var a := Assign(st, c, d);
    if a.ok {
      var t := Pick(st, d).value;
      var u := AssignTaskToCreep(st, t.id, c.name);
      assert u.ok && a.store == u.store;
      assert Get(u.store, t.id).value.state == InProgress;
    }
  }

  lemma AttendCompletesNothing(st: Store, c: Creep, o: Obs, d: Duty)
    requires d != MinerDuty && d != TaxiDuty
    ensures var r := Attend(st, c, o, d);
            forall id | Get(r.step.store, id).Some? && Get(r.step.store, id).value.state == Completed ::
              Get(st, id).Some? && Get(st, id).value.state == Completed
  {
    var r := Attend(st, c, o, d);
    if Active(st, c).Some? {
      var t := Active(st, c).value;
      if r.step.store != st {
        assert r.step.store == TaskManager.ReleaseTask(st, t.id, None).store;
        assert Get(r.step.store, t.id) == Some(Released(t, None));
      }
    }
  }

  /** The taxi handler completes a task only with a source-less miner on its
      own tile and the taxi standing on the source. */
  lemma TaxiCompletesOnSource(st: Store, c: Creep, t: Task, o: Obs)
    requires Get(st, t.id) == Some(t) && t.state == InProgress && !t.infinite
    ensures var r := TaxiWork(st, c, t, o);
            Get(r.store, t.id).Some? && Get(r.store, t.id).value.state == Completed <==>
              Present(o, t.target) && FindFirst(o.creeps, OnTileMiner(o.pos)).Some? && o.pos == o.targetPos
  {
  }

  /** A miner that already has a source keeps its task binding whatever it
      sees: a vanished source only clears the source. */
  lemma MinerKeepsTask(st: Store, c: Creep, o: Obs)
    requires M.HasSource(c)
    ensures HandleMiner(st, c, o).creep.task == c.task
    ensures HandleMiner(st, c, o).store == st
    ensures !Present(o, c.sourceId.value) ==> HandleMiner(st, c, o).creep == c.(sourceId := None)
  {
  }

  /** A sweep over creeps none of which is a courier runs to the end. */
  lemma {:induction false} NoCourierNoThrow(st: Store, cs: seq<(Creep, Obs)>)
    requires forall i | 0 <= i < |cs| :: cs[i].0.role != Some(Courier)
    ensures !ManageCreeps(st, cs).threw && |ManageCreeps(st, cs).actions| == |cs|
    decreases |cs|
  {
    if cs != [] {
      NoCourierNoThrow(HandleCreep(st, cs[0].0, cs[0].1).step.store, cs[1..]);
    }
  }
}

=== FILE: creep_prototype.dfy ===
/** The methods creepPrototype.js adds to every creep: binding a creep to a
    task, releasing and completing it, the role/room-aware task query, the
    best-task matcher, and the base performTask dispatcher. */
module CreepPrototype {
  import opened Types
  import opened Sorting
  import opened TaskManager
  import opened Creeps

  /** A store mutation that also rewrites this creep's memory. */
  datatype Bind = Bind(store: Store, creep: Creep, ok: bool)

  /** Result of a perform method: the code it returns, with the effects. */
  datatype Perf = Perf(store: Store, creep: Creep, code: Code, actions: seq<Action>)

  // ---------------------------------------------------------------------------
  // Binding

  /** The role in memory is one the task accepts (`roles.includes(role)`). */
  predicate Accepts(t: Task, role: Option<Role>) { role.Some? && role.value in t.roles }

  /** assignTask: needs an existing task, an accepted role and an idle creep;
      the task's state and group size are not consulted. */
  function AssignTask(st: Store, c: Creep, id: TaskId): (r: Bind)
    ensures r.ok <==> Get(st, id).Some? && Accepts(Get(st, id).value, c.role) && !HasTask(c)
    ensures !r.ok ==> r.store == st && r.creep == c
    ensures r.ok ==> r.creep == c.(task := Bound(id))
    ensures r.ok ==> var t := Get(st, id).value;
                     Get(r.store, id) == Some(t.(assignees := t.assignees + [c.name], state := InProgress))
    ensures forall other | other != id :: Get(r.store, other) == Get(st, other)
    ensures Valid(st) ==> Valid(r.store)
    ensures Inv(st) ==> Inv(r.store)
  {
    match Get(st, id)
    case None => Bind(st, c, false)
    case Some(t) =>
      if !Accepts(t, c.role) || HasTask(c) then Bind(st, c, false)
      else
        InvGet(st, id);
        Bind(Set(st, t.(assignees := t.assignees + [c.name], state := InProgress)),
             c.(task := Bound(id)), true)
  }

  /** releaseTask: drops this creep from its task (whatever the task's state)
      and always forgets the binding, even when the task is gone. */
  function ReleaseTask(st: Store, c: Creep): (r: Bind)
    ensures !HasTask(c) ==> r == Bind(st, c, false)
    ensures HasTask(c) ==> r.ok && r.creep == c.(task := Cleared)
    ensures HasTask(c) ==> (Get(r.store, c.task.id) ==
              if Get(st, c.task.id).Some? then Some(Released(Get(st, c.task.id).value, Some(c.name))) else None)
    ensures HasTask(c) ==> forall other | other != c.task.id :: Get(r.store, other) == Get(st, other)
    ensures Valid(st) ==> Valid(r.store)
    ensures Inv(st) ==> Inv(r.store)
  {
    if !HasTask(c) then Bind(st, c, false)
    else
      match Get(st, c.task.id)
      case None => Bind(st, c.(task := Cleared), true)
      case Some(t) =>
        InvGet(st, c.task.id);
        Bind(Set(st, Released(t, Some(c.name))), c.(task := Cleared), true)
  }

  /** completeTask: restarts an infinite task or retires any other one, and
      clears only this creep's binding. */
  function CompleteTask(st: Store, c: Creep): (r: Bind)
    ensures !HasTask(c) ==> r == Bind(st, c, false)
    ensures HasTask(c) ==> r.ok && r.creep == c.(task := Cleared)
    ensures HasTask(c) ==> (Get(r.store, c.task.id) ==
              if Get(st, c.task.id).Some? then Some(Finished(Get(st, c.task.id).value)) else None)
    ensures HasTask(c) ==> forall other | other != c.task.id :: Get(r.store, other) == Get(st, other)
    ensures Valid(st) ==> Valid(r.store)
    ensures Inv(st) ==> Inv(r.store)
  {
    if !HasTask(c) then Bind(st, c, false)
    else
      match Get(st, c.task.id)
      case None => Bind(st, c.(task := Cleared), true)
      case Some(t) =>
        InvGet(st, c.task.id);
        Bind(Set(st, Finished(t)), c.(task := Cleared), true)
  }

  /** updateTaskProgress: the task manager's clamped update, for a bound creep only. */
  function UpdateTaskProgress(st: Store, c: Creep, value: int): (r: Update)
    ensures !HasTask(c) ==> r == Update(st, false)
    ensures HasTask(c) ==> r == TaskManager.UpdateTaskProgress(st, c.task.id, value)
    ensures r.ok ==> var t := Get(st, c.task.id).value;
                     t.state == InProgress &&
                     Get(r.store, c.task.id) == Some(t.(progress := Min(value, t.maxProgress)))
    ensures Valid(st) ==> Valid(r.store)
    ensures Inv(st) ==> Inv(r.store)
  {
    if !HasTask(c) then Update(st, false)
    else TaskManager.UpdateTaskProgress(st, c.task.id, value)
  }

  /** On the creep's IN_PROGRESS task the report goes through, capped at the
      task's maximum, and the creep still sees its task. */
  lemma ProgressOnActive(st: Store, c: Creep, value: int)
    requires GetTask(st, c).Some? && GetTask(st, c).value.state == InProgress
    ensures var u := UpdateTaskProgress(st, c, value);
            var t := GetTask(st, c).value;
            u.ok && GetTask(u.store, c) == Some(t.(progress := Min(value, t.maxProgress)))
  {
    assert Get(st, c.task.id) == GetTask(st, c);
  }

  /** On a task IN_PROGRESS the prototype's release has the same effect on the
      table as the task manager's release with this creep's name. */
  lemma ReleaseAgreesWithManager(st: Store, c: Creep)
    requires HasTask(c) && Get(st, c.task.id).Some? && Get(st, c.task.id).value.state == InProgress
    ensures ReleaseTask(st, c).store == TaskManager.ReleaseTask(st, c.task.id, Some(c.name)).store
  {
  }

  /** ... and so does completion. */
  lemma CompleteAgreesWithManager(st: Store, c: Creep)
    requires HasTask(c)
    ensures CompleteTask(st, c).store == TaskManager.CompleteTask(st, c.task.id).store
  {
  }

  /** A creep that takes a PENDING task and lets it go leaves the table as it found it. */
  lemma AssignThenReleaseRestores(st: Store, c: Creep, id: TaskId)
    requires Valid(st) && Inv(st) && !HasTask(c)
    requires Get(st, id).Some? && Get(st, id).value.state == Pending && Accepts(Get(st, id).value, c.role)
    ensures var a := AssignTask(st, c, id);
            var r := ReleaseTask(a.store, a.creep);
            a.ok && r.ok && r.store == st && r.creep == c.(task := Cleared)
  {
    var t := Get(st, id).value;
    InvGet(st, id);
    var t1 := t.(assignees := t.assignees + [c.name], state := InProgress);
    assert t.assignees + [c.name] == [c.name];
    assert RemoveName([c.name], Some(c.name)) == [];
    assert Released(t1, Some(c.name)) == t;
    PutRestore(st.tasks, t, t1);
  }

  // ---------------------------------------------------------------------------
  // Task queries

  /** The filter of getAvailableTasks. */
  predicate Eligible(t: Task, c: Creep) {
    t.state == Pending && Accepts(t, c.role) && RoomOpen(t, c.room)
  }

  /** getAvailableTasks: the PENDING tasks for this creep's role and room, by priority. */
  function GetAvailableTasks(st: Store, c: Creep): (r: seq<Task>)
    ensures forall t :: t in r <==> t in st.tasks && Eligible(t, c)
    ensures forall i, j | 0 <= i < j < |r| :: PriorityRank(r[i]) >= PriorityRank(r[j])
    ensures Valid(st) ==> forall i, j | 0 <= i < j < |r| :: Precedes(r[i], r[j])
  {
    var ts := Filter(st.tasks, (t: Task) => Eligible(t, c));
    FilterIdsIncreasing(st.tasks, (t: Task) => Eligible(t, c));
    var r := SortTasksByPriority(ts);
    assert forall t :: t in r <==> t in ts by {
      forall t ensures t in r <==> t in ts {
        assert t in r <==> multiset(r)[t] > 0;
      }
    }
    r
  }

  /** `!task.groupSize || task.groupSize === 1` */
  predicate Single(t: Task) { t.groupSize == 0 || t.groupSize == 1 }

  /** `task.groupSize && task.groupSize > 1` */
  predicate Group(t: Task) { t.groupSize > 1 }

  predicate HasRoom(t: Task) { |t.assignees| < t.groupSize }

  function MostAssigned(ts: seq<Task>): (m: nat)
    ensures forall i | 0 <= i < |ts| :: |ts[i].assignees| <= m
  {
    if ts == [] then 0
    else
      var rest := MostAssigned(ts[1..]);
      assert forall i | 1 <= i < |ts| :: ts[i] == ts[1..][i - 1];
      if |ts[0].assignees| > rest then |ts[0].assignees| else rest
  }

  /** The descending key that puts fewer assignees first (ties keep their order). */
  function Fewness(m: nat): Task -> nat {
    (t: Task) => if |t.assignees| <= m then m - |t.assignees| else 0
  }

  /** `groupTasks.sort((a, b) => a.assignedCreeps.length - b.assignedCreeps.length)` */
  function FewestFirst(ts: seq<Task>): (r: seq<Task>)
    ensures multiset(r) == multiset(ts)
    ensures forall i, j | 0 <= i < j < |r| :: |r[i].assignees| <= |r[j].assignees|
  {
    var m := MostAssigned(ts);
    SortDescPermutes(ts, Fewness(m), m);
    var r := SortDesc(ts, Fewness(m), m);
    forall i | 0 <= i < |r| ensures |r[i].assignees| <= m {
      assert r[i] in multiset(ts);
      var k :| 0 <= k < |ts| && ts[k] == r[i];
    }
    r
  }

  /** Tasks with as many assignees keep the order they had before the sort. */
  lemma FewestFirstTies(ts: seq<Task>)
    ensures var r := FewestFirst(ts);
            (forall i, j | 0 <= i < j < |ts| :: Precedes(ts[i], ts[j])) ==>
            forall i, j | 0 <= i < j < |r| && |r[i].assignees| == |r[j].assignees| :: Precedes(r[i], r[j])
  {
    if forall i, j | 0 <= i < j < |ts| :: Precedes(ts[i], ts[j]) {
      var m := MostAssigned(ts);
      SortDescTies(ts, Fewness(m), m, Precedes);
      var r := FewestFirst(ts);
      forall i, j | 0 <= i < j < |r| && |r[i].assignees| == |r[j].assignees| ensures Precedes(r[i], r[j]) {
        assert Fewness(m)(r[i]) == Fewness(m)(r[j]);
      }
    }
  }

  /** The tasks findBestTask chooses among: getAvailableTasks' members. */
  predicate Available(st: Store, c: Creep, t: Task) { t in st.tasks && Eligible(t, c) }

  /** x is the single-slot task findBestTask wants: available, of the highest
      priority, and in a valid table the first of those in table order. */
  ghost predicate FirstSingle(st: Store, c: Creep, x: Task) {
    && Available(st, c, x) && Single(x)
    && (forall t | Available(st, c, t) && Single(t) :: PriorityRank(t) <= PriorityRank(x))
    && (Valid(st) ==> forall t | Available(st, c, t) && Single(t) && t != x :: Precedes(x, t))
  }

  /** x is the group task findBestTask falls back on: available with room,
      with the fewest assignees, and in a valid table the first of those in
      priority and table order. */
  ghost predicate FirstLeastCrowded(st: Store, c: Creep, x: Task) {
    && Available(st, c, x) && Group(x) && HasRoom(x)
    && (forall t | Available(st, c, t) && Group(t) && HasRoom(t) :: |x.assignees| <= |t.assignees|)
    && (Valid(st) ==> forall t | Available(st, c, t) && Group(t) && HasRoom(t) && t != x &&
                                 |t.assignees| == |x.assignees| :: Precedes(x, t))
  }

  /** findBestTask */
  function FindBestTask(st: Store, c: Creep): (r: Option<Task>)
    ensures r.Some? ==> r.value in st.tasks && Eligible(r.value, c)
    ensures (exists t | Available(st, c, t) :: Single(t)) ==> r.Some? && FirstSingle(st, c, r.value)
    ensures (forall t | Available(st, c, t) :: !Single(t)) ==>
              && (r.None? <==> forall t | Available(st, c, t) && Group(t) :: !HasRoom(t))
              && (r.Some? ==> FirstLeastCrowded(st, c, r.value))
  {
    var avail := GetAvailableTasks(st, c);
    var singles := Filter(avail, Single);
    var groups := Filter(avail, Group);
    SinglesBest(st, c);
    if |singles| > 0 then
      Some(singles[0])
    else
      GroupsBest(st, c);
      LeastCrowded(groups)
  }

  /** The head of the single-slot tasks, when there is one, is the task
      FirstSingle describes; there is one exactly when some available task
      is single. */
  lemma SinglesBest(st: Store, c: Creep)
    ensures var singles := Filter(GetAvailableTasks(st, c), Single);
            && (|singles| > 0 <==> exists t | Available(st, c, t) :: Single(t))
            && (|singles| > 0 ==> FirstSingle(st, c, singles[0]))
  {
    var avail := GetAvailableTasks(st, c);
    var singles := Filter(avail, Single);
    if |singles| > 0 {
      assert singles[0] in singles;
      FilterPairwise(avail, Single, (a: Task, b: Task) => PriorityRank(a) >= PriorityRank(b));
      SinglesHead(avail, singles);
      SinglesPrecede(st, c);
    } else {
      forall t | Available(st, c, t) ensures !Single(t) {
        assert t in avail;
        assert t !in singles;
      }
    }
  }

  /** With no single-slot task available, the least crowded group task is
      the one FirstLeastCrowded describes, and there is none exactly when no
      available group has room. */
  lemma GroupsBest(st: Store, c: Creep)
    ensures var r := LeastCrowded(Filter(GetAvailableTasks(st, c), Group));
            && (r.None? <==> forall t | Available(st, c, t) && Group(t) :: !HasRoom(t))
            && (r.Some? ==> FirstLeastCrowded(st, c, r.value))
  {
    var avail := GetAvailableTasks(st, c);
    var groups := Filter(avail, Group);
    var r := LeastCrowded(groups);
    GroupsPrecede(st, c);
    if r.None? {
      forall t | Available(st, c, t) && Group(t) ensures !HasRoom(t) {
        assert t in avail;
        assert t in groups;
      }
    } else {
      forall t | Available(st, c, t) && Group(t) && HasRoom(t) ensures |r.value.assignees| <= |t.assignees| {
        assert t in avail;
        assert t in groups;
      }
    }
  }

  /** In a valid table the first single task is the first, in priority and
      table order, of the eligible single tasks. */
  lemma SinglesPrecede(st: Store, c: Creep)
    requires |Filter(GetAvailableTasks(st, c), Single)| > 0
    ensures var h := Filter(GetAvailableTasks(st, c), Single)[0];
            Valid(st) ==> forall t | t in st.tasks && Eligible(t, c) && Single(t) && t != h :: Precedes(h, t)
  {
    var avail := GetAvailableTasks(st, c);
    if Valid(st) {
      FilterHeadFirst(avail, Single, Precedes);
    }
  }

  /** In a valid table the least crowded group task comes first, in priority
      and table order, among the eligible group tasks as crowded as it. */
  lemma GroupsPrecede(st: Store, c: Creep)
    ensures var r := LeastCrowded(Filter(GetAvailableTasks(st, c), Group));
            Valid(st) && r.Some? ==>
              forall t | t in st.tasks && Eligible(t, c) && Group(t) && HasRoom(t) && t != r.value &&
                         |t.assignees| == |r.value.assignees| :: Precedes(r.value, t)
  {
    var avail := GetAvailableTasks(st, c);
    var groups := Filter(avail, Group);
    FilterPrecedes(avail, Group);
    var r := LeastCrowded(groups);
    if Valid(st) && r.Some? {
      forall t | t in st.tasks && Eligible(t, c) && Group(t) && HasRoom(t) && t != r.value &&
                 |t.assignees| == |r.value.assignees|
        ensures Precedes(r.value, t)
      {
        assert t in avail;
        assert t in groups;
      }
    }
  }

  /** The group task with room that has the fewest assignees, the first of
      them in the given order. */
  function LeastCrowded(groups: seq<Task>): (r: Option<Task>)
    ensures r.Some? ==> r.value in groups && HasRoom(r.value)
    ensures r.Some? ==> forall t | t in groups && HasRoom(t) :: |r.value.assignees| <= |t.assignees|
    ensures r.None? <==> forall t | t in groups :: !HasRoom(t)
    ensures (forall i, j | 0 <= i < j < |groups| :: Precedes(groups[i], groups[j])) && r.Some? ==>
              forall t | t in groups && HasRoom(t) && t != r.value && |t.assignees| == |r.value.assignees| ::
                Precedes(r.value, t)
  {
    var sorted := FewestFirst(groups);
    var r := FindFirst(sorted, HasRoom);
    FirstWithRoomOfGroups(groups, sorted, r);
    r
  }

  /** The facts about the first task with room in the sorted list, restated
      over the groups it was sorted from. */
  lemma FirstWithRoomOfGroups(groups: seq<Task>, sorted: seq<Task>, r: Option<Task>)
    requires sorted == FewestFirst(groups)
    requires r == FindFirst(sorted, HasRoom)
    ensures r.Some? ==> r.value in groups && HasRoom(r.value)
    ensures r.Some? ==> forall t | t in groups && HasRoom(t) :: |r.value.assignees| <= |t.assignees|
    ensures r.None? <==> forall t | t in groups :: !HasRoom(t)
    ensures (forall i, j | 0 <= i < j < |groups| :: Precedes(groups[i], groups[j])) && r.Some? ==>
              forall t | t in groups && HasRoom(t) && t != r.value && |t.assignees| == |r.value.assignees| ::
                Precedes(r.value, t)
  {
    FewestFirstTies(groups);
    forall t ensures t in sorted <==> t in groups {
      assert t in sorted <==> multiset(sorted)[t] > 0;
    }
    FewestWithRoom(sorted, r);
    FirstWithRoomPrecedes(sorted, r);
  }

  lemma SinglesHead(avail: seq<Task>, singles: seq<Task>)
    requires |singles| > 0
    requires forall t :: t in singles <==> t in avail && Single(t)
    requires forall i, j | 0 <= i < j < |singles| :: PriorityRank(singles[i]) >= PriorityRank(singles[j])
    ensures forall t | t in avail && Single(t) :: PriorityRank(t) <= PriorityRank(singles[0])
  {
    forall t | t in avail && Single(t) ensures PriorityRank(t) <= PriorityRank(singles[0]) {
      var k :| 0 <= k < |singles| && singles[k] == t;
    }
  }

  /** The first task with room in a list sorted by assignee count comes
      before every other task with room and as many assignees. */
  lemma FirstWithRoomPrecedes(sorted: seq<Task>, r: Option<Task>)
    requires forall i, j | 0 <= i < j < |sorted| :: |sorted[i].assignees| <= |sorted[j].assignees|
    requires r == FindFirst(sorted, HasRoom)
    ensures (forall i, j | 0 <= i < j < |sorted| && |sorted[i].assignees| == |sorted[j].assignees| ::
               Precedes(sorted[i], sorted[j])) && r.Some? ==>
            forall t | t in sorted && HasRoom(t) && t != r.value && |t.assignees| == |r.value.assignees| ::
              Precedes(r.value, t)
  {
    if r.Some? {
      var i :| 0 <= i < |sorted| && sorted[i] == r.value && HasRoom(r.value) &&
               forall j | 0 <= j < i :: !HasRoom(sorted[j]);
      forall t | t in sorted && HasRoom(t) && t != r.value && |t.assignees| == |r.value.assignees|
        ensures (forall a, b | 0 <= a < b < |sorted| && |sorted[a].assignees| == |sorted[b].assignees| ::
                   Precedes(sorted[a], sorted[b])) ==> Precedes(r.value, t)
      {
        var k :| 0 <= k < |sorted| && sorted[k] == t;
        assert i < k;
      }
    }
  }

  lemma FewestWithRoom(sorted: seq<Task>, r: Option<Task>)
    requires forall i, j | 0 <= i < j < |sorted| :: |sorted[i].assignees| <= |sorted[j].assignees|
    requires r == FindFirst(sorted, HasRoom)
    ensures r.Some? ==> r.value in sorted && HasRoom(r.value)
    ensures r.Some? ==> forall t | t in sorted && HasRoom(t) :: |r.value.assignees| <= |t.assignees|
    ensures r.None? <==> forall t | t in sorted :: !HasRoom(t)
  {
    if r.Some? {
      var i :| 0 <= i < |sorted| && sorted[i] == r.value && HasRoom(r.value) &&
               forall j | 0 <= j < i :: !HasRoom(sorted[j]);
      forall t | t in sorted && HasRoom(t) ensures |r.value.assignees| <= |t.assignees| {
        var k :| 0 <= k < |sorted| && sorted[k] == t;
      }
    } else {
      forall t | t in sorted ensures !HasRoom(t) {
        var k :| 0 <= k < |sorted| && sorted[k] == t;
      }
    }
  }

  // ---------------------------------------------------------------------------
  // The base performTask

  /** refillEnergy: withdraw from the closest storage if it holds energy, walking
      there when out of range. Every path but the walk answers ERR_NOT_ENOUGH_ENERGY. */
  function RefillEnergy(o: Obs): (r: (Code, seq<Action>))
    ensures o.storage.None? || o.storage.value.1 == 0 ==> r == (ErrNotEnough, [])
    ensures o.storage.Some? && o.storage.value.1 > 0 ==>
              var id := o.storage.value.0;
              if o.withdraw == ErrNotInRange then r == (o.move, [Withdraw(id), MoveTo(id)])
              else r == (ErrNotEnough, [Withdraw(id)])
  {
    match o.storage
    case Some((id, e)) =>
      if e > 0 then
        if o.withdraw == ErrNotInRange then (o.move, [Withdraw(id), MoveTo(id)])
        else (ErrNotEnough, [Withdraw(id)])
      else (ErrNotEnough, [])
    case None => (ErrNotEnough, [])
  }

  /** The prototype's findMinerForDelivery filter: `taskId === undefined`, so a
      miner whose task was cleared to null does not qualify. */
  predicate UnboundMiner(v: CreepView) {
    v.role == Some(Miner) && !Sourced(v.sourceId) && v.task.Unset?
  }

  /** A perform method whose target has vanished releases the task. */
  function Vanished(st: Store, c: Creep): (r: Perf)
    ensures r.code == ErrInvalidTarget && r.actions == []
    ensures r.store == ReleaseTask(st, c).store && r.creep == ReleaseTask(st, c).creep
  {
    var b := ReleaseTask(st, c);
    Perf(b.store, b.creep, ErrInvalidTarget, [])
  }

  /** build/repair/upgradeController through the prototype: the action is tried
      once; on ERR_NOT_ENOUGH_ENERGY the creep refills, otherwise the action is
      issued a second time and that second result is returned. */
  function WorkTwice(st: Store, c: Creep, act: Action, o: Obs): (r: Perf)
    ensures r.store == st && r.creep == c
    ensures |r.actions| >= 1 && r.actions[0] == act
    ensures o.work == ErrNotEnough ==> (r.code, r.actions[1..]) == RefillEnergy(o)
    ensures o.work != ErrNotEnough ==> r.code == o.work2 && r.actions == [act, act]
  {
    if o.work == ErrNotEnough then
      var (code, acts) := RefillEnergy(o);
      Perf(st, c, code, [act] + acts)
    else Perf(st, c, o.work2, [act, act])
  }

  /** performTask and the perform*Task methods of creepPrototype.js. */
  function PerformTask(st: Store, c: Creep, o: Obs): (r: Perf)
    ensures GetTask(st, c).None? ==> r == Perf(st, c, ErrInvalidTarget, [])
    ensures GetTask(st, c).Some? && !Present(o, GetTask(st, c).value.target) &&
            GetTask(st, c).value.ttype in {MineSource, DeliverMiner, CollectFromPile, Build, Repair, Upgrade} ==>
              r == Vanished(st, c)
    ensures GetTask(st, c).Some? && GetTask(st, c).value.ttype !in
              {MineSource, DeliverMiner, CollectFromPile, Build, Repair, Upgrade} ==>
              r == Perf(st, c, ErrInvalidArgs, [])
    ensures r.store != st ==> r.creep == c.(task := Cleared)
    ensures r.creep == c || r.creep == c.(task := Cleared)
    ensures GetTask(st, c).Some? && GetTask(st, c).value.ttype == MineSource ==>
              var target := GetTask(st, c).value.target;
              r.actions == if Present(o, target) then [Harvest(target)] else []
    ensures r.creep.name == c.name && r.creep.role == c.role && r.creep.sourceId == c.sourceId
    ensures Valid(st) ==> Valid(r.store)
    ensures Inv(st) ==> Inv(r.store)
  {
    match GetTask(st, c)
    case None => Perf(st, c, ErrInvalidTarget, [])
    case Some(t) =>
      var target := t.target;
      match t.ttype
      case MineSource =>
        if !Present(o, target) then Vanished(st, c)
        else Perf(st, c, o.work, [Harvest(target)])
      case DeliverMiner =>
        if !Present(o, target) then Vanished(st, c)
        else if FirstNear(o.creeps, o.pos, UnboundMiner).None? then Perf(st, c, ErrNotFound, [])
        else if o.pos == o.targetPos then
          var b := CompleteTask(st, c);
          Perf(b.store, b.creep, Ok, [])
        else Perf(st, c, o.move, [MoveTo(target)])
      case CollectFromPile =>
        if !Present(o, target) then Vanished(st, c)
        else if o.work == ErrNotInRange then Perf(st, c, o.move, [Pickup(target), MoveTo(target)])
        else Perf(st, c, Ok, [Pickup(target)])
      case Build =>
        if !Present(o, target) then Vanished(st, c) else WorkTwice(st, c, BuildAt(target), o)
      case Repair =>
        if !Present(o, target) then Vanished(st, c) else WorkTwice(st, c, RepairAt(target), o)
      case Upgrade =>
        if !Present(o, target) then Vanished(st, c) else WorkTwice(st, c, UpgradeAt(target), o)
      case _ => Perf(st, c, ErrInvalidArgs, [])
  }

  /** The only way the base performTask finishes a task: a DELIVER_MINER task
      whose carrier stands on the source with an unbound miner next to it. */
  lemma PerformCompletesOnlyDelivery(st: Store, c: Creep, o: Obs)
    requires Valid(st) && Inv(st)
    requires GetTask(st, c).Some? && GetTask(st, c).value.state == InProgress
    requires Present(o, GetTask(st, c).value.target)
    ensures var r := PerformTask(st, c, o);
            var t := GetTask(st, c).value;
            Get(r.store, t.id) != Get(st, t.id) <==>
              t.ttype == DeliverMiner && FirstNear(o.creeps, o.pos, UnboundMiner).Some? && o.pos == o.targetPos
  {
    var t := GetTask(st, c).value;
    InvGet(st, t.id);
    assert Finished(t) != t;
  }
}

=== FILE: creeps.dfy ===
/** A creep's memory, the other creeps it can see, and what one tick of the
    game reports to the decision logic.

    Nothing here moves anything: every query the original makes of the game
    (Game.getObjectById, findClosestByRange, findInRange, positions) and
    every action's return code is a field of Obs, and every action the logic
    asks for is recorded, in call order, in the actions of a step. */
module Creeps {
  import opened Types
  import opened TaskManager

  /** memory.taskId: never set (undefined), cleared (null), or bound to a task id. */
  datatype Binding = Unset | Cleared | Bound(id: TaskId)

  /** The part of Memory.creeps[name] the logic reads and writes. */
  datatype Creep = Creep(
    name: CreepName,
    room: RoomName,
    role: Option<Role>,
    task: Binding,
    sourceId: Option<EntityId>,
    currentTaskType: Option<TaskType>)

  /** Another creep of the player, as a search over FIND_MY_CREEPS sees it. */
  datatype CreepView = CreepView(
    name: CreepName,
    pos: Pos,
    role: Option<Role>,
    sourceId: Option<EntityId>,
    task: Binding)

  /** `memory.sourceId` is truthy: set, and not the empty string. */
  predicate Sourced(id: Option<EntityId>) { id.Some? && id.value != "" }

  /** What the game reports during one tick. `work` is the return code of the
      first call of the task's own action (harvest, pickup, build, repair,
      upgradeController) and `work2` of a second call in the same tick. */
  datatype Obs = Obs(
    present: set<EntityId>,
    pos: Pos,
    targetPos: Pos,
    energy: nat,
    capacity: nat,
    work: Code,
    work2: Code,
    move: Code,
    withdraw: Code,
    transfer: Code,
    /** the closest storage, with the energy it holds */
    storage: Option<(EntityId, nat)>,
    /** the closest storage or container holding energy */
    stock: Option<EntityId>,
    /** the closest own spawn holding energy */
    spawnStock: Option<EntityId>,
    /** the first extension or spawn within range 1 below its energy capacity (the
        filter also names storage, but a storage has no `energy` field, so it never passes) */
    unloadTarget: Option<EntityId>,
    /** the first container within range 1 below its store capacity */
    unloadContainer: Option<EntityId>,
    /** the target construction site has progress >= progressTotal */
    siteComplete: bool,
    /** the target structure has hits >= hitsMax */
    hitsFull: bool,
    /** the amount left in the target pile */
    pileAmount: int,
    creeps: seq<CreepView>,
    spawning: bool)

  /** Outcome of one tick of a role: the task table, this creep's memory, and
      the requested world actions in call order. */
  datatype Step = Step(store: Store, creep: Creep, actions: seq<Action>)

  /** Creep.prototype.hasTask: a task id that is neither undefined nor null. */
  predicate HasTask(c: Creep) { c.task.Bound? }

  /** Creep.prototype.getTask */
  function GetTask(st: Store, c: Creep): (r: Option<Task>)
    ensures r.Some? <==> HasTask(c) && Get(st, c.task.id).Some?
    ensures r.Some? ==> r.value.id == c.task.id && r.value in st.tasks
  {
    if c.task.Bound? then Get(st, c.task.id) else None
  }

  /** The target of the task resolves to a live object this tick. */
  predicate Present(o: Obs, id: EntityId) { id in o.present }

  /** A miner waiting for a ride: role Miner, no source, and no task
      (the filter of the taxi's findMinerForDelivery). */
  predicate WaitingMiner(v: CreepView) {
    v.role == Some(Miner) && !Sourced(v.sourceId) && !v.task.Bound?
  }

  /** The first creep within range 1 of `centre` that satisfies `p`. */
  function FirstNear(cs: seq<CreepView>, centre: Pos, p: CreepView -> bool): (r: Option<CreepView>)
    ensures r.Some? ==> r.value in cs && p(r.value) && Range(r.value.pos, centre) <= 1
    ensures r.None? <==> forall i | 0 <= i < |cs| :: !(p(cs[i]) && Range(cs[i].pos, centre) <= 1)
  {
    if cs == [] then None
    else if p(cs[0]) && Range(cs[0].pos, centre) <= 1 then Some(cs[0])
    else FirstNear(cs[1..], centre, p)
  }

  /** FirstNear picks the earliest qualifying creep in search order. */
  lemma {:induction false} FirstNearIsFirst(cs: seq<CreepView>, centre: Pos, p: CreepView -> bool, i: nat)
    requires i < |cs| && p(cs[i]) && Range(cs[i].pos, centre) <= 1
    requires forall j | 0 <= j < i :: !(p(cs[j]) && Range(cs[j].pos, centre) <= 1)
    ensures FirstNear(cs, centre, p) == Some(cs[i])
    decreases i
  {
    if i > 0 {
      assert !(p(cs[0]) && Range(cs[0].pos, centre) <= 1);
      FirstNearIsFirst(cs[1..], centre, p, i - 1);
    }
  }
}

=== FILE: miner.dfy ===
/** The miner role of roles/miner.js; creep.prototype.miner.js is the same
    logic written as Creep methods. A miner has no MOVE parts: it works only
    while standing on its source and otherwise waits for a taxi. */
module Miner {
  import opened Types
  import opened TaskManager
  import opened Creeps
  import opened CreepPrototype
  import opened Roles

  /** `memory.sourceId` is truthy. */
  predicate HasSource(c: Creep) { Sourced(c.sourceId) }

  /** The remembered source resolves to a live object this tick. */
  predicate SourceLive(c: Creep, o: Obs) { HasSource(c) && Present(o, c.sourceId.value) }

  /** assignMinerToSource: take the first available MINE_SOURCE task, and on
      success remember its target as the source and become a miner. */
  function AssignMinerToSource(st: Store, c: Creep): (r: Bind)
    ensures !r.ok ==> r.store == st && r.creep == c
    ensures r.ok ==> !HasTask(c) && FirstOfType(st, c, {MineSource}).Some? && HasTask(r.creep)
    ensures Valid(st) && !HasTask(c) && FirstOfType(st, c, {MineSource}).Some? ==> r.ok
    ensures Valid(st) && r.ok ==>
              && GetTask(r.store, r.creep).Some?
              && GetTask(r.store, r.creep).value.ttype == MineSource
              && c.name in GetTask(r.store, r.creep).value.assignees
              && r.creep.sourceId == Some(GetTask(r.store, r.creep).value.target)
              && r.creep.role == Some(Miner)
    ensures Valid(st) && r.ok ==>
              var t := FirstOfType(st, c, {MineSource}).value;
              && r.creep == c.(task := Bound(t.id), sourceId := Some(t.target), role := Some(Miner))
              && GetTask(r.store, r.creep) == Some(t.(assignees := t.assignees + [c.name], state := InProgress))
    ensures Valid(st) ==> Valid(r.store)
    ensures Inv(st) ==> Inv(r.store)
  {
    var b := AssignFirstOfType(st, c, {MineSource});
    if !b.ok then b
    else
      var t := FirstOfType(st, c, {MineSource}).value;
      Bind(b.store, b.creep.(sourceId := Some(t.target), role := Some(Miner)), true)
  }

  /** performMining */
  function PerformMining(st: Store, c: Creep, o: Obs): (r: Step)
    ensures forall i | 0 <= i < |r.actions| :: !IsMove(r.actions[i])
    ensures !SourceLive(c, o) ==>
              && r.actions == []
              && r.store == CreepPrototype.ReleaseTask(st, c).store
              && r.creep == CreepPrototype.ReleaseTask(st, c).creep.(sourceId := None)
    ensures SourceLive(c, o) && o.pos != o.targetPos ==> r == Step(st, c, [])
    ensures SourceLive(c, o) && o.pos == o.targetPos ==> r.actions == [Harvest(c.sourceId.value)]
    ensures SourceLive(c, o) && o.pos == o.targetPos && o.work == Ok ==>
              && r.creep == c
              && (GetTask(st, c).Some? ==>
                    r.store == CreepPrototype.UpdateTaskProgress(st, c, GetTask(st, c).value.progress + 1).store)
    ensures SourceLive(c, o) && o.pos == o.targetPos && o.work == ErrNotEnough ==>
              && r.store == CreepPrototype.CompleteTask(st, c).store
              && r.creep == CreepPrototype.CompleteTask(st, c).creep.(sourceId := None)
    ensures SourceLive(c, o) && !(o.pos == o.targetPos && o.work == ErrNotEnough) ==>
              r.creep.sourceId == c.sourceId
    ensures r.creep.name == c.name && r.creep.role == c.role
    ensures Valid(st) ==> Valid(r.store)
    ensures Inv(st) ==> Inv(r.store)
  {
    if !SourceLive(c, o) then
      var b := CreepPrototype.ReleaseTask(st, c);
      Step(b.store, b.creep.(sourceId := None), [])
    else if o.pos != o.targetPos then Step(st, c, [])
    else
      var source := c.sourceId.value;
      if o.work == Ok then
        match GetTask(st, c)
        case Some(t) => Step(CreepPrototype.UpdateTaskProgress(st, c, t.progress + 1).store, c, [Harvest(source)])
        case None => Step(st, c, [Harvest(source)])
      else if o.work == ErrNotEnough then
        var b := CreepPrototype.CompleteTask(st, c);
        Step(b.store, b.creep.(sourceId := None), [Harvest(source)])
      else Step(st, c, [Harvest(source)])
  }

  /** A successful harvest on an IN_PROGRESS task reports one more unit of
      progress, capped at the task's maximum. */
  lemma MiningReportsProgress(st: Store, c: Creep, o: Obs)
    requires SourceLive(c, o) && o.pos == o.targetPos && o.work == Ok
    requires GetTask(st, c).Some? && GetTask(st, c).value.state == InProgress
    ensures PerformMining(st, c, o).creep == c
    ensures var t := GetTask(st, c).value;
            GetTask(PerformMining(st, c, o).store, c) == Some(t.(progress := Min(t.progress + 1, t.maxProgress)))
  {
    var u := MiningStore(st, c, o);
    ProgressOnActive(st, c, GetTask(st, c).value.progress + 1);
  }

  /** The table a successful harvest leaves is the one the progress report returns. */
  lemma MiningStore(st: Store, c: Creep, o: Obs) returns (u: Store)
    requires SourceLive(c, o) && o.pos == o.targetPos && o.work == Ok && GetTask(st, c).Some?
    ensures u == CreepPrototype.UpdateTaskProgress(st, c, GetTask(st, c).value.progress + 1).store
    ensures PerformMining(st, c, o).store == u && PerformMining(st, c, o).creep == c
  {
    u := CreepPrototype.UpdateTaskProgress(st, c, GetTask(st, c).value.progress + 1).store;
  }

  /** checkMinerStatus: the common status check, which also forgets the source. */
  function CheckMinerStatus(st: Store, c: Creep, spawning: bool): (r: Step)
    ensures spawning || !Stale(st, c) ==> r == Step(st, c, [])
    ensures !spawning ==> !Stale(r.store, r.creep)
    ensures !spawning && Stale(st, c) ==> r.creep == c.(task := Cleared, sourceId := None)
    ensures Valid(st) ==> Valid(r.store)
    ensures Inv(st) ==> Inv(r.store)
  {
    var s := CheckStatus(st, c, spawning);
    if !spawning && Stale(st, c) then s.(creep := s.creep.(sourceId := None)) else s
  }

  /** run: a miner with a source mines; one without takes the first
      MINE_SOURCE task and mines its target at once; failing that it falls
      back to findAndAssignTask. */
  function Run(st: Store, c: Creep, o: Obs): (r: Step)
    ensures HasSource(c) ==> r == PerformMining(st, c, o)
    ensures !HasSource(c) && !AssignMinerToSource(st, c).ok ==> r == FindAndAssignTask(st, c, o)
    ensures Valid(st) && !HasSource(c) && !HasTask(c) && FirstOfType(st, c, {MineSource}).Some? ==>
              var t := FirstOfType(st, c, {MineSource}).value;
              var a := AssignMinerToSource(st, c);
              && (t.target != "" ==>
                    r == PerformMining(a.store, c.(task := Bound(t.id), sourceId := Some(t.target), role := Some(Miner)), o))
              && (t.target == "" ==> r == Step(a.store, a.creep, []))
    ensures r.creep.name == c.name
    ensures Valid(st) ==> Valid(r.store)
    ensures Inv(st) ==> Inv(r.store)
  {
    var a := if !HasSource(c) then AssignMinerToSource(st, c) else Bind(st, c, false);
    if HasSource(a.creep) then PerformMining(a.store, a.creep, o)
    else FindAndAssignTask(a.store, a.creep, o)
  }

  /** None of the actions asks the creep to move. */
  predicate Stays(acts: seq<Action>) {
    forall i | 0 <= i < |acts| :: !IsMove(acts[i])
  }

  /** A miner never asks to move, provided the only tasks open to its role
      are MINE_SOURCE tasks (as in the room scanner's table). */
  lemma MinerNeverWalks(st: Store, c: Creep, o: Obs)
    requires forall i | 0 <= i < |st.tasks| :: Accepts(st.tasks[i], c.role) ==> st.tasks[i].ttype == MineSource
    ensures Stays(Run(st, c, o).actions)
  {
    var a := if !HasSource(c) then AssignMinerToSource(st, c) else Bind(st, c, false);
    var r := Run(st, c, o);
    if HasSource(a.creep) {
      assert r == PerformMining(a.store, a.creep, o);
    } else if a.ok {
      assert HasTask(a.creep);
      assert r.actions == [];
    } else {
      assert r == FindAndAssignTask(st, c, o);
      FallbackNeverWalks(st, c, o);
    }
  }

  /** The fallback findAndAssignTask can only take a MINE_SOURCE task, whose
      one action is a harvest. */
  lemma FallbackNeverWalks(st: Store, c: Creep, o: Obs)
    requires forall i | 0 <= i < |st.tasks| :: Accepts(st.tasks[i], c.role) ==> st.tasks[i].ttype == MineSource
    ensures Stays(FindAndAssignTask(st, c, o).actions)
  {
    if Taken(st, c).Some? {
      var u := Taken(st, c).value;
      var j :| 0 <= j < |st.tasks| && st.tasks[j] == u;
      assert u.ttype == MineSource;
      FindAndAssignBinds(st, c, o);
      var acts := FindAndAssignTask(st, c, o).actions;
      assert acts == [] || acts == [Harvest(u.target)];
    }
  }

}

=== FILE: roles.dfy ===
/** What the role modules (the files under roles/ and their creep.prototype twins)
    have in common: picking the first available task of the role's own
    types, the fallback findAndAssignTask, the status check, and the
    refill and unload searches. */
module Roles {
  import opened Types
  import opened Sorting
  import opened TaskManager
  import opened Creeps
  import opened CreepPrototype

  /** `task => types.includes(task.type)` */
  function OfType(types: set<TaskType>): Task -> bool {
    (t: Task) => t.ttype in types
  }

  /** `getAvailableTasks().filter(byType)[0]` */
  function FirstOfType(st: Store, c: Creep, types: set<TaskType>): (r: Option<Task>)
    ensures r.Some? ==> r.value in st.tasks && Eligible(r.value, c) && r.value.ttype in types
    ensures r.Some? ==> forall t | t in st.tasks && Eligible(t, c) && t.ttype in types ::
                          PriorityRank(t) <= PriorityRank(r.value)
    ensures r.None? <==> forall t | t in st.tasks && Eligible(t, c) :: t.ttype !in types
    ensures Valid(st) && r.Some? ==>
              forall t | t in st.tasks && Eligible(t, c) && t.ttype in types && t != r.value :: Precedes(r.value, t)
  {
    var avail := GetAvailableTasks(st, c);
    var picked := Filter(avail, OfType(types));
    if |picked| == 0 then
      NoneOfType(st, c, types);
      None
    else
      assert picked[0] in picked;
      FilterPairwise(avail, OfType(types), (a: Task, b: Task) => PriorityRank(a) >= PriorityRank(b));
      HeadRanksHighest(picked);
      TypeHeadFirst(st, c, types);
      Some(picked[0])
  }

  /** In a valid table the head of the filtered list is the first task of
      the types in priority and table order. */
  lemma TypeHeadFirst(st: Store, c: Creep, types: set<TaskType>)
    requires |Filter(GetAvailableTasks(st, c), OfType(types))| > 0
    ensures var h := Filter(GetAvailableTasks(st, c), OfType(types))[0];
            Valid(st) ==>
              forall t | t in st.tasks && Eligible(t, c) && t.ttype in types && t != h :: Precedes(h, t)
  {
    var avail := GetAvailableTasks(st, c);
    if Valid(st) {
      FilterHeadFirst(avail, OfType(types), Precedes);
      var h := Filter(avail, OfType(types))[0];
      forall t | t in st.tasks && Eligible(t, c) && t.ttype in types && t != h ensures Precedes(h, t) {
        assert t in avail && OfType(types)(t);
      }
    }
  }

  /** No available task is of the types when the filter keeps none. */
  lemma NoneOfType(st: Store, c: Creep, types: set<TaskType>)
    requires |Filter(GetAvailableTasks(st, c), OfType(types))| == 0
    ensures forall t | t in st.tasks && Eligible(t, c) :: t.ttype !in types
  {
    var avail := GetAvailableTasks(st, c);
    forall t | t in st.tasks && Eligible(t, c) ensures t.ttype !in types {
      assert t in avail;
      assert t !in Filter(avail, OfType(types));
    }
  }

  /** The head of a list sorted by descending priority has the highest priority. */
  lemma HeadRanksHighest(ts: seq<Task>)
    requires |ts| > 0
    requires forall i, j | 0 <= i < j < |ts| :: PriorityRank(ts[i]) >= PriorityRank(ts[j])
    ensures forall t | t in ts :: PriorityRank(t) <= PriorityRank(ts[0])
  {
    forall t | t in ts ensures PriorityRank(t) <= PriorityRank(ts[0]) {
      var k :| 0 <= k < |ts| && ts[k] == t;
    }
  }

  /** The assign<Role>Task functions: take the first available task of the
      role's types, if the creep is idle. */
  function AssignFirstOfType(st: Store, c: Creep, types: set<TaskType>): (r: Bind)
    ensures r.ok ==> !HasTask(c) && FirstOfType(st, c, types).Some?
    ensures r.ok ==> HasTask(r.creep) && r.creep == c.(task := r.creep.task)
    ensures Valid(st) && !HasTask(c) && FirstOfType(st, c, types).Some? ==> r.ok
    ensures !r.ok ==> r.store == st && r.creep == c
    ensures Valid(st) && r.ok ==>
              var t := FirstOfType(st, c, types).value;
              && r.creep == c.(task := Bound(t.id))
              && GetTask(r.store, r.creep) == Some(t.(assignees := t.assignees + [c.name], state := InProgress))
    ensures Valid(st) ==> Valid(r.store)
    ensures Inv(st) ==> Inv(r.store)
  {
    match FirstOfType(st, c, types)
    case None => Bind(st, c, false)
    case Some(t) =>
      GetMember(st, t);
      AssignTask(st, c, t.id)
  }

  /** The task findAndAssignTask ends up binding: findBestTask's pick as
      the table looks it up, provided assignTask accepts it. */
  function Taken(st: Store, c: Creep): (r: Option<Task>)
    ensures r.Some? ==> r.value in st.tasks && Accepts(r.value, c.role) && !HasTask(c)
    ensures r.Some? ==> AssignTask(st, c, r.value.id).ok
    ensures Valid(st) && !HasTask(c) ==> r == FindBestTask(st, c)
  {
    if HasTask(c) then None
    else
      match FindBestTask(st, c)
      case None => None
      case Some(t) =>
        GetMember(st, t);
        match Get(st, t.id)
        case None => None
        case Some(u) => if Accepts(u, c.role) then Some(u) else None
  }

  /** findAndAssignTask of the role modules: findBestTask, assignTask, and on
      success the prototype's performTask. */
  function FindAndAssignTask(st: Store, c: Creep, o: Obs): (r: Step)
    ensures Taken(st, c).None? ==> r == Step(st, c, [])
    ensures HasTask(c) || FindBestTask(st, c).None? ==> r == Step(st, c, [])
    ensures Taken(st, c).Some? ==>
              var u := Taken(st, c).value;
              var a := AssignTask(st, c, u.id);
              && a.ok
              && a.creep == c.(task := Bound(u.id))
              && GetTask(a.store, a.creep) == Some(u.(assignees := u.assignees + [c.name], state := InProgress))
              && (forall other | other != u.id :: Get(a.store, other) == Get(st, other))
              && r == (var p := PerformTask(a.store, a.creep, o); Step(p.store, p.creep, p.actions))
    ensures r.creep.name == c.name && r.creep.role == c.role && r.creep.sourceId == c.sourceId
    ensures Valid(st) ==> Valid(r.store)
    ensures Inv(st) ==> Inv(r.store)
  {
    TakenAssigns(st, c);
    match Taken(st, c)
    case None => Step(st, c, [])
    case Some(u) => AssignAndPerform(st, c, u.id, o)
  }

  /** assignTask accepts the taken task: the creep is bound to it, the task
      gains the creep's name and goes IN_PROGRESS, and no other task changes. */
  lemma TakenAssigns(st: Store, c: Creep)
    ensures Taken(st, c).Some? ==>
              var u := Taken(st, c).value;
              var a := AssignTask(st, c, u.id);
              && a.ok
              && a.creep == c.(task := Bound(u.id))
              && GetTask(a.store, a.creep) == Some(u.(assignees := u.assignees + [c.name], state := InProgress))
  {
    if Taken(st, c).Some? {
      var u := Taken(st, c).value;
      GetMember(st, u);
    }
  }

  /** assignTask followed by performTask on the creep it returns. */
  function AssignAndPerform(st: Store, c: Creep, id: TaskId, o: Obs): (r: Step)
    ensures r.creep.name == c.name && r.creep.role == c.role && r.creep.sourceId == c.sourceId
    ensures Valid(st) ==> Valid(r.store)
    ensures Inv(st) ==> Inv(r.store)
  {
    var a := AssignTask(st, c, id);
    var p := PerformTask(a.store, a.creep, o);
    Step(p.store, p.creep, p.actions)
  }

  /** When findAndAssignTask takes a task, the creep ends bound to it (or
      released, when performTask finds the target gone), and a miner's only
      possible action is harvesting that task's source. */
  lemma FindAndAssignBinds(st: Store, c: Creep, o: Obs)
    requires Taken(st, c).Some?
    ensures var r := FindAndAssignTask(st, c, o);
            r.creep.task == Bound(Taken(st, c).value.id) || r.creep.task == Cleared
    ensures Taken(st, c).value.ttype == MineSource ==>
              var r := FindAndAssignTask(st, c, o);
              r.actions == [] || r.actions == [Harvest(Taken(st, c).value.target)]
  {
    var u := Taken(st, c).value;
    var a := AssignTask(st, c, u.id);
    assert GetTask(a.store, a.creep) == Some(u.(assignees := u.assignees + [c.name], state := InProgress));
    var p := PerformTask(a.store, a.creep, o);
    assert FindAndAssignTask(st, c, o) == Step(p.store, p.creep, p.actions);
  }

  /** releaseTask as a step of its own: no action, the binding dropped. */
  function GiveUp(st: Store, c: Creep): (r: Step)
    ensures r.actions == []
    ensures HasTask(c) ==> r.creep == c.(task := Cleared)
    ensures !HasTask(c) ==> r.creep == c && r.store == st
    ensures HasTask(c) ==> (Get(r.store, c.task.id) ==
              if Get(st, c.task.id).Some? then Some(Released(Get(st, c.task.id).value, Some(c.name))) else None)
    ensures HasTask(c) ==> forall other | other != c.task.id :: Get(r.store, other) == Get(st, other)
    ensures Valid(st) ==> Valid(r.store)
    ensures Inv(st) ==> Inv(r.store)
  {
    var b := CreepPrototype.ReleaseTask(st, c);
    Step(b.store, b.creep, [])
  }

  /** A creep bound to a task that is gone or COMPLETED. */
  predicate Stale(st: Store, c: Creep) {
    HasTask(c) && (GetTask(st, c).None? || GetTask(st, c).value.state == Completed)
  }

  /** check<Role>Status: outside spawning, a stale binding is released. */
  function CheckStatus(st: Store, c: Creep, spawning: bool): (r: Step)
    ensures spawning || !Stale(st, c) ==> r == Step(st, c, [])
    ensures !spawning ==> !Stale(r.store, r.creep)
    ensures !spawning && Stale(st, c) ==> r.creep == c.(task := Cleared)
    ensures r.actions == []
    ensures Valid(st) ==> Valid(r.store)
    ensures Inv(st) ==> Inv(r.store)
  {
    if spawning || !Stale(st, c) then Step(st, c, [])
    else
      var b := CreepPrototype.ReleaseTask(st, c);
      Step(b.store, b.creep, [])
  }

  /** Withdraw from `from`, and walk there when it is out of reach. */
  function Fetch(from: EntityId, code: Code): seq<Action> {
    [Withdraw(from)] + (if code == ErrNotInRange then [MoveTo(from)] else [])
  }

  /** performRefill: the closest storage or container holding energy, else the
      closest own spawn holding energy, else nothing. */
  function Refill(o: Obs): (acts: seq<Action>)
    ensures acts == [] <==> o.stock.None? && o.spawnStock.None?
    ensures acts != [] ==>
              var from := if o.stock.Some? then o.stock.value else o.spawnStock.value;
              && acts[0] == Withdraw(from)
              && (forall i | 0 <= i < |acts| :: acts[i].target == from)
              && (MoveTo(from) in acts <==> o.withdraw == ErrNotInRange)
  {
    match o.stock
    case Some(s) => Fetch(s, o.withdraw)
    case None =>
      match o.spawnStock
      case Some(s) => Fetch(s, o.withdraw)
      case None => []
  }

  /** Transfer to `to`, and walk there when it is out of reach. */
  function Deliver(to: EntityId, code: Code): seq<Action> {
    [Transfer(to)] + (if code == ErrNotInRange then [MoveTo(to)] else [])
  }

  /** performUnload: an extension, spawn or storage next to the creep with room
      for energy, else a container next to it with room, else nothing. */
  function Unload(o: Obs): (acts: seq<Action>)
    ensures acts == [] <==> o.unloadTarget.None? && o.unloadContainer.None?
    ensures acts != [] ==>
              var to := if o.unloadTarget.Some? then o.unloadTarget.value else o.unloadContainer.value;
              && acts[0] == Transfer(to)
              && (forall i | 0 <= i < |acts| :: acts[i].target == to)
              && (MoveTo(to) in acts <==> o.transfer == ErrNotInRange)
  {
    match o.unloadTarget
    case Some(s) => Deliver(s, o.transfer)
    case None =>
      match o.unloadContainer
      case Some(s) => Deliver(s, o.transfer)
      case None => []
  }
}

=== FILE: room_scanner.dfy ===
/** roomScanner.js: task discovery over a room snapshot, deduplicated by
    (type, target), and the periodic validation that retires tasks whose
    target is gone or finished. */
module RoomScanner {
  import opened Types
  import opened Sorting
  import opened TaskManager
  import Workers

  datatype Controller = Controller(id: EntityId, my: bool)

  /** A dropped resource: its id, whether it is energy, and its amount. */
  datatype Pile = Pile(id: EntityId, energy: bool, amount: int)

  /** What room.find reports, in the order it reports it. */
  datatype Room = Room(
    name: RoomName,
    controller: Option<Controller>,
    sources: seq<EntityId>,
    sites: seq<EntityId>,
    structures: seq<Workers.Structure>,
    spawns: seq<EntityId>,
    piles: seq<Pile>)

  /** The arguments of one createTask call. */
  datatype Spec = Spec(ty: TaskType, target: EntityId, priority: Priority, roles: seq<Role>, infinite: bool)

  /** The task createTask stores for a spec. */
  function Made(s: Spec, id: TaskId, room: RoomName, now: int): Task {
    Task(id, s.ty, s.target, Some(room), s.priority, s.roles, Pending, 0, MaxProgressFor(s.ty), s.infinite, now, [], 1)
  }

  /** Some task of this type, in any state, targets the id: the scanners'
      `existing...Ids.includes(id)` and `existingTasks.some(...)`. */
  predicate HasTaskFor(st: Store, ty: TaskType, id: EntityId) {
    exists i | 0 <= i < |st.tasks| :: st.tasks[i].ttype == ty && st.tasks[i].target == id
  }

  /** `r` is `st` with entries appended at the end and nothing else changed. */
  predicate Grows(st: Store, r: Store) {
    |st.tasks| <= |r.tasks| && forall i | 0 <= i < |st.tasks| :: r.tasks[i] == st.tasks[i]
  }

  lemma GrowsTrans(a: Store, b: Store, c: Store)
    requires Grows(a, b) && Grows(b, c)
    ensures Grows(a, c)
  {
  }

  /** A store that only gained entries at the end covers everything the old one did. */
  lemma Extends(st: Store, r: Store)
    requires Grows(st, r)
    ensures forall ty, id | HasTaskFor(st, ty, id) :: HasTaskFor(r, ty, id)
  {
    forall ty, id | HasTaskFor(st, ty, id) ensures HasTaskFor(r, ty, id) {
      var i :| 0 <= i < |st.tasks| && st.tasks[i].ttype == ty && st.tasks[i].target == id;
      assert r.tasks[i] == st.tasks[i];
    }
  }

  /** createTask for one spec: the task it makes goes at the end, under the next id. */
  function Push(st: Store, s: Spec, room: RoomName, now: int): (r: Store)
    ensures Grows(st, r) && |r.tasks| == |st.tasks| + 1 && r.nextId == st.nextId + 1
    ensures r.tasks[|st.tasks|] == Made(s, st.nextId, room, now)
  {
    CreateTask(st, s.ty, s.target, Some(room), now, s.priority, s.roles, s.infinite).store
  }

  /** createTask for each spec in turn. */
  function CreateAll(st: Store, specs: seq<Spec>, room: RoomName, now: int): (r: Store)
    ensures r.nextId == st.nextId + |specs|
    ensures Grows(st, r) && |r.tasks| == |st.tasks| + |specs|
    decreases |specs|
  {
    if specs == [] then st
    else
      var c := Push(st, specs[0], room, now);
      var r := CreateAll(c, specs[1..], room, now);
      GrowsTrans(st, c, r);
      r
  }

  /** createTask keeps the table valid and every task consistent, and so
      does a run of them. */
  lemma {:induction false} CreateAllKeeps(st: Store, specs: seq<Spec>, room: RoomName, now: int)
    ensures var r := CreateAll(st, specs, room, now);
            (Valid(st) ==> Valid(r)) && (Inv(st) ==> Inv(r))
    decreases |specs|
  {
    if specs != [] {
      var s := specs[0];
      var c := CreateTask(st, s.ty, s.target, Some(room), now, s.priority, s.roles, s.infinite);
      assert Push(st, s, room, now) == c.store;
      CreateAllKeeps(c.store, specs[1..], room, now);
    }
  }

  /** The task CreateAll makes of the j-th spec: the j-th new entry, under the
      j-th fresh id. */
  lemma {:induction false} CreatedAt(st: Store, specs: seq<Spec>, room: RoomName, now: int, j: nat)
    requires j < |specs|
    ensures var r := CreateAll(st, specs, room, now);
            |st.tasks| + j < |r.tasks| && r.tasks[|st.tasks| + j] == Made(specs[j], st.nextId + j, room, now)
    decreases j, 1
  {
    if j == 0 {
      CreatedFirst(st, specs, room, now);
    } else {
      CreatedLater(st, specs, room, now, j);
    }
  }

  lemma CreatedFirst(st: Store, specs: seq<Spec>, room: RoomName, now: int)
    requires 0 < |specs|
    ensures var r := CreateAll(st, specs, room, now);
            |st.tasks| < |r.tasks| && r.tasks[|st.tasks|] == Made(specs[0], st.nextId, room, now)
  {
    var c := Push(st, specs[0], room, now);
    var r := CreateAll(c, specs[1..], room, now);
    assert r.tasks[|st.tasks|] == c.tasks[|st.tasks|];
  }

  /** The entries after the first are those CreateAll makes from the rest. */
  lemma {:induction false} CreatedLater(st: Store, specs: seq<Spec>, room: RoomName, now: int, j: nat)
    requires 0 < j < |specs|
    ensures var r := CreateAll(st, specs, room, now);
            |st.tasks| + j < |r.tasks| && r.tasks[|st.tasks| + j] == Made(specs[j], st.nextId + j, room, now)
    decreases j, 0
  {
    var c := Push(st, specs[0], room, now);
    var r := CreateAll(c, specs[1..], room, now);
    CreatedAt(c, specs[1..], room, now, j - 1);
    assert |c.tasks| + (j - 1) == |st.tasks| + j;
    assert c.nextId + (j - 1) == st.nextId + j;
    assert specs[1..][j - 1] == specs[j];
  }

  /** Every spec's (type, target) is covered after CreateAll. */
  lemma CreateAllCovers(st: Store, specs: seq<Spec>, room: RoomName, now: int)
    ensures var r := CreateAll(st, specs, room, now);
            forall k | 0 <= k < |specs| :: HasTaskFor(r, specs[k].ty, specs[k].target)
  {
    var r := CreateAll(st, specs, room, now);
    forall k | 0 <= k < |specs| ensures HasTaskFor(r, specs[k].ty, specs[k].target) {
      CreatedAt(st, specs, room, now, k);
      assert r.tasks[|st.tasks| + k].ttype == specs[k].ty;
    }
  }

  // ---------------------------------------------------------------------------
  // The scanners

  /** The ids of `ids` with no task of type `ty` in `st`, in order. */
  function Uncovered(st: Store, ty: TaskType, ids: seq<EntityId>): (r: seq<EntityId>)
    ensures forall id :: id in r <==> id in ids && !HasTaskFor(st, ty, id)
    ensures |r| <= |ids|
  {
    Filter(ids, id => !HasTaskFor(st, ty, id))
  }

  lemma {:induction false} NothingUncovered(st: Store, ty: TaskType, ids: seq<EntityId>)
    requires forall id | id in ids :: HasTaskFor(st, ty, id)
    ensures Uncovered(st, ty, ids) == []
    decreases |ids|
  {
    if ids != [] {
      assert forall x | x in ids[1..] :: x in ids;
      NothingUncovered(st, ty, ids[1..]);
    }
  }

  /** What one scanner does with the ids it found: the entries it appends
      are tasks made by `mk` for ids that had no task of type `ty`, and
      afterwards every found id has one. */
  predicate AddsFor(st: Store, r: Store, ty: TaskType, ids: seq<EntityId>, mk: EntityId -> Spec, room: RoomName, now: int) {
    && Grows(st, r)
    && (forall k | |st.tasks| <= k < |r.tasks| ::
          r.tasks[k].target in ids && !HasTaskFor(st, ty, r.tasks[k].target) &&
          r.tasks[k] == Made(mk(r.tasks[k].target), r.tasks[k].id, room, now))
    && (forall id | id in ids :: HasTaskFor(r, ty, id))
  }

  /** One spec per id. */
  function SpecsFor(ids: seq<EntityId>, mk: EntityId -> Spec): (r: seq<Spec>)
    ensures |r| == |ids| && forall i | 0 <= i < |ids| :: r[i] == mk(ids[i])
  {
    seq(|ids|, i requires 0 <= i < |ids| => mk(ids[i]))
  }

  /** Creating one spec per uncovered id is what a scanner promises. */
  lemma CreateForUncovered(st: Store, ty: TaskType, ids: seq<EntityId>, mk: EntityId -> Spec, room: RoomName, now: int)
    requires forall id :: mk(id).ty == ty && mk(id).target == id
    ensures AddsFor(st, CreateAll(st, SpecsFor(Uncovered(st, ty, ids), mk), room, now), ty, ids, mk, room, now)
  {
    var novel := Uncovered(st, ty, ids);
    var specs := SpecsFor(novel, mk);
    var r := CreateAll(st, specs, room, now);
    CreateAllCovers(st, specs, room, now);
    Extends(st, r);
    forall id | id in ids ensures HasTaskFor(r, ty, id) {
      if !HasTaskFor(st, ty, id) {
        var i :| 0 <= i < |novel| && novel[i] == id;
        assert specs[i].ty == ty && specs[i].target == id;
      }
    }
    forall k | |st.tasks| <= k < |r.tasks|
      ensures r.tasks[k].target in ids && !HasTaskFor(st, ty, r.tasks[k].target)
      ensures r.tasks[k] == Made(mk(r.tasks[k].target), r.tasks[k].id, room, now)
    {
      NewTaskFacts(st, ty, ids, mk, room, now, k);
    }
  }

  /** The k-th entry of the table after CreateForUncovered's run, when it is a new one. */
  lemma NewTaskFacts(st: Store, ty: TaskType, ids: seq<EntityId>, mk: EntityId -> Spec, room: RoomName, now: int, k: nat)
    requires forall id :: mk(id).ty == ty && mk(id).target == id
    requires |st.tasks| <= k < |CreateAll(st, SpecsFor(Uncovered(st, ty, ids), mk), room, now).tasks|
    ensures var r := CreateAll(st, SpecsFor(Uncovered(st, ty, ids), mk), room, now);
            && r.tasks[k].target in ids && !HasTaskFor(st, ty, r.tasks[k].target)
            && r.tasks[k] == Made(mk(r.tasks[k].target), r.tasks[k].id, room, now)
  {
    var novel := Uncovered(st, ty, ids);
    var specs := SpecsFor(novel, mk);
    var j := k - |st.tasks|;
    var id := novel[j];
    assert id in novel;
    assert specs[j] == mk(id);
    CreatedAt(st, specs, room, now, j);
  }

  function MineSpec(id: EntityId): Spec { Spec(MineSource, id, High, [Miner], true) }

  function DeliverSpec(id: EntityId): Spec { Spec(DeliverMiner, id, High, [Taxi], false) }

  /** A MINE_SOURCE spec and its DELIVER_MINER companion per source. */
  function MinePairs(ids: seq<EntityId>): (r: seq<Spec>)
    ensures |r| == 2 * |ids|
    ensures forall i | 0 <= i < |ids| :: r[2 * i] == MineSpec(ids[i]) && r[2 * i + 1] == DeliverSpec(ids[i])
  {
    if ids == [] then [] else [MineSpec(ids[0]), DeliverSpec(ids[0])] + MinePairs(ids[1..])
  }

  /** What scanSources adds: for each source without a MINE_SOURCE task, in
      find order, an infinite MINE_SOURCE task for miners immediately followed
      by a DELIVER_MINER task for taxis; afterwards every source has a
      MINE_SOURCE task. */
  predicate AddsSourcePairs(st: Store, r: Store, room: Room, now: int) {
    var novel := Uncovered(st, MineSource, room.sources);
    && Grows(st, r) && |r.tasks| == |st.tasks| + 2 * |novel|
    && (forall i | 0 <= i < |novel| ::
          && r.tasks[|st.tasks| + 2 * i] == Made(MineSpec(novel[i]), st.nextId + 2 * i, room.name, now)
          && r.tasks[|st.tasks| + (2 * i + 1)] == Made(DeliverSpec(novel[i]), st.nextId + (2 * i + 1), room.name, now))
    && (forall id | id in room.sources :: HasTaskFor(r, MineSource, id))
  }

  /** scanSources */
  function ScanSources(st: Store, room: Room, now: int): (r: Store)
    ensures (Valid(st) ==> Valid(r)) && (Inv(st) ==> Inv(r))
    ensures AddsSourcePairs(st, r, room, now)
  {
    ScanSourcesFacts(st, room, now);
    CreateAllKeeps(st, MinePairs(Uncovered(st, MineSource, room.sources)), room.name, now);
    CreateAll(st, MinePairs(Uncovered(st, MineSource, room.sources)), room.name, now)
  }

  lemma ScanSourcesFacts(st: Store, room: Room, now: int)
    ensures AddsSourcePairs(st, CreateAll(st, MinePairs(Uncovered(st, MineSource, room.sources)), room.name, now), room, now)
  {
    var novel := Uncovered(st, MineSource, room.sources);
    var r := CreateAll(st, MinePairs(novel), room.name, now);
    forall i | 0 <= i < |novel|
      ensures r.tasks[|st.tasks| + 2 * i] == Made(MineSpec(novel[i]), st.nextId + 2 * i, room.name, now)
      ensures r.tasks[|st.tasks| + (2 * i + 1)] == Made(DeliverSpec(novel[i]), st.nextId + (2 * i + 1), room.name, now)
    {
      PairAt(st, novel, room.name, now, i);
    }
    Extends(st, r);
    forall id | id in room.sources ensures HasTaskFor(r, MineSource, id) {
      if !HasTaskFor(st, MineSource, id) {
        var i :| 0 <= i < |novel| && novel[i] == id;
        PairAt(st, novel, room.name, now, i);
        assert r.tasks[|st.tasks| + 2 * i].ttype == MineSource;
      }
    }
  }

  /** The two tasks CreateAll makes for the i-th source of a MinePairs run. */
  lemma PairAt(st: Store, ids: seq<EntityId>, room: RoomName, now: int, i: nat)
    requires i < |ids|
    ensures var r := CreateAll(st, MinePairs(ids), room, now);
            && |st.tasks| + (2 * i + 1) < |r.tasks|
            && r.tasks[|st.tasks| + 2 * i] == Made(MineSpec(ids[i]), st.nextId + 2 * i, room, now)
            && r.tasks[|st.tasks| + (2 * i + 1)] == Made(DeliverSpec(ids[i]), st.nextId + (2 * i + 1), room, now)
  {
    var specs := MinePairs(ids);
    CreatedAt(st, specs, room, now, 2 * i);
    CreatedAt(st, specs, room, now, 2 * i + 1);
  }

  function BuildSpec(id: EntityId): Spec { Spec(Build, id, Medium, [Builder, Repairer], false) }

  /** scanConstructionSites */
  function ScanSites(st: Store, room: Room, now: int): (r: Store)
    ensures (Valid(st) ==> Valid(r)) && (Inv(st) ==> Inv(r))
    ensures AddsFor(st, r, Build, room.sites, BuildSpec, room.name, now)
  {
    CreateForUncovered(st, Build, room.sites, BuildSpec, room.name, now);
    CreateAllKeeps(st, SpecsFor(Uncovered(st, Build, room.sites), BuildSpec), room.name, now);
    CreateAll(st, SpecsFor(Uncovered(st, Build, room.sites), BuildSpec), room.name, now)
  }

  /** The structures scanStructures repairs: damaged roads, containers, walls and ramparts. */
  predicate Repairable(s: Workers.Structure) {
    s.hits < s.hitsMax && s.kind in {Workers.Road, Workers.Container, Workers.Wall, Workers.Rampart}
  }

  /** The kind of the first structure with this id, if any. */
  function KindOf(ss: seq<Workers.Structure>, id: EntityId): Option<Workers.StructureKind> {
    if ss == [] then None else if ss[0].id == id then Some(ss[0].kind) else KindOf(ss[1..], id)
  }

  /** The REPAIR spec for a structure: LOW for walls and ramparts, MEDIUM otherwise. */
  function RepairSpec(ss: seq<Workers.Structure>, id: EntityId): Spec {
    var low := KindOf(ss, id) == Some(Workers.Wall) || KindOf(ss, id) == Some(Workers.Rampart);
    Spec(Repair, id, if low then Low else Medium, [Repairer], false)
  }

  function RepairSpecs(ss: seq<Workers.Structure>): EntityId -> Spec {
    id => RepairSpec(ss, id)
  }

  /** The ids of the repairable structures, in find order. */
  function RepairableIds(ss: seq<Workers.Structure>): (r: seq<EntityId>)
    ensures forall id :: id in r <==> exists s | s in ss :: Repairable(s) && s.id == id
  {
    if ss == [] then []
    else
      var rest := RepairableIds(ss[1..]);
      assert forall s | s in ss[1..] :: s in ss;
      assert forall s | s in ss :: s == ss[0] || s in ss[1..];
      (if Repairable(ss[0]) then [ss[0].id] else []) + rest
  }

  /** scanStructures */
  function ScanStructures(st: Store, room: Room, now: int): (r: Store)
    ensures (Valid(st) ==> Valid(r)) && (Inv(st) ==> Inv(r))
    ensures AddsFor(st, r, Repair, RepairableIds(room.structures), RepairSpecs(room.structures), room.name, now)
  {
    var ids := RepairableIds(room.structures);
    CreateForUncovered(st, Repair, ids, RepairSpecs(room.structures), room.name, now);
    CreateAllKeeps(st, SpecsFor(Uncovered(st, Repair, ids), RepairSpecs(room.structures)), room.name, now);
    CreateAll(st, SpecsFor(Uncovered(st, Repair, ids), RepairSpecs(room.structures)), room.name, now)
  }

  /** The REPAIR task of a wall or rampart has LOW priority and any other MEDIUM. */
  lemma RepairPriorityByKind(ss: seq<Workers.Structure>, s: Workers.Structure)
    requires s in ss && forall i, j | 0 <= i < j < |ss| :: ss[i].id != ss[j].id
    ensures RepairSpec(ss, s.id).priority == if s.kind in {Workers.Wall, Workers.Rampart} then Low else Medium
  {
    KindOfFound(ss, s);
  }

  /** In a list without repeated ids, KindOf finds a structure's own kind. */
  lemma {:induction false} KindOfFound(ss: seq<Workers.Structure>, s: Workers.Structure)
    requires s in ss && forall i, j | 0 <= i < j < |ss| :: ss[i].id != ss[j].id
    ensures KindOf(ss, s.id) == Some(s.kind)
  {
    if ss[0] != s {
      assert s in ss[1..];
      var k :| 0 <= k < |ss[1..]| && ss[1..][k] == s;
      assert ss[0].id != ss[k + 1].id;
      KindOfFound(ss[1..], s);
    }
  }

  /** scanController: one infinite UPGRADE task for an owned controller. */
  function ScanController(st: Store, room: Room, now: int): (r: Store)
    ensures (Valid(st) ==> Valid(r)) && (Inv(st) ==> Inv(r))
    ensures Grows(st, r)
    ensures |r.tasks| > |st.tasks| <==>
              room.controller.Some? && room.controller.value.my && !HasTaskFor(st, Upgrade, room.controller.value.id)
    ensures |r.tasks| > |st.tasks| ==>
              r.tasks == st.tasks + [Made(Spec(Upgrade, room.controller.value.id, Medium, [Upgrader], true), st.nextId, room.name, now)]
    ensures room.controller.Some? && room.controller.value.my ==> HasTaskFor(r, Upgrade, room.controller.value.id)
  {
    match room.controller
    case Some(c) =>
      if c.my && !HasTaskFor(st, Upgrade, c.id) then
        var specs := [Spec(Upgrade, c.id, Medium, [Upgrader], true)];
        CreateAllCovers(st, specs, room.name, now);
        var r := CreateAll(st, specs, room.name, now);
        CreatedAt(st, specs, room.name, now, 0);
        CreateAllKeeps(st, specs, room.name, now);
        assert r.tasks == r.tasks[..|st.tasks|] + [r.tasks[|st.tasks|]];
        r
      else st
    case None => st
  }

  function SpawnSpec(id: EntityId): Spec { Spec(SpawnCreep, id, Medium, [Spawner], false) }

  /** scanSpawners: re-reads the SPAWN_CREEP tasks for every spawn, so a spawn
      listed twice still gets one task. */
  function ScanSpawners(st: Store, spawns: seq<EntityId>, room: RoomName, now: int): (r: Store)
    ensures (Valid(st) ==> Valid(r)) && (Inv(st) ==> Inv(r))
    ensures AddsFor(st, r, SpawnCreep, spawns, SpawnSpec, room, now)
    decreases |spawns|
  {
    if spawns == [] then st
    else
      var mid := SpawnOne(st, spawns[0], room, now);
      var r := ScanSpawners(mid, spawns[1..], room, now);
      SpawnStep(st, mid, r, spawns, room, now);
      r
  }

  /** The body of scanSpawners' forEach for one spawn. */
  function SpawnOne(st: Store, id: EntityId, room: RoomName, now: int): (r: Store)
    ensures (Valid(st) ==> Valid(r)) && (Inv(st) ==> Inv(r))
    ensures AddsFor(st, r, SpawnCreep, [id], SpawnSpec, room, now)
    ensures |r.tasks| <= |st.tasks| + 1
  {
    CreateForUncovered(st, SpawnCreep, [id], SpawnSpec, room, now);
    CreateAllKeeps(st, SpecsFor(Uncovered(st, SpawnCreep, [id]), SpawnSpec), room, now);
    CreateAll(st, SpecsFor(Uncovered(st, SpawnCreep, [id]), SpawnSpec), room, now)
  }

  lemma SpawnStep(st: Store, mid: Store, r: Store, spawns: seq<EntityId>, room: RoomName, now: int)
    requires spawns != []
    requires AddsFor(st, mid, SpawnCreep, [spawns[0]], SpawnSpec, room, now)
    requires AddsFor(mid, r, SpawnCreep, spawns[1..], SpawnSpec, room, now)
    ensures AddsFor(st, r, SpawnCreep, spawns, SpawnSpec, room, now)
  {
    GrowsTrans(st, mid, r);
    Extends(st, mid);
    Extends(mid, r);
    assert forall x | x in spawns[1..] :: x in spawns;
    forall k | |st.tasks| <= k < |mid.tasks| ensures r.tasks[k] == mid.tasks[k] {
    }
  }

  /** Targets of the entries appended after `st` are pairwise different. */
  predicate NewTargetsDistinct(st: Store, r: Store) {
    forall k1, k2 | |st.tasks| <= k1 < k2 < |r.tasks| :: r.tasks[k1].target != r.tasks[k2].target
  }

  /** The SPAWN_CREEP tasks one scan adds have pairwise different targets,
      even when a spawn is listed twice. */
  lemma {:induction false} SpawnersDistinct(st: Store, spawns: seq<EntityId>, room: RoomName, now: int)
    ensures NewTargetsDistinct(st, ScanSpawners(st, spawns, room, now))
    decreases |spawns|
  {
    if spawns != [] {
      var mid := SpawnOne(st, spawns[0], room, now);
      SpawnersDistinct(mid, spawns[1..], room, now);
      DistinctStep(st, mid, ScanSpawners(mid, spawns[1..], room, now), spawns, room, now);
    }
  }

  lemma DistinctStep(st: Store, mid: Store, r: Store, spawns: seq<EntityId>, room: RoomName, now: int)
    requires spawns != [] && |mid.tasks| <= |st.tasks| + 1
    requires AddsFor(st, mid, SpawnCreep, [spawns[0]], SpawnSpec, room, now)
    requires AddsFor(mid, r, SpawnCreep, spawns[1..], SpawnSpec, room, now)
    requires NewTargetsDistinct(mid, r)
    ensures NewTargetsDistinct(st, r)
  {
    forall k1, k2 | |st.tasks| <= k1 < k2 < |r.tasks| ensures r.tasks[k1].target != r.tasks[k2].target {
      if k1 < |mid.tasks| {
        assert k2 >= |mid.tasks|;
        assert mid.tasks[k1].ttype == SpawnCreep;
        assert HasTaskFor(mid, SpawnCreep, mid.tasks[k1].target);
      }
    }
  }

  /** scanResourcePiles: energy piles only. */
  function EnergyPileIds(ps: seq<Pile>): (r: seq<EntityId>)
    ensures forall id :: id in r <==> exists p | p in ps :: p.energy && p.id == id
  {
    if ps == [] then []
    else
      var rest := EnergyPileIds(ps[1..]);
      assert forall p | p in ps[1..] :: p in ps;
      assert forall p | p in ps :: p == ps[0] || p in ps[1..];
      (if ps[0].energy then [ps[0].id] else []) + rest
  }

  function CollectSpec(id: EntityId): Spec { Spec(CollectFromPile, id, Medium, [Courier, Builder, Repairer], false) }

  function ScanPiles(st: Store, room: Room, now: int): (r: Store)
    ensures (Valid(st) ==> Valid(r)) && (Inv(st) ==> Inv(r))
    ensures AddsFor(st, r, CollectFromPile, EnergyPileIds(room.piles), CollectSpec, room.name, now)
  {
    var ids := EnergyPileIds(room.piles);
    CreateForUncovered(st, CollectFromPile, ids, CollectSpec, room.name, now);
    CreateAllKeeps(st, SpecsFor(Uncovered(st, CollectFromPile, ids), CollectSpec), room.name, now);
    CreateAll(st, SpecsFor(Uncovered(st, CollectFromPile, ids), CollectSpec), room.name, now)
  }

  /** Everything one scan makes sure has a task. */
  predicate Covered(st: Store, room: Room) {
    && (forall id | id in room.sources :: HasTaskFor(st, MineSource, id))
    && (forall id | id in room.sites :: HasTaskFor(st, Build, id))
    && (forall s | s in room.structures && Repairable(s) :: HasTaskFor(st, Repair, s.id))
    && (room.controller.Some? && room.controller.value.my ==> HasTaskFor(st, Upgrade, room.controller.value.id))
    && (forall id | id in room.spawns :: HasTaskFor(st, SpawnCreep, id))
    && (forall p | p in room.piles && p.energy :: HasTaskFor(st, CollectFromPile, p.id))
  }

  /** scanRoom: nothing without a room or a controller, else every scanner in turn. */
  function ScanRoom(st: Store, room: Option<Room>, now: int): (r: Store)
    ensures (Valid(st) ==> Valid(r)) && (Inv(st) ==> Inv(r))
    ensures room.None? || room.value.controller.None? ==> r == st
    ensures Grows(st, r)
    ensures room.Some? && room.value.controller.Some? ==> Covered(r, room.value)
  {
    if room.None? || room.value.controller.None? then st
    else
      var rm := room.value;
      var s1 := ScanSources(st, rm, now);
      var s2 := ScanSites(s1, rm, now);
      var s3 := ScanStructures(s2, rm, now);
      var s4 := ScanController(s3, rm, now);
      var s5 := ScanSpawners(s4, rm.spawns, rm.name, now);
      var s6 := ScanPiles(s5, rm, now);
      ScanChain(st, s1, s2, s3, s4, s5, s6, rm, now);
      s6
  }

  lemma ScanChain(st: Store, s1: Store, s2: Store, s3: Store, s4: Store, s5: Store, s6: Store, rm: Room, now: int)
    requires AddsSourcePairs(st, s1, rm, now)
    requires AddsFor(s1, s2, Build, rm.sites, BuildSpec, rm.name, now)
    requires AddsFor(s2, s3, Repair, RepairableIds(rm.structures), RepairSpecs(rm.structures), rm.name, now)
    requires Grows(s3, s4) && (rm.controller.Some? && rm.controller.value.my ==> HasTaskFor(s4, Upgrade, rm.controller.value.id))
    requires AddsFor(s4, s5, SpawnCreep, rm.spawns, SpawnSpec, rm.name, now)
    requires AddsFor(s5, s6, CollectFromPile, EnergyPileIds(rm.piles), CollectSpec, rm.name, now)
    ensures Grows(st, s6) && Covered(s6, rm)
  {
    GrowsTrans(st, s1, s2);
    GrowsTrans(st, s2, s3);
    GrowsTrans(st, s3, s4);
    GrowsTrans(st, s4, s5);
    GrowsTrans(st, s5, s6);
    GrowsTrans(s1, s2, s3);
    GrowsTrans(s1, s3, s4);
    GrowsTrans(s1, s4, s5);
    GrowsTrans(s1, s5, s6);
    Extends(s1, s6);
    GrowsTrans(s2, s3, s4);
    GrowsTrans(s2, s4, s5);
    GrowsTrans(s2, s5, s6);
    Extends(s2, s6);
    GrowsTrans(s3, s4, s5);
    GrowsTrans(s3, s5, s6);
    Extends(s3, s6);
    GrowsTrans(s4, s5, s6);
    Extends(s4, s6);
    Extends(s5, s6);
  }

  /** On a room that is already covered, no scanner creates anything. */
  lemma CoveredScanIsNoop(st: Store, room: Room, now: int)
    requires Covered(st, room) && room.controller.Some?
    ensures ScanRoom(st, Some(room), now) == st
  {
    NothingUncovered(st, MineSource, room.sources);
    assert ScanSources(st, room, now) == st;
    NothingUncovered(st, Build, room.sites);
    assert ScanSites(st, room, now) == st;
    NothingUncovered(st, Repair, RepairableIds(room.structures));
    assert ScanStructures(st, room, now) == st;
    SpawnersNoop(st, room.spawns, room.name, now);
    NothingUncovered(st, CollectFromPile, EnergyPileIds(room.piles));
    assert ScanPiles(st, room, now) == st;
  }

  lemma {:induction false} SpawnersNoop(st: Store, spawns: seq<EntityId>, room: RoomName, now: int)
    requires forall id | id in spawns :: HasTaskFor(st, SpawnCreep, id)
    ensures ScanSpawners(st, spawns, room, now) == st
    decreases |spawns|
  {
    if spawns != [] {
      NothingUncovered(st, SpawnCreep, [spawns[0]]);
      assert SpawnOne(st, spawns[0], room, now) == st;
      assert forall x | x in spawns[1..] :: x in spawns;
      SpawnersNoop(st, spawns[1..], room, now);
    }
  }

  /** Scanning an unchanged room twice creates nothing the first scan did not. */
  lemma ScanIdempotent(st: Store, room: Option<Room>, now: int, later: int)
    ensures ScanRoom(ScanRoom(st, room, now), room, later) == ScanRoom(st, room, now)
  {
    if room.Some? && room.value.controller.Some? {
      CoveredScanIsNoop(ScanRoom(st, room, now), room.value, later);
    }
  }

  // ---------------------------------------------------------------------------
  // Validation

  /** What validation asks of the game: the ids that resolve, the structures
      at full hits, and the piles whose amount is 0 or less. */
  datatype World = World(present: set<EntityId>, repaired: set<EntityId>, emptied: set<EntityId>)

  /** validateMineSourceTask, validateBuildTask, validateRepairTask and
      validateCollectTask: whether the task is completed. Other types are
      never validated. */
  predicate Stale(t: Task, w: World) {
    match t.ttype
    case MineSource => t.target !in w.present
    case Build => t.target !in w.present
    case Repair => t.target !in w.present || t.target in w.repaired
    case CollectFromPile => t.target !in w.present || t.target in w.emptied
    case _ => false
  }

  /** Some listed entry with this id is stale. */
  predicate StaleId(ts: seq<Task>, id: TaskId, w: World) {
    exists i | 0 <= i < |ts| :: ts[i].id == id && Stale(ts[i], w)
  }

  /** The forEach over the task list read at the start: completeTask on every stale entry. */
  function CompleteStale(cur: Store, ts: seq<Task>, w: World): (r: Store)
    ensures Valid(cur) ==> Valid(r)
    ensures Inv(cur) ==> Inv(r)
    ensures forall id :: Get(r, id) ==
              if StaleId(ts, id, w) && Get(cur, id).Some? then Some(Finished(Get(cur, id).value)) else Get(cur, id)
    decreases |ts|
  {
    if ts == [] then cur
    else
      var next := if Stale(ts[0], w) then CompleteTask(cur, ts[0].id).store else cur;
      StaleIdCons(ts, w);
      CompleteStale(next, ts[1..], w)
  }

  lemma StaleIdCons(ts: seq<Task>, w: World)
    requires ts != []
    ensures forall id :: StaleId(ts, id, w) <==> (ts[0].id == id && Stale(ts[0], w)) || StaleId(ts[1..], id, w)
  {
    forall id ensures StaleId(ts, id, w) <==> (ts[0].id == id && Stale(ts[0], w)) || StaleId(ts[1..], id, w) {
      if StaleId(ts, id, w) {
        var i :| 0 <= i < |ts| && ts[i].id == id && Stale(ts[i], w);
        if i > 0 { assert ts[1..][i - 1] == ts[i]; }
      }
      if StaleId(ts[1..], id, w) {
        var i :| 0 <= i < |ts[1..]| && ts[1..][i].id == id && Stale(ts[1..][i], w);
        assert ts[i + 1] == ts[1..][i];
      }
    }
  }

  /** What validation leaves of one task: stale tasks are completed, then
      cleanup drops the retired ones. */
  function AfterValidation(t: Task, w: World): Option<Task> {
    var u := if Stale(t, w) then Finished(t) else t;
    if Retired(u) then None else Some(u)
  }

  /** validateTasks */
  function ValidateTasks(st: Store, w: World): (r: Store)
    requires Valid(st)
    ensures Valid(r) && (Inv(st) ==> Inv(r)) && r.nextId == st.nextId
    ensures forall id :: Get(r, id) == if Get(st, id).Some? then AfterValidation(Get(st, id).value, w) else None
  {
    StaleIdGet(st, w);
    CompleteStaleCounter(st, st.tasks, w);
    CleanupCompletedTasks(CompleteStale(st, st.tasks, w))
  }

  /** In a valid table, an id is stale in the list exactly when its task is. */
  lemma StaleIdGet(st: Store, w: World)
    requires Valid(st)
    ensures forall id | Get(st, id).Some? :: StaleId(st.tasks, id, w) <==> Stale(Get(st, id).value, w)
  {
    forall id | Get(st, id).Some? ensures StaleId(st.tasks, id, w) <==> Stale(Get(st, id).value, w) {
      var t := Get(st, id).value;
      if StaleId(st.tasks, id, w) {
        var i :| 0 <= i < |st.tasks| && st.tasks[i].id == id && Stale(st.tasks[i], w);
        FindInStore(st, i);
      }
      var j :| 0 <= j < |st.tasks| && st.tasks[j] == t;
    }
  }

  lemma {:induction false} CompleteStaleCounter(cur: Store, ts: seq<Task>, w: World)
    ensures CompleteStale(cur, ts, w).nextId == cur.nextId
    decreases |ts|
  {
    if ts != [] {
      var next := if Stale(ts[0], w) then CompleteTask(cur, ts[0].id).store else cur;
      assert next.nextId == cur.nextId;
      CompleteStaleCounter(next, ts[1..], w);
    }
  }

  /** The MINE_SOURCE task of a vanished source is infinite, as scanSources
      creates it, so validation resets it to PENDING instead of removing it,
      and it stays on offer to miners with nothing to mine. */
  lemma VanishedSourceLingers(st: Store, w: World, id: TaskId)
    requires Valid(st) && Get(st, id).Some?
    requires var t := Get(st, id).value; t.ttype == MineSource && t.infinite && t.target !in w.present
    ensures var t := Get(st, id).value;
            var u := Get(ValidateTasks(st, w), id);
            u == Some(t.(state := Pending, progress := 0, assignees := [])) && Stale(u.value, w)
  {
  }

  /** validateTasks as its comments describe it: a task whose target is gone
      or finished is removed, infinite or not; then cleanup runs. */
  function ValidateTasksCorrected(st: Store, w: World): (r: Store)
    requires Valid(st)
    ensures Valid(r) && (Inv(st) ==> Inv(r)) && r.nextId == st.nextId
    ensures forall id :: Get(r, id) ==
              if Get(st, id).Some? && !Stale(Get(st, id).value, w) && !Retired(Get(st, id).value) then Get(st, id) else None
  {
    DropStaleFacts(st, w);
    CleanupCompletedTasks(DropStale(st, w))
  }

  /** The table without its stale tasks. */
  function DropStale(st: Store, w: World): Store {
    Store(Filter(st.tasks, (t: Task) => !Stale(t, w)), st.nextId)
  }

  lemma DropStaleFacts(st: Store, w: World)
    requires Valid(st)
    ensures var d := DropStale(st, w);
            && Valid(d) && (Inv(st) ==> Inv(d)) && d.nextId == st.nextId
            && forall id :: Get(d, id) == if Get(st, id).Some? && Stale(Get(st, id).value, w) then None else Get(st, id)
  {
    var keep := (t: Task) => !Stale(t, w);
    var ts := Filter(st.tasks, keep);
    assert forall i | 0 <= i < |ts| :: ts[i] in st.tasks;
    FilterPairwise(st.tasks, keep, (a: Task, b: Task) => a.id < b.id);
    forall id ensures Find(ts, id) ==
        if Find(st.tasks, id).Some? && !keep(Find(st.tasks, id).value) then None else Find(st.tasks, id) {
      FindFilter(st.tasks, keep, id);
    }
  }

  /** After the corrected validation no stale task is left. */
  lemma CorrectedLeavesNoStaleTask(st: Store, w: World, id: TaskId)
    requires Valid(st)
    ensures var r := Get(ValidateTasksCorrected(st, w), id); r.Some? ==> !Stale(r.value, w)
  {
  }
}

=== FILE: sorting.dfy ===
/** Order-preserving filtering and a stable sort by a small descending key.
    Array.prototype.sort is stable, so sorting by a comparator that only
    compares a rank is the same as concatenating the buckets of each rank
    from highest to lowest, each bucket in input order. */
module Sorting {
  import opened Types

  function Filter<T(!new)>(ts: seq<T>, p: T -> bool): (r: seq<T>)
    ensures forall t :: t in r <==> t in ts && p(t)
    ensures |r| <= |ts|
  {
    if ts == [] then []
    else (if p(ts[0]) then [ts[0]] else []) + Filter(ts[1..], p)
  }

  /** Filtering keeps a subsequence, so a pairwise property survives it. */
  lemma {:induction false} FilterPairwise<T(!new)>(ts: seq<T>, p: T -> bool, rel: (T, T) -> bool)
    requires forall i, j | 0 <= i < j < |ts| :: rel(ts[i], ts[j])
    ensures forall i, j | 0 <= i < j < |Filter(ts, p)| :: rel(Filter(ts, p)[i], Filter(ts, p)[j])
    decreases |ts|
  {
    if ts != [] {
      var rest := Filter(ts[1..], p);
      FilterPairwise(ts[1..], p, rel);
      if p(ts[0]) {
        var r := [ts[0]] + rest;
        forall i, j | 0 <= i < j < |r| ensures rel(r[i], r[j]) {
          if i == 0 {
            assert r[j] == rest[j - 1] && rest[j - 1] in rest;
            var k :| 0 <= k < |ts[1..]| && ts[1..][k] == rest[j - 1];
            assert ts[1 + k] == r[j];
            assert rel(ts[0], ts[1 + k]);
            assert r[0] == ts[0];
          } else {
            assert r[i] == rest[i - 1] && r[j] == rest[j - 1];
            assert rel(rest[i - 1], rest[j - 1]);
          }
        }
        assert Filter(ts, p) == r;
      } else {
        assert Filter(ts, p) == rest;
      }
    }
  }

  /** The head of a filtered list sorted by descending rank has the highest
      rank among the entries that pass the filter. */
  lemma FilterHeadBest<T(!new)>(ts: seq<T>, p: T -> bool, rank: T -> nat)
    requires forall i, j | 0 <= i < j < |ts| :: rank(ts[i]) >= rank(ts[j])
    requires |Filter(ts, p)| > 0
    ensures forall t | t in ts && p(t) :: rank(t) <= rank(Filter(ts, p)[0])
  {
    var picked := Filter(ts, p);
    FilterPairwise(ts, p, (a: T, b: T) => rank(a) >= rank(b));
    forall t | t in ts && p(t) ensures rank(t) <= rank(picked[0]) {
      assert t in picked;
      var k :| 0 <= k < |picked| && picked[k] == t;
    }
  }

  /** The head of a filtered list stands in the list's order before every
      other entry the filter keeps. */
  lemma FilterHeadFirst<T(!new)>(ts: seq<T>, p: T -> bool, rel: (T, T) -> bool)
    requires forall i, j | 0 <= i < j < |ts| :: rel(ts[i], ts[j])
    requires |Filter(ts, p)| > 0
    ensures forall t | t in ts && p(t) && t != Filter(ts, p)[0] :: rel(Filter(ts, p)[0], t)
  {
    var picked := Filter(ts, p);
    FilterPairwise(ts, p, rel);
    forall t | t in ts && p(t) && t != picked[0] ensures rel(picked[0], t) {
      assert t in picked;
      var k :| 0 <= k < |picked| && picked[k] == t;
    }
  }

  lemma {:induction false} FilterCount<T(!new)>(ts: seq<T>, p: T -> bool, t: T)
    ensures multiset(Filter(ts, p))[t] == if p(t) then multiset(ts)[t] else 0
    decreases |ts|
  {
    if ts != [] {
      assert ts == [ts[0]] + ts[1..];
      FilterCount(ts[1..], p, t);
    }
  }

  /** The entries whose key is exactly k, in input order. */
  function Bucket<T(!new)>(ts: seq<T>, key: T -> nat, k: nat): (r: seq<T>)
    ensures forall i | 0 <= i < |r| :: key(r[i]) == k
  {
    if ts == [] then []
    else (if key(ts[0]) == k then [ts[0]] else []) + Bucket(ts[1..], key, k)
  }

  /** Buckets k, k-1, ..., 0 one after the other. */
  function SortDesc<T(!new)>(ts: seq<T>, key: T -> nat, k: nat): (r: seq<T>)
    ensures forall i | 0 <= i < |r| :: key(r[i]) <= k
    ensures forall i, j | 0 <= i < j < |r| :: key(r[i]) >= key(r[j])
    decreases k
  {
    var b := Bucket(ts, key, k);
    if k == 0 then b
    else
      var rest := SortDesc(ts, key, k - 1);
      SortDescConcat(b, rest, key, k);
      b + rest
  }

  lemma SortDescConcat<T(!new)>(b: seq<T>, rest: seq<T>, key: T -> nat, k: nat)
    requires k > 0
    requires forall i | 0 <= i < |b| :: key(b[i]) == k
    requires forall i | 0 <= i < |rest| :: key(rest[i]) <= k - 1
    requires forall i, j | 0 <= i < j < |rest| :: key(rest[i]) >= key(rest[j])
    ensures forall i | 0 <= i < |b + rest| :: key((b + rest)[i]) <= k
    ensures forall i, j | 0 <= i < j < |b + rest| :: key((b + rest)[i]) >= key((b + rest)[j])
  {
    var s := b + rest;
    forall i | 0 <= i < |s| ensures key(s[i]) <= k {
      if i >= |b| { assert s[i] == rest[i - |b|]; }
    }
    forall i, j | 0 <= i < j < |s| ensures key(s[i]) >= key(s[j]) {
      if j < |b| {
      } else if i < |b| {
        assert s[j] == rest[j - |b|];
      } else {
        assert s[i] == rest[i - |b|] && s[j] == rest[j - |b|];
      }
    }
  }

  lemma {:induction false} BucketConcat<T(!new)>(a: seq<T>, b: seq<T>, key: T -> nat, j: nat)
    ensures Bucket(a + b, key, j) == Bucket(a, key, j) + Bucket(b, key, j)
    decreases |a|
  {
    if a == [] {
      assert a + b == b;
    } else {
      assert (a + b)[1..] == a[1..] + b;
      BucketConcat(a[1..], b, key, j);
    }
  }

  /** A bucket of entries that all have key j is returned whole; if none has it, it is empty. */
  lemma {:induction false} BucketUniform<T(!new)>(ts: seq<T>, key: T -> nat, k: nat, j: nat)
    requires forall i | 0 <= i < |ts| :: key(ts[i]) == k
    ensures Bucket(ts, key, j) == if j == k then ts else []
    decreases |ts|
  {
    if ts != [] {
      assert forall i | 0 <= i < |ts[1..]| :: ts[1..][i] == ts[i + 1];
      BucketUniform(ts[1..], key, k, j);
    }
  }

  lemma {:induction false} BucketAbove<T(!new)>(ts: seq<T>, key: T -> nat, k: nat, j: nat)
    requires forall i | 0 <= i < |ts| :: key(ts[i]) <= k
    requires k < j
    ensures Bucket(ts, key, j) == []
    decreases |ts|
  {
    if ts != [] {
      assert forall i | 0 <= i < |ts[1..]| :: ts[1..][i] == ts[i + 1];
      BucketAbove(ts[1..], key, k, j);
    }
  }

  /** Stability: the entries sharing one key keep their relative order. */
  lemma {:induction false} SortDescStable<T(!new)>(ts: seq<T>, key: T -> nat, k: nat, j: nat)
    requires j <= k
    ensures Bucket(SortDesc(ts, key, k), key, j) == Bucket(ts, key, j)
    decreases k
  {
    if k == 0 {
      BucketUniform(Bucket(ts, key, 0), key, 0, j);
    } else if j == k {
      StableTop(ts, key, k);
    } else {
      StableBelow(ts, key, k, j);
      SortDescStable(ts, key, k - 1, j);
    }
  }

  /** The top bucket of a sort is exactly the input's bucket for that key. */
  lemma StableTop<T(!new)>(ts: seq<T>, key: T -> nat, k: nat)
    requires k > 0
    ensures Bucket(SortDesc(ts, key, k), key, k) == Bucket(ts, key, k)
  {
    var b := Bucket(ts, key, k);
    var rest := SortDesc(ts, key, k - 1);
    BucketUniform(b, key, k, k);
    BucketConcat(b, rest, key, k);
    BucketAbove(rest, key, k - 1, k);
  }

  /** A lower bucket of a sort is the same bucket of the sort one level down. */
  lemma StableBelow<T(!new)>(ts: seq<T>, key: T -> nat, k: nat, j: nat)
    requires j < k
    ensures Bucket(SortDesc(ts, key, k), key, j) == Bucket(SortDesc(ts, key, k - 1), key, j)
  {
    var b := Bucket(ts, key, k);
    BucketUniform(b, key, k, j);
    BucketConcat(b, SortDesc(ts, key, k - 1), key, j);
  }

  /** A bucket is a subsequence, so a pairwise property survives it. */
  lemma {:induction false} BucketPairwise<T(!new)>(ts: seq<T>, key: T -> nat, k: nat, rel: (T, T) -> bool)
    requires forall i, j | 0 <= i < j < |ts| :: rel(ts[i], ts[j])
    ensures forall i, j | 0 <= i < j < |Bucket(ts, key, k)| :: rel(Bucket(ts, key, k)[i], Bucket(ts, key, k)[j])
    decreases |ts|
  {
    if ts != [] {
      var rest := Bucket(ts[1..], key, k);
      BucketPairwise(ts[1..], key, k, rel);
      BucketSub(ts[1..], key, k);
      if key(ts[0]) == k {
        var r := [ts[0]] + rest;
        forall i, j | 0 <= i < j < |r| ensures rel(r[i], r[j]) {
          if i == 0 {
            var m :| 0 <= m < |ts[1..]| && ts[1..][m] == rest[j - 1];
            assert ts[1 + m] == r[j];
          } else {
            assert r[i] == rest[i - 1] && r[j] == rest[j - 1];
          }
        }
        assert Bucket(ts, key, k) == r;
      } else {
        assert Bucket(ts, key, k) == rest;
      }
    }
  }

  /** Every entry of a bucket comes from the input. */
  lemma {:induction false} BucketSub<T(!new)>(ts: seq<T>, key: T -> nat, k: nat)
    ensures forall i | 0 <= i < |Bucket(ts, key, k)| :: Bucket(ts, key, k)[i] in ts
    decreases |ts|
  {
    if ts != [] {
      BucketSub(ts[1..], key, k);
      var b := Bucket(ts, key, k);
      var rest := Bucket(ts[1..], key, k);
      forall i | 0 <= i < |b| ensures b[i] in ts {
        if key(ts[0]) == k {
          if i > 0 { assert b[i] == rest[i - 1]; assert rest[i - 1] in ts[1..]; }
        } else {
          assert b[i] == rest[i];
          assert rest[i] in ts[1..];
        }
      }
    }
  }

  /** Stability again, pairwise: entries with equal keys keep any order the
      input had between them. */
  lemma {:induction false} SortDescTies<T(!new)>(ts: seq<T>, key: T -> nat, k: nat, rel: (T, T) -> bool)
    requires forall i, j | 0 <= i < j < |ts| :: rel(ts[i], ts[j])
    ensures forall i, j | 0 <= i < j < |SortDesc(ts, key, k)| && key(SortDesc(ts, key, k)[i]) == key(SortDesc(ts, key, k)[j]) ::
              rel(SortDesc(ts, key, k)[i], SortDesc(ts, key, k)[j])
    decreases k
  {
    var b := Bucket(ts, key, k);
    BucketPairwise(ts, key, k, rel);
    if k > 0 {
      var rest := SortDesc(ts, key, k - 1);
      SortDescTies(ts, key, k - 1, rel);
      var s := b + rest;
      assert SortDesc(ts, key, k) == s;
      forall i, j | 0 <= i < j < |s| && key(s[i]) == key(s[j]) ensures rel(s[i], s[j]) {
        if j < |b| {
          assert s[i] == b[i] && s[j] == b[j];
        } else if i < |b| {
          assert false;
        } else {
          assert s[i] == rest[i - |b|] && s[j] == rest[j - |b|];
        }
      }
    }
  }

  /** Sorting by descending key a list already ordered by descending rank
      orders it by key first and rank second. */
  lemma SortDescByKeyThenRank<T(!new)>(ts: seq<T>, key: T -> nat, k: nat, rank: T -> nat)
    requires forall i, j | 0 <= i < j < |ts| :: rank(ts[i]) >= rank(ts[j])
    ensures var r := SortDesc(ts, key, k);
            forall i, j | 0 <= i < j < |r| ::
              key(r[i]) > key(r[j]) || (key(r[i]) == key(r[j]) && rank(r[i]) >= rank(r[j]))
  {
    var rel := (a: T, b: T) => rank(a) >= rank(b);
    assert forall i, j | 0 <= i < j < |ts| :: rel(ts[i], ts[j]);
    SortDescTies(ts, key, k, rel);
    var r := SortDesc(ts, key, k);
    forall i, j | 0 <= i < j < |r|
      ensures key(r[i]) > key(r[j]) || (key(r[i]) == key(r[j]) && rank(r[i]) >= rank(r[j]))
    {
      if key(r[i]) == key(r[j]) { assert rel(r[i], r[j]); }
    }
  }

  lemma {:induction false} BucketCount<T(!new)>(ts: seq<T>, key: T -> nat, k: nat, t: T)
    ensures multiset(Bucket(ts, key, k))[t] == if key(t) == k then multiset(ts)[t] else 0
    decreases |ts|
  {
    if ts != [] {
      assert ts == [ts[0]] + ts[1..];
      BucketCount(ts[1..], key, k, t);
    }
  }

  lemma SortDescCount<T(!new)>(ts: seq<T>, key: T -> nat, k: nat, t: T)
    ensures multiset(SortDesc(ts, key, k))[t] == if key(t) <= k then multiset(ts)[t] else 0
  {
    CountBase(ts, key, t);
    var i := 0;
    while i < k
      invariant i <= k
      invariant CountedTo(ts, key, i, t)
    {
      CountLevel(ts, key, i + 1, t);
      i := i + 1;
    }
  }

  /** Sorting down to level k keeps every copy of t when its key is at most k,
      and none otherwise. */
  ghost predicate CountedTo<T(!new)>(ts: seq<T>, key: T -> nat, k: nat, t: T) {
    multiset(SortDesc(ts, key, k))[t] == if key(t) <= k then multiset(ts)[t] else 0
  }

  /** The bottom level of the count: bucket 0 alone. */
  lemma CountBase<T(!new)>(ts: seq<T>, key: T -> nat, t: T)
    ensures CountedTo(ts, key, 0, t)
  {
    assert SortDesc(ts, key, 0) == Bucket(ts, key, 0);
    BucketCount(ts, key, 0, t);
  }

  /** One level of the count: adding bucket k to the levels below it. */
  lemma CountLevel<T(!new)>(ts: seq<T>, key: T -> nat, k: nat, t: T)
    requires k > 0
    requires CountedTo(ts, key, k - 1, t)
    ensures CountedTo(ts, key, k, t)
  {
    BucketCount(ts, key, k, t);
    SortDescUnfold(ts, key, k, t);
    CountStep(multiset(SortDesc(ts, key, k))[t], multiset(Bucket(ts, key, k))[t],
              multiset(SortDesc(ts, key, k - 1))[t], multiset(ts)[t], key(t), k);
  }

  /** The arithmetic of one bucket: whole == bucket + below, where the bucket
      holds every copy when the key is k and the rest every copy when it is below k. */
  lemma CountStep(whole: nat, bucket: nat, below: nat, all: nat, key: nat, k: nat)
    requires k > 0 && whole == bucket + below
    requires bucket == if key == k then all else 0
    requires below == if key <= k - 1 then all else 0
    ensures whole == if key <= k then all else 0
  {
  }

  lemma SortDescUnfold<T(!new)>(ts: seq<T>, key: T -> nat, k: nat, t: T)
    requires k > 0
    ensures multiset(SortDesc(ts, key, k))[t] ==
            multiset(Bucket(ts, key, k))[t] + multiset(SortDesc(ts, key, k - 1))[t]
  {
    ConcatCount(Bucket(ts, key, k), SortDesc(ts, key, k - 1), t);
  }

  lemma ConcatCount<T>(a: seq<T>, b: seq<T>, t: T)
    ensures multiset(a + b)[t] == multiset(a)[t] + multiset(b)[t]
  {
  }

  /** Permutation: with every key at most k, the sort loses and invents nothing. */
  lemma SortDescPermutes<T(!new)>(ts: seq<T>, key: T -> nat, k: nat)
    requires forall i | 0 <= i < |ts| :: key(ts[i]) <= k
    ensures multiset(SortDesc(ts, key, k)) == multiset(ts)
  {
    forall t ensures multiset(SortDesc(ts, key, k))[t] == multiset(ts)[t] {
      SortDescCount(ts, key, k, t);
      if multiset(ts)[t] > 0 { assert t in ts; }
    }
  }

  /** The index of the first entry satisfying p, or |ts| when there is none. */
  function FirstIndex<T(!new)>(ts: seq<T>, p: T -> bool): (r: nat)
    ensures r <= |ts|
    ensures forall j | 0 <= j < r :: !p(ts[j])
    ensures r < |ts| ==> p(ts[r])
  {
    if ts == [] then 0
    else if p(ts[0]) then 0
    else 1 + FirstIndex(ts[1..], p)
  }

  /** Array.prototype.find */
  function FindFirst<T(!new)>(ts: seq<T>, p: T -> bool): (r: Option<T>)
    ensures r.None? <==> forall j | 0 <= j < |ts| :: !p(ts[j])
    ensures r.Some? ==> exists i | 0 <= i < |ts| :: ts[i] == r.value && p(r.value) &&
                          forall j | 0 <= j < i :: !p(ts[j])
  {
    var i := FirstIndex(ts, p);
    if i < |ts| then Some(ts[i]) else None
  }
}

=== FILE: spawn_task.dfy ===
/** task.spawnCreep.js: the processor of a spawn-creep task held in
    Memory.tasks. It validates the task, prices the requested body, asks the
    spawn for the creep and records the outcome on the task. */
module SpawnTask {
  import opened Types
  import opened Spawner

  /** task.status: `Open` stands for any status the processor has not set. */
  datatype Status = Open | Done | Failed

  /** The message completeTask records; creep names are kept symbolic (the
      source builds them from the upper-cased role and the game tick). */
  datatype Reason =
    | InvalidData | InvalidExecuter | InsufficientEnergy(available: nat, cost: nat)
    | Spawned(name: Name) | InvalidArgs | AlternativeFailed | EnergyAtSpawnTime | SpawnError(code: Code)

  datatype Name = Primary(role: string, tick: nat) | Alternative(role: string, tick: nat)

  /** task.data: the role and the body as part names; either may be missing. */
  datatype SpawnData = SpawnData(role: Option<string>, body: Option<seq<string>>)

  datatype SpawnTaskRecord = SpawnTaskRecord(
    id: string, status: Status, data: Option<SpawnData>, repeatable: bool,
    completedAt: Option<nat>, result: Option<(bool, Reason)>)

  /** The executer: whether it has a spawnCreep method, whether it is busy
      spawning, the room's energyAvailable, and the codes its spawnCreep
      answers to the first and to the retried request. */
  datatype Executer = Executer(canSpawn: bool, spawning: bool, energyAvailable: nat, first: Code, retry: Code)

  /** The price calculateBodyCost charges for a part name; unknown names cost 50. */
  function NameCost(name: string): nat {
    if name == "MOVE" then 50
    else if name == "WORK" then 100
    else if name == "CARRY" then 50
    else if name == "ATTACK" then 80
    else if name == "RANGED_ATTACK" then 150
    else if name == "HEAL" then 250
    else if name == "TOUGH" then 10
    else if name == "CLAIM" then 600
    else 50
  }

  /** calculateBodyCost */
  function CalculateBodyCost(names: seq<string>): nat {
    if |names| == 0 then 0 else CalculateBodyCost(names[..|names| - 1]) + NameCost(names[|names| - 1])
  }

  /** The body conversion of run: a known name becomes its part, anything else MOVE. */
  function ConvertPart(name: string): (p: Part)
    ensures NameCost(name) == PartCost(p)
    ensures name !in {"MOVE", "WORK", "CARRY", "ATTACK", "RANGED_ATTACK", "HEAL", "TOUGH", "CLAIM"} ==> p == Move
  {
    if name == "WORK" then Work
    else if name == "CARRY" then Carry
    else if name == "ATTACK" then Attack
    else if name == "RANGED_ATTACK" then RangedAttack
    else if name == "HEAL" then Heal
    else if name == "TOUGH" then Tough
    else if name == "CLAIM" then Claim
    else Move
  }

  function ConvertBody(names: seq<string>): (r: seq<Part>)
    ensures |r| == |names| && forall i | 0 <= i < |names| :: r[i] == ConvertPart(names[i])
  {
    seq(|names|, i requires 0 <= i < |names| => ConvertPart(names[i]))
  }

  /** The price the processor checks is the price of the body it requests:
      unknown names cost what the MOVE they become costs. */
  lemma {:induction false} CostMatchesBody(names: seq<string>)
    ensures CalculateBodyCost(names) == BodyCost(ConvertBody(names))
    decreases |names|
  {
    if |names| > 0 {
      var init := names[..|names| - 1];
      assert ConvertBody(names)[..|names| - 1] == ConvertBody(init);
      CostMatchesBody(init);
    }
  }

  /** completeTask. The result says whether the task is deleted from
      Memory.tasks, which happens exactly when it is not repeatable. */
  function CompleteTask(t: SpawnTaskRecord, success: bool, why: Reason, now: nat): (r: (SpawnTaskRecord, bool))
    ensures r.0.status == (if success then Done else Failed)
    ensures r.0.completedAt == Some(now) && r.0.result == Some((success, why))
    ensures r.0.id == t.id && r.0.data == t.data && r.0.repeatable == t.repeatable
    ensures r.1 <==> !t.repeatable
  {
    (t.(status := if success then Done else Failed, completedAt := Some(now), result := Some((success, why))), !t.repeatable)
  }

  /** The outcome of one run: the task record, whether it was deleted, the
      bodies handed to spawnCreep, in order, and whether the run threw before
      touching anything. */
  datatype Outcome = Outcome(task: SpawnTaskRecord, deleted: bool, requests: seq<seq<Part>>, threw: bool)

  function Finished(t: SpawnTaskRecord, success: bool, why: Reason, now: nat, requests: seq<seq<Part>>): Outcome {
    var c := CompleteTask(t, success, why, now);
    Outcome(c.0, c.1, requests, false)
  }

  /** A JavaScript-truthy role: present and not the empty string. */
  predicate Truthy(s: Option<string>) { s.Some? && s.value != "" }

  /** The task data the processor accepts. */
  predicate ValidData(t: SpawnTaskRecord) {
    t.data.Some? && Truthy(t.data.value.role) && t.data.value.body.Some?
  }

  /** run. `executer` is None when there is none: the opening log line reads
      its name before any check, so the run throws and the task is left as it
      was. The later `!executer` test only catches an executer without
      spawnCreep. */
  function Run(t: SpawnTaskRecord, executer: Option<Executer>, now: nat): (r: Outcome)
    ensures r.threw <==> executer.None?
    ensures executer.None? ==> r == Outcome(t, false, [], true)
    ensures executer.Some? && !ValidData(t) ==> r == Finished(t, false, InvalidData, now, [])
    ensures executer.Some? && ValidData(t) && !executer.value.canSpawn ==> r == Finished(t, false, InvalidExecuter, now, [])
    ensures r.requests == [] <==>
              !ValidData(t) || executer.None? || !executer.value.canSpawn || executer.value.spawning ||
              executer.value.energyAvailable < CalculateBodyCost(t.data.value.body.value)
    ensures r.requests != [] ==>
              && r.requests[0] == ConvertBody(t.data.value.body.value)
              && BodyCost(r.requests[0]) <= executer.value.energyAvailable
              && (|r.requests| == 2 <==> executer.value.first == ErrNameExists)
              && |r.requests| <= 2
              && (executer.value.first == ErrBusy ==> r == Outcome(t, false, r.requests, false))
              && (executer.value.first != ErrBusy ==>
                    var success := executer.value.first == Ok || (executer.value.first == ErrNameExists && executer.value.retry == Ok);
                    && r.task.status == (if success then Done else Failed)
                    && r.task.completedAt == Some(now) && r.task.result.Some? && r.task.result.value.0 == success)
    ensures r.task.status in {t.status, Done, Failed}
    ensures r.task.status != t.status || r.task.completedAt != t.completedAt ==> r.deleted == !t.repeatable
    ensures r.task.status == Done && t.status != Done ==> r.requests != []
  {
    if executer.None? then Outcome(t, false, [], true)
    else if !ValidData(t) then Finished(t, false, InvalidData, now, [])
    else if !executer.value.canSpawn then Finished(t, false, InvalidExecuter, now, [])
    else
      var x := executer.value;
      var names := t.data.value.body.value;
      var role := t.data.value.role.value;
      if x.spawning then Outcome(t, false, [], false)
      else
        var cost := CalculateBodyCost(names);
        if x.energyAvailable < cost then Finished(t, false, InsufficientEnergy(x.energyAvailable, cost), now, [])
        else
          var body := ConvertBody(names);
          CostMatchesBody(names);
          match x.first
          case Ok => Finished(t, true, Spawned(Primary(role, now)), now, [body])
          case ErrBusy => Outcome(t, false, [body], false)
          case ErrInvalidArgs => Finished(t, false, InvalidArgs, now, [body])
          case ErrNameExists =>
            if x.retry == Ok then Finished(t, true, Spawned(Alternative(role, now)), now, [body, body])
            else Finished(t, false, AlternativeFailed, now, [body, body])
          case ErrNotEnough => Finished(t, false, EnergyAtSpawnTime, now, [body])
          case _ => Finished(t, false, SpawnError(x.first), now, [body])
  }

  /** A task the processor finishes never lingers half-done: it is done or
      failed, stamped with the tick, and removed unless repeatable; and no
      outcome puts it back to an open status. It stays open exactly when the
      run threw for want of an executer or the spawn was busy. */
  lemma FinishedTasksAreStamped(t: SpawnTaskRecord, executer: Option<Executer>, now: nat)
    requires t.status == Open
    ensures var r := Run(t, executer, now);
            r.task.status != Open ==>
              r.task.completedAt == Some(now) && r.task.result.Some? &&
              r.task.result.value.0 == (r.task.status == Done) && r.deleted == !t.repeatable
    ensures var r := Run(t, executer, now);
            r.task.status == Open <==>
              executer.None? ||
              (ValidData(t) && executer.value.canSpawn &&
               (executer.value.spawning ||
                (executer.value.energyAvailable >= CalculateBodyCost(t.data.value.body.value) && executer.value.first == ErrBusy)))
  {
  }
}

=== FILE: spawner.dfy ===
/** spawnerManager.js: which role to spawn next, the body for a role and what
    a body costs. */
module Spawner {
  import opened Types
  import opened TaskManager

  /** The body parts of the game. */
  datatype Part = Work | Carry | Move | Attack | RangedAttack | Heal | Tough | Claim

  /** The game's price of a part, as getCreepCost lists it. */
  function PartCost(p: Part): nat {
    match p
    case Work => 100
    case Carry => 50
    case Move => 50
    case Attack => 80
    case RangedAttack => 150
    case Heal => 250
    case Tough => 10
    case Claim => 600
  }

  /** getCreepCost: the sum of the part prices, folded from the left. */
  function BodyCost(body: seq<Part>): nat {
    if |body| == 0 then 0 else BodyCost(body[..|body| - 1]) + PartCost(body[|body| - 1])
  }

  /** Cost is additive over concatenation. */
  lemma {:induction false} CostAppend(a: seq<Part>, b: seq<Part>)
    ensures BodyCost(a + b) == BodyCost(a) + BodyCost(b)
    decreases |b|
  {
    if |b| > 0 {
      var b' := b[..|b| - 1];
      assert (a + b)[..|a + b| - 1] == a + b';
      CostAppend(a, b');
    } else {
      assert a + b == a;
    }
  }

  /** n copies of one part. */
  function Repeat(p: Part, n: nat): (r: seq<Part>)
    ensures |r| == n && forall i | 0 <= i < n :: r[i] == p
  {
    if n == 0 then [] else Repeat(p, n - 1) + [p]
  }

  /** n copies of a part cost n times its price (`price` is that price). */
  lemma {:induction false} CostRepeat(p: Part, n: nat, price: nat)
    requires price == PartCost(p)
    ensures BodyCost(Repeat(p, n)) == n * price
  {
    if n > 0 {
      var s := Repeat(p, n);
      assert s[..n - 1] == Repeat(p, n - 1);
      assert BodyCost(s) == BodyCost(Repeat(p, n - 1)) + price;
      CostRepeat(p, n - 1, price);
      MulPred(n, price);
    }
  }

  lemma MulPred(n: nat, c: nat)
    requires n > 0
    ensures n * c == (n - 1) * c + c
  {
  }

  /** `w` WORK, then `c` CARRY, then `m` MOVE parts. */
  function Parts(w: nat, c: nat, m: nat): (r: seq<Part>)
    ensures |r| == w + c + m
    ensures forall i | 0 <= i < |r| :: r[i] == (if i < w then Work else if i < w + c then Carry else Move)
    ensures BodyCost(r) == 100 * w + 50 * c + 50 * m
  {
    PartsLayout(w, c, m);
    PartsCost(w, c, m);
    Repeat(Work, w) + Repeat(Carry, c) + Repeat(Move, m)
  }

  lemma PartsLayout(w: nat, c: nat, m: nat)
    ensures var r := Repeat(Work, w) + Repeat(Carry, c) + Repeat(Move, m);
            |r| == w + c + m &&
            forall i | 0 <= i < |r| :: r[i] == (if i < w then Work else if i < w + c then Carry else Move)
  {
    var a := Repeat(Work, w);
    var b := Repeat(Carry, c);
    var d := Repeat(Move, m);
    var r := a + b + d;
    forall i | 0 <= i < |r| ensures r[i] == (if i < w then Work else if i < w + c then Carry else Move) {
      if i < w {
        assert r[i] == a[i];
      } else if i < w + c {
        assert r[i] == b[i - w];
      } else {
        assert r[i] == d[i - w - c];
      }
    }
  }

  lemma PartsCost(w: nat, c: nat, m: nat)
    ensures BodyCost(Repeat(Work, w) + Repeat(Carry, c) + Repeat(Move, m)) == 100 * w + 50 * c + 50 * m
  {
    var a := Repeat(Work, w);
    var b := Repeat(Carry, c);
    var d := Repeat(Move, m);
    CostRepeat(Work, w, 100);
    CostRepeat(Carry, c, 50);
    CostRepeat(Move, m, 50);
    CostAppend(a, b);
    CostAppend(a + b, d);
  }

  /** createMinerBody: as many WORK parts as the budget pays for, and no legs. */
  function MinerBody(e: nat): (r: seq<Part>)
    ensures |r| == e / 100 && forall i | 0 <= i < |r| :: r[i] == Work
    ensures Move !in r
    ensures BodyCost(r) <= e < BodyCost(r) + 100
  {
    Parts(e / 100, 0, 0)
  }

  /** createTaxiBody: one MOVE per CARRY, each as many as the budget pays CARRY alone. */
  function TaxiBody(e: nat): (r: seq<Part>)
    ensures var k := e / 50;
            |r| == 2 * k && (forall i | 0 <= i < k :: r[i] == Carry) && (forall i | k <= i < 2 * k :: r[i] == Move)
    ensures BodyCost(r) == 100 * (e / 50)
  {
    Parts(0, e / 50, e / 50)
  }

  /** The taxi body is priced as if MOVE were free: it costs more than the
      budget it was sized for as soon as it has a part. */
  lemma TaxiOverspends(e: nat)
    requires e >= 50
    ensures BodyCost(TaxiBody(e)) > e
  {
    var k := e / 50;
    assert e < 50 * k + 50;
  }

  /** createCourierBody: CARRY for the whole budget, then one MOVE per two CARRY. */
  function CourierBody(e: nat): (r: seq<Part>)
    ensures var k := e / 50;
            |r| == k + k / 2 && (forall i | 0 <= i < k :: r[i] == Carry) && (forall i | k <= i < |r| :: r[i] == Move)
    ensures BodyCost(r) == 50 * (e / 50) + 50 * (e / 50 / 2)
  {
    Parts(0, e / 50, e / 50 / 2)
  }

  /** createBuilderBody, createRepairerBody and createUniversalBody: a third
      of the budget each to WORK, CARRY and MOVE. */
  function BalancedBody(e: nat): (r: seq<Part>)
    ensures |r| == e / 300 + 2 * (e / 150)
    ensures forall i | 0 <= i < |r| ::
              r[i] == (if i < e / 300 then Work else if i < e / 300 + e / 150 then Carry else Move)
    ensures BodyCost(r) <= e
  {
    Parts(e / 300, e / 150, e / 150)
  }

  /** createUpgraderBody: half the budget to WORK and half to CARRY, then one
      MOVE per two of those. */
  function UpgraderBody(e: nat): (r: seq<Part>)
    ensures var w := e / 200; var c := e / 100;
            |r| == w + c + (w + c) / 2 &&
            forall i | 0 <= i < |r| :: r[i] == (if i < w then Work else if i < w + c then Carry else Move)
    ensures BodyCost(r) == 100 * (e / 200) + 50 * (e / 100) + 50 * ((e / 200 + e / 100) / 2)
  {
    Parts(e / 200, e / 100, (e / 200 + e / 100) / 2)
  }

  /** At the budget getCreepBody falls back to, 300: the miner, builder and
      universal bodies fit it, the courier, upgrader and taxi bodies do not. */
  lemma FallbackBudgetCosts()
    ensures BodyCost(MinerBody(300)) == 300
    ensures BalancedBody(300) == [Work, Carry, Carry, Move, Move] && BodyCost(BalancedBody(300)) == 300
    ensures BodyCost(CourierBody(300)) == 450
    ensures BodyCost(UpgraderBody(300)) == 350
    ensures BodyCost(TaxiBody(300)) == 600
  {
    var b := BalancedBody(300);
    assert |b| == 5;
  }

  /** getCreepBody. `spawn1` is Spawn1's energyCapacity when that spawn
      exists. `universalKey` is the value of taskManager.ROLE.UNIVERSAL
      (None: the constant is undefined, as in the source), which is the case
      label of the universal body. */
  function CreepBody(role: Option<Role>, universalKey: Option<Role>, spawn1: Option<nat>): (r: seq<Part>)
    ensures var e := if spawn1.Some? then spawn1.value else 300;
            && (role == Some(Miner) ==> r == MinerBody(e))
            && (role == Some(Taxi) ==> r == TaxiBody(e))
            && (role == Some(Courier) ==> r == CourierBody(e))
            && (role in {Some(Builder), Some(Repairer), Some(Upgrader)} ==>
                  r == if role == Some(Upgrader) then UpgraderBody(e) else BalancedBody(e))
            && (role !in {Some(Miner), Some(Taxi), Some(Courier), Some(Builder), Some(Repairer), Some(Upgrader)} ==>
                  r == if role == universalKey then BalancedBody(e) else [Work, Carry, Move])
  {
    var e := if spawn1.Some? then spawn1.value else 300;
    if role == Some(Miner) then MinerBody(e)
    else if role == Some(Taxi) then TaxiBody(e)
    else if role == Some(Courier) then CourierBody(e)
    else if role == Some(Builder) then BalancedBody(e)
    else if role == Some(Repairer) then BalancedBody(e)
    else if role == Some(Upgrader) then UpgraderBody(e)
    else if role == universalKey then BalancedBody(e)
    else [Work, Carry, Move]
  }

  /** How many creeps in the room carry the role (None: memory.role unset). */
  function Count(roles: seq<Option<Role>>, role: Option<Role>): nat {
    multiset(roles)[role]
  }

  /** The population caps of the specialised roles, in the order they are considered. */
  const Cascade: seq<Role> := [Miner, Courier, Builder, Repairer, Upgrader]

  function Cap(r: Role): nat {
    if r == Miner || r == Courier || r == Upgrader then 2 else 1
  }

  /** A specialised role is wanted: it is below its cap and has an available task. */
  predicate NeedsRole(st: Store, roles: seq<Option<Role>>, r: Role) {
    Count(roles, Some(r)) < Cap(r) && |AvailableTasksForRole(st, r)| > 0
  }

  predicate HasPending(st: Store) {
    exists t | t in st.tasks :: t.state == Pending
  }

  /** The universal branch fires: no creep of the universal role (as keyed),
      some PENDING task, and neither miners nor couriers. */
  predicate NeedsUniversal(st: Store, roles: seq<Option<Role>>, universalKey: Option<Role>) {
    Count(roles, universalKey) < 1 && HasPending(st) &&
    Count(roles, Some(Miner)) == 0 && Count(roles, Some(Courier)) == 0
  }

  /** Which roles of Cascade are wanted, position by position. */
  function Wanted(st: Store, roles: seq<Option<Role>>): (w: seq<bool>)
    ensures |w| == |Cascade| && forall i | 0 <= i < |Cascade| :: w[i] == NeedsRole(st, roles, Cascade[i])
  {
    seq(|Cascade|, i requires 0 <= i < |Cascade| => NeedsRole(st, roles, Cascade[i]))
  }

  /** The position of the first true entry of w[i..], or |w|. */
  function FirstTrue(w: seq<bool>, i: nat): (k: nat)
    requires i <= |w|
    ensures i <= k <= |w|
    ensures k < |w| ==> w[k]
    ensures forall j | i <= j < k :: !w[j]
    decreases |w| - i
  {
    if i == |w| || w[i] then i else FirstTrue(w, i + 1)
  }

  /** determineCreepType over the roles of the creeps in the spawn's room: the
      universal branch (which returns taskManager.ROLE.UNIVERSAL, i.e.
      `universalKey`), then the first wanted role of Cascade, else nothing. */
  function DetermineCreepType(st: Store, roles: seq<Option<Role>>, universalKey: Option<Role>): (r: Option<Role>)
    ensures NeedsUniversal(st, roles, universalKey) ==> r == universalKey
    ensures !NeedsUniversal(st, roles, universalKey) ==>
              && (r.Some? ==> exists i | 0 <= i < |Cascade| :: Cascade[i] == r.value && NeedsRole(st, roles, Cascade[i]) &&
                                 forall j | 0 <= j < i :: !NeedsRole(st, roles, Cascade[j]))
              && (r.None? <==> forall i | 0 <= i < |Cascade| :: !NeedsRole(st, roles, Cascade[i]))
  {
    if NeedsUniversal(st, roles, universalKey) then universalKey
    else
      var w := Wanted(st, roles);
      var k := FirstTrue(w, 0);
      if k < |Cascade| then Some(Cascade[k]) else None
  }

  /** What one spawn does in manageSpawners/spawnCreep: nothing while it is
      spawning or when no role is wanted, else a request for the role's body. */
  function SpawnRequest(st: Store, roles: seq<Option<Role>>, universalKey: Option<Role>, spawn1: Option<nat>, spawning: bool)
    : (r: Option<(Role, seq<Part>)>)
    ensures r.Some? <==> !spawning && DetermineCreepType(st, roles, universalKey).Some?
    ensures r.Some? ==> r.value.0 == DetermineCreepType(st, roles, universalKey).value &&
                        r.value.1 == CreepBody(Some(r.value.0), universalKey, spawn1)
  {
    if spawning then None
    else
      match DetermineCreepType(st, roles, universalKey)
      case None => None
      case Some(role) => Some((role, CreepBody(Some(role), universalKey, spawn1)))
  }

  /** As written, taskManager.ROLE has no UNIVERSAL entry: the universal branch
      returns undefined, so a room with work to do, no miner, no courier and no
      role-less creep spawns nothing, even when a miner task is available. With
      the constant defined as 'universal' the same room spawns a universal
      creep with the balanced body. */
  lemma StrandedRoom(st: Store, roles: seq<Option<Role>>, spawn1: Option<nat>)
    requires Count(roles, None) == 0 && Count(roles, Some(Universal)) == 0
    requires Count(roles, Some(Miner)) == 0 && Count(roles, Some(Courier)) == 0
    requires HasPending(st)
    ensures SpawnRequest(st, roles, None, spawn1, false).None?
    ensures var e := if spawn1.Some? then spawn1.value else 300;
            SpawnRequest(st, roles, Some(Universal), spawn1, false) == Some((Universal, BalancedBody(e)))
  {
  }

  /** With ROLE.UNIVERSAL defined, a room with a pending task never ends up
      without a spawn request while it has no creeps at all. */
  lemma EmptyRoomAlwaysSpawns(st: Store, spawn1: Option<nat>)
    requires HasPending(st)
    ensures SpawnRequest(st, [], Some(Universal), spawn1, false).Some?
  {
  }
}

=== FILE: task_manager.dfy ===
/** The global task table of taskManager.js: creation, role queries, the
    priority sort, assignment, release, completion, progress and cleanup.

    The table is a sequence in insertion order (the order Object.values
    reports for the string keys of Game.tasks); ids come from a counter, so
    they increase along the sequence. */
module TaskManager {
  import opened Types
  import opened Sorting

  datatype Task = Task(
    id: TaskId,
    ttype: TaskType,
    target: EntityId,
    room: Option<RoomName>,
    priority: Priority,
    roles: seq<Role>,
    state: TaskState,
    progress: int,
    maxProgress: int,
    infinite: bool,
    createdAt: int,
    assignees: seq<CreepName>,
    groupSize: int)

  datatype Store = Store(tasks: seq<Task>, nextId: TaskId)

  /** Result of a mutator that reports success with a boolean. */
  datatype Update = Update(store: Store, ok: bool)

  datatype Created = Created(store: Store, id: TaskId)

  // ---------------------------------------------------------------------------
  // Representation and the lifecycle invariant

  predicate IdsIncreasing(ts: seq<Task>) {
    forall i, j | 0 <= i < j < |ts| :: ts[i].id < ts[j].id
  }

  /** Ids are unique (as object keys are) and every id is below the counter. */
  predicate Valid(st: Store) {
    && IdsIncreasing(st.tasks)
    && forall i | 0 <= i < |st.tasks| :: st.tasks[i].id < st.nextId
  }

  /** PENDING means nobody is assigned, IN_PROGRESS means somebody is, and
      progress never exceeds its limit. */
  predicate Consistent(t: Task) {
    && (t.state == Pending ==> |t.assignees| == 0)
    && (t.state == InProgress ==> |t.assignees| > 0)
    && t.progress <= t.maxProgress
    && 0 <= t.maxProgress
  }

  predicate Inv(st: Store) {
    forall i | 0 <= i < |st.tasks| :: Consistent(st.tasks[i])
  }

  // ---------------------------------------------------------------------------
  // Lookup and in-place replacement

  function Find(ts: seq<Task>, id: TaskId): (r: Option<Task>)
    ensures r.Some? ==> r.value in ts && r.value.id == id
    ensures r.None? <==> forall i | 0 <= i < |ts| :: ts[i].id != id
  {
    if ts == [] then None
    else if ts[0].id == id then Some(ts[0])
    else Find(ts[1..], id)
  }

  /** Game.tasks[id] */
  function Get(st: Store, id: TaskId): Option<Task> {
    Find(st.tasks, id)
  }

  /** Replaces the entry whose id is t.id by t, leaving every position in place. */
  function Put(ts: seq<Task>, t: Task): (r: seq<Task>)
    ensures |r| == |ts|
    ensures forall i | 0 <= i < |ts| :: r[i] == if ts[i].id == t.id then t else ts[i]
  {
    if ts == [] then []
    else [if ts[0].id == t.id then t else ts[0]] + Put(ts[1..], t)
  }

  lemma {:induction false} FindPut(ts: seq<Task>, t: Task, id: TaskId)
    ensures Find(Put(ts, t), id) ==
            if id == t.id && Find(ts, id).Some? then Some(t) else Find(ts, id)
    decreases |ts|
  {
    if ts != [] {
      assert Put(ts, t)[1..] == Put(ts[1..], t);
      FindPut(ts[1..], t, id);
    }
  }

  /** Writes a modified task back into the table. */
  function Set(st: Store, t: Task): (r: Store)
    ensures Valid(st) ==> Valid(r)
    ensures Inv(st) && Consistent(t) ==> Inv(r)
    ensures r.nextId == st.nextId && |r.tasks| == |st.tasks|
    ensures forall id :: Get(r, id) ==
              if id == t.id && Get(st, id).Some? then Some(t) else Get(st, id)
  {
    forall id ensures Find(Put(st.tasks, t), id) ==
        if id == t.id && Find(st.tasks, id).Some? then Some(t) else Find(st.tasks, id)
    {
      FindPut(st.tasks, t, id);
    }
    st.(tasks := Put(st.tasks, t))
  }

  lemma FindInStore(st: Store, i: nat)
    requires Valid(st) && i < |st.tasks|
    ensures Get(st, st.tasks[i].id) == Some(st.tasks[i])
  {
    var id := st.tasks[i].id;
    var r := Get(st, id);
    var j :| 0 <= j < |st.tasks| && st.tasks[j] == r.value;
    assert i == j;
  }

  /** In a valid table, a listed task is what its id looks up. */
  lemma GetMember(st: Store, t: Task)
    requires t in st.tasks
    ensures Valid(st) ==> Get(st, t.id) == Some(t)
  {
    if Valid(st) {
      var i :| 0 <= i < |st.tasks| && st.tasks[i] == t;
      FindInStore(st, i);
    }
  }

  lemma InvGet(st: Store, id: TaskId)
    requires Get(st, id).Some?
    ensures Inv(st) ==> Consistent(Get(st, id).value)
  {
    var t := Get(st, id).value;
    var j :| 0 <= j < |st.tasks| && st.tasks[j] == t;
  }

  // ---------------------------------------------------------------------------
  // Creation

  function MaxProgressFor(ty: TaskType): int {
    match ty
    case MineSource => 1000
    case Build => 1000
    case Repair => 1000
    case Upgrade => 1000
    case _ => 100
  }

  /** createTask: a fresh PENDING task with no progress and nobody assigned. */
  function CreateTask(st: Store, ty: TaskType, target: EntityId, room: Option<RoomName>, now: int,
                      priority: Priority := Medium, roles: seq<Role> := [],
                      infinite: bool := false, groupSize: int := 1): (r: Created)
    ensures (Valid(st) ==> Valid(r.store)) && (Inv(st) ==> Inv(r.store))
    ensures r.id == st.nextId && r.store.nextId == st.nextId + 1
    ensures Valid(st) ==> Get(st, r.id).None?
    ensures Valid(st) ==> Get(r.store, r.id) == Some(Task(r.id, ty, target, room, priority, roles, Pending,
                                           0, MaxProgressFor(ty), infinite, now, [], groupSize))
    ensures Valid(st) ==> forall id | id != r.id :: Get(r.store, id) == Get(st, id)
    ensures r.store.tasks == st.tasks + [Task(r.id, ty, target, room, priority, roles, Pending,
                                              0, MaxProgressFor(ty), infinite, now, [], groupSize)]
  {
    var t := Task(st.nextId, ty, target, room, priority, roles, Pending,
                  0, MaxProgressFor(ty), infinite, now, [], groupSize);
    Append(st, t);
    Created(Store(st.tasks + [t], st.nextId + 1), t.id)
  }

  /** Adding an entry under the next id keeps the table valid and changes no other entry. */
  lemma Append(st: Store, t: Task)
    requires t.id == st.nextId
    ensures var st' := Store(st.tasks + [t], st.nextId + 1);
            && (Inv(st) && Consistent(t) ==> Inv(st'))
            && (Valid(st) ==>
                  && Valid(st')
                  && Get(st, t.id).None?
                  && Get(st', t.id) == Some(t)
                  && forall id | id != t.id :: Get(st', id) == Get(st, id))
  {
    var st' := Store(st.tasks + [t], st.nextId + 1);
    assert forall i | 0 <= i < |st'.tasks| - 1 :: st'.tasks[i] == st.tasks[i];
    if Valid(st) {
      forall id ensures Get(st', id) == if Get(st, id).Some? then Get(st, id)
                                        else if id == t.id then Some(t) else None {
        FindAppend(st.tasks, t, id);
      }
    }
  }

  lemma {:induction false} FindAppend(ts: seq<Task>, t: Task, id: TaskId)
    ensures Find(ts + [t], id) == if Find(ts, id).Some? then Find(ts, id)
                                  else if id == t.id then Some(t) else None
    decreases |ts|
  {
    if ts != [] {
      assert (ts + [t])[1..] == ts[1..] + [t];
      FindAppend(ts[1..], t, id);
    }
  }

  // ---------------------------------------------------------------------------
  // Queries

  function PriorityRank(t: Task): nat {
    match t.priority
    case High => 3
    case Medium => 2
    case Low => 1
  }

  /** The order of a priority-sorted list drawn from the table: higher
      priority first, and equal priorities in table order, which in a valid
      table is the order of the ids. */
  predicate Precedes(a: Task, b: Task) {
    PriorityRank(a) > PriorityRank(b) || (PriorityRank(a) == PriorityRank(b) && a.id < b.id)
  }

  /** sortTasksByPriority: HIGH before MEDIUM before LOW, equal priorities in input order. */
  function SortTasksByPriority(ts: seq<Task>): (r: seq<Task>)
    ensures multiset(r) == multiset(ts)
    ensures forall i, j | 0 <= i < j < |r| :: PriorityRank(r[i]) >= PriorityRank(r[j])
    ensures forall k: nat | k <= 3 :: Bucket(r, PriorityRank, k) == Bucket(ts, PriorityRank, k)
    ensures IdsIncreasing(ts) ==> forall i, j | 0 <= i < j < |r| :: Precedes(r[i], r[j])
  {
    SortDescPermutes(ts, PriorityRank, 3);
    forall k: nat | k <= 3 ensures Bucket(SortDesc(ts, PriorityRank, 3), PriorityRank, k) == Bucket(ts, PriorityRank, k) {
      SortDescStable(ts, PriorityRank, 3, k);
    }
    SortTiesById(ts);
    SortDesc(ts, PriorityRank, 3)
  }

  /** The stable sort keeps tasks of equal priority in id order. */
  lemma SortTiesById(ts: seq<Task>)
    ensures var r := SortDesc(ts, PriorityRank, 3);
            IdsIncreasing(ts) ==> forall i, j | 0 <= i < j < |r| :: Precedes(r[i], r[j])
  {
    if !IdsIncreasing(ts) { return; }
    var rel := (a: Task, b: Task) => a.id < b.id;
    assert forall i, j | 0 <= i < j < |ts| :: rel(ts[i], ts[j]);
    SortDescTies(ts, PriorityRank, 3, rel);
    var r := SortDesc(ts, PriorityRank, 3);
    forall i, j | 0 <= i < j < |r| ensures Precedes(r[i], r[j]) {
      if PriorityRank(r[i]) == PriorityRank(r[j]) { assert rel(r[i], r[j]); }
    }
  }

  /** A filter of the table keeps its ids increasing. */
  lemma FilterIdsIncreasing(ts: seq<Task>, p: Task -> bool)
    ensures IdsIncreasing(ts) ==> IdsIncreasing(Filter(ts, p))
  {
    if IdsIncreasing(ts) {
      FilterPairwise(ts, p, (a: Task, b: Task) => a.id < b.id);
    }
  }

  /** A filter of a list in Precedes order stays in that order. */
  lemma FilterPrecedes(ts: seq<Task>, p: Task -> bool)
    ensures (forall i, j | 0 <= i < j < |ts| :: Precedes(ts[i], ts[j])) ==>
            forall i, j | 0 <= i < j < |Filter(ts, p)| :: Precedes(Filter(ts, p)[i], Filter(ts, p)[j])
  {
    if forall i, j | 0 <= i < j < |ts| :: Precedes(ts[i], ts[j]) {
      FilterPairwise(ts, p, Precedes);
    }
  }

  /** getTasksForRole: the PENDING tasks that list the role, in table order. */
  function TasksForRole(st: Store, role: Role): (r: seq<Task>)
    ensures forall t :: t in r <==> t in st.tasks && t.state == Pending && role in t.roles
  {
    Filter(st.tasks, (t: Task) => t.state == Pending && role in t.roles)
  }

  /** A PENDING task whose group still has room. */
  predicate HasSlot(t: Task) { t.state == Pending && |t.assignees| < t.groupSize }

  /** getAvailableTasksForRole: PENDING tasks of the role with a free slot, by priority. */
  function AvailableTasksForRole(st: Store, role: Role): (r: seq<Task>)
    ensures forall t :: t in r <==>
              t in st.tasks && t.state == Pending && role in t.roles && |t.assignees| < t.groupSize
    ensures forall i, j | 0 <= i < j < |r| :: PriorityRank(r[i]) >= PriorityRank(r[j])
    ensures Valid(st) ==> forall i, j | 0 <= i < j < |r| :: Precedes(r[i], r[j])
  {
    FilterIdsIncreasing(st.tasks, (t: Task) => t.state == Pending && role in t.roles);
    var sorted := SortTasksByPriority(TasksForRole(st, role));
    assert forall t :: t in sorted <==> t in TasksForRole(st, role) by {
      forall t ensures t in sorted <==> t in TasksForRole(st, role) {
        assert t in sorted <==> multiset(sorted)[t] > 0;
      }
    }
    FilterPairwise(sorted, HasSlot, (a: Task, b: Task) => PriorityRank(a) >= PriorityRank(b));
    FilterPrecedes(sorted, HasSlot);
    Filter(sorted, HasSlot)
  }

  // ---------------------------------------------------------------------------
  // Mutators

  /** assignTaskToCreep: only a PENDING task can be taken; it becomes IN_PROGRESS. */
  function AssignTaskToCreep(st: Store, id: TaskId, name: CreepName): (r: Update)
    ensures r.ok <==> Get(st, id).Some? && Get(st, id).value.state == Pending
    ensures !r.ok ==> r.store == st
    ensures r.ok ==> (Get(r.store, id) ==
              Some(Get(st, id).value.(state := InProgress, assignees := Get(st, id).value.assignees + [name])))
    ensures forall other | other != id :: Get(r.store, other) == Get(st, other)
    ensures Valid(st) ==> Valid(r.store)
    ensures Inv(st) ==> Inv(r.store)
  {
    match Get(st, id)
    case Some(t) =>
      if t.state == Pending then
        Update(Set(st, t.(state := InProgress, assignees := t.assignees + [name])), true)
      else Update(st, false)
    case None => Update(st, false)
  }

  /** Removes every occurrence of a creep name; an absent name (the
      one-argument calls of creepManager.js) removes nothing. */
  function RemoveName(names: seq<CreepName>, name: Option<CreepName>): (r: seq<CreepName>)
    ensures forall n :: n in r <==> n in names && name != Some(n)
    ensures name.None? ==> r == names
    ensures |r| <= |names|
  {
    if names == [] then []
    else (if name == Some(names[0]) then [] else [names[0]]) + RemoveName(names[1..], name)
  }

  /** The assignee list after a release, and the state that goes with it. */
  function Released(t: Task, name: Option<CreepName>): (r: Task)
    ensures r.assignees == RemoveName(t.assignees, name)
    ensures r.state == if |r.assignees| == 0 then Pending else t.state
    ensures r == t.(assignees := r.assignees, state := r.state)
    ensures Consistent(t) ==> Consistent(r)
  {
    var rest := RemoveName(t.assignees, name);
    t.(assignees := rest, state := if |rest| == 0 then Pending else t.state)
  }

  /** releaseTask: acts on IN_PROGRESS tasks only; back to PENDING once nobody is left. */
  function ReleaseTask(st: Store, id: TaskId, name: Option<CreepName>): (r: Update)
    ensures r.ok <==> Get(st, id).Some? && Get(st, id).value.state == InProgress
    ensures !r.ok ==> r.store == st
    ensures r.ok ==> Get(r.store, id) == Some(Released(Get(st, id).value, name))
    ensures forall other | other != id :: Get(r.store, other) == Get(st, other)
    ensures Valid(st) ==> Valid(r.store)
    ensures Inv(st) ==> Inv(r.store)
  {
    match Get(st, id)
    case Some(t) =>
      if t.state == InProgress then
        InvGet(st, id);
        Update(Set(st, Released(t, name)), true)
      else Update(st, false)
    case None => Update(st, false)
  }

  /** Releasing the creep that just took a PENDING task gives back the original table. */
  lemma AssignThenRelease(st: Store, id: TaskId, name: CreepName)
    requires Valid(st) && Inv(st)
    requires Get(st, id).Some? && Get(st, id).value.state == Pending
    ensures var a := AssignTaskToCreep(st, id, name);
            a.ok && ReleaseTask(a.store, id, Some(name)) == Update(st, true)
  {
    var t := Get(st, id).value;
    InvGet(st, id);
    var t1 := t.(state := InProgress, assignees := t.assignees + [name]);
    assert t.assignees + [name] == [name];
    assert RemoveName([name], Some(name)) == [];
    assert Released(t1, Some(name)) == t;
    PutRestore(st.tasks, t, t1);
  }

  lemma PutRestore(ts: seq<Task>, t: Task, t1: Task)
    requires IdsIncreasing(ts) && t in ts && t1.id == t.id
    ensures Put(Put(ts, t1), t) == ts
  {
    var i :| 0 <= i < |ts| && ts[i] == t;
    var p := Put(ts, t1);
    var r := Put(p, t);
    forall j | 0 <= j < |ts| ensures r[j] == ts[j] {
      if ts[j].id == t.id {
        SameIdSameIndex(ts, i, j);
        assert p[j] == t1;
        assert r[j] == t;
      } else {
        assert p[j] == ts[j];
      }
    }
    assert |r| == |ts|;
    assert r == ts;
  }

  /** With increasing ids, an id names one position only. */
  lemma SameIdSameIndex(ts: seq<Task>, i: nat, j: nat)
    requires IdsIncreasing(ts) && i < |ts| && j < |ts| && ts[i].id == ts[j].id
    ensures i == j
  {
  }

  /** The effect of completing one task: infinite tasks restart, others retire. */
  function Finished(t: Task): (r: Task)
    ensures t.infinite ==> r == t.(state := Pending, progress := 0, assignees := [])
    ensures !t.infinite ==> r == t.(state := Completed)
  {
    if t.infinite then t.(state := Pending, progress := 0, assignees := [])
    else t.(state := Completed)
  }

  /** completeTask */
  function CompleteTask(st: Store, id: TaskId): (r: Update)
    ensures r.ok <==> Get(st, id).Some?
    ensures !r.ok ==> r.store == st
    ensures r.ok ==> Get(r.store, id) == Some(Finished(Get(st, id).value))
    ensures forall other | other != id :: Get(r.store, other) == Get(st, other)
    ensures Valid(st) ==> Valid(r.store)
    ensures Inv(st) ==> Inv(r.store)
  {
    match Get(st, id)
    case Some(t) =>
      InvGet(st, id);
      Update(Set(st, Finished(t)), true)
    case None => Update(st, false)
  }

  function Min(a: int, b: int): int { if a < b then a else b }

  /** updateTaskProgress: only IN_PROGRESS tasks move, clamped to maxProgress. */
  function UpdateTaskProgress(st: Store, id: TaskId, value: int): (r: Update)
    ensures r.ok <==> Get(st, id).Some? && Get(st, id).value.state == InProgress
    ensures !r.ok ==> r.store == st
    ensures r.ok ==> var t := Get(st, id).value;
                     exists p: int | p <= t.maxProgress ::
                       && Get(r.store, id) == Some(t.(progress := p))
                       && (value <= t.maxProgress ==> p == value)
                       && (value >= t.maxProgress ==> p == t.maxProgress)
    ensures forall other | other != id :: Get(r.store, other) == Get(st, other)
    ensures Valid(st) ==> Valid(r.store)
    ensures Inv(st) ==> Inv(r.store)
  {
    match Get(st, id)
    case Some(t) =>
      if t.state == InProgress then
        InvGet(st, id);
        Update(Set(st, t.(progress := Min(value, t.maxProgress))), true)
      else Update(st, false)
    case None => Update(st, false)
  }

  /** A task cleanup removes: finished for good. */
  predicate Retired(t: Task) { t.state == Completed && !t.infinite }

  predicate Kept(t: Task) { !Retired(t) }

  /** cleanupCompletedTasks: deletes exactly the COMPLETED, non-infinite tasks. */
  function CleanupCompletedTasks(st: Store): (r: Store)
    requires Valid(st)
    ensures Valid(r) && r.nextId == st.nextId
    ensures forall id :: Get(r, id) ==
              if Get(st, id).Some? && Retired(Get(st, id).value) then None else Get(st, id)
    ensures Inv(st) ==> Inv(r)
  {
    var ts := Filter(st.tasks, Kept);
    assert forall i | 0 <= i < |ts| :: ts[i] in st.tasks;
    FilterPairwise(st.tasks, Kept, (a: Task, b: Task) => a.id < b.id);
    forall id ensures Find(ts, id) ==
        if Find(st.tasks, id).Some? && Retired(Find(st.tasks, id).value) then None else Find(st.tasks, id) {
      FindFilter(st.tasks, Kept, id);
    }
    Store(ts, st.nextId)
  }

  /** Filtering a table with unique ids drops exactly the rejected entries from lookup. */
  lemma {:induction false} FindFilter(ts: seq<Task>, p: Task -> bool, id: TaskId)
    requires IdsIncreasing(ts)
    ensures Find(Filter(ts, p), id) ==
            if Find(ts, id).Some? && !p(Find(ts, id).value) then None else Find(ts, id)
    decreases |ts|
  {
    if ts != [] {
      FindFilter(ts[1..], p, id);
      if ts[0].id == id {
        assert Find(ts[1..], id).None?;
      }
    }
  }

  /** A task restricted to no room (an absent or empty room name is falsy) or to this one. */
  predicate RoomOpen(t: Task, room: RoomName) {
    t.room.None? || t.room.value == "" || t.room.value == room
  }

  /** canCreepPerformTask: an idle creep of a listed role, in the task's room
      (or any room for a room-less task), with a free slot in the group. */
  function CanCreepPerformTask(busy: bool, role: Option<Role>, creepRoom: RoomName, t: Task): (r: bool)
    ensures r <==> !busy && role.Some? && role.value in t.roles && RoomOpen(t, creepRoom)
                   && |t.assignees| < t.groupSize
  {
    if busy then false
    else if role.None? || role.value !in t.roles then false
    else if t.room.Some? && t.room.value != "" && t.room.value != creepRoom then false
    else if |t.assignees| >= t.groupSize then false
    else true
  }

  /** A creep that passes canCreepPerformTask and takes the task keeps the
      group within its size. */
  lemma CanPerformKeepsGroupSize(st: Store, t: Task, name: CreepName, role: Option<Role>, room: RoomName)
    requires Inv(st) && t in st.tasks && Valid(st)
    requires CanCreepPerformTask(false, role, room, t)
    ensures var r := AssignTaskToCreep(st, t.id, name);
            r.ok ==> |Get(r.store, t.id).value.assignees| <= t.groupSize
  {
    var i :| 0 <= i < |st.tasks| && st.tasks[i] == t;
    FindInStore(st, i);
  }
}

=== FILE: taxi.dfy ===
/** The taxi role: carries a miner (which has no MOVE parts) to its source.
    roles/taxi.js and creep.prototype.taxi.js agree except for where they
    look for the miner to carry (see SearchCentre). */
module Taxi {
  import opened Types
  import opened TaskManager
  import opened Creeps
  import opened CreepPrototype
  import opened Roles

  /** Which of the two copies of the role. */
  datatype Twin = RoleFile | PrototypeFile

  /** findMinerForDelivery(taxi, source) searches within range 1 of its first
      argument. The role file passes the taxi; the prototype calls it as
      `this.findMinerForDelivery(source)`, so the source lands in the taxi
      parameter and the search is centred on the source. */
  function SearchCentre(tw: Twin, o: Obs): Pos {
    match tw
    case RoleFile => o.pos
    case PrototypeFile => o.targetPos
  }

  /** findMinerForDelivery: the first miner near the centre with no source and no task. */
  function FindMinerForDelivery(o: Obs, centre: Pos): (r: Option<CreepView>)
    ensures r.Some? ==> r.value in o.creeps && WaitingMiner(r.value) && Range(r.value.pos, centre) <= 1
    ensures r.None? <==> forall i | 0 <= i < |o.creeps| :: !(WaitingMiner(o.creeps[i]) && Range(o.creeps[i].pos, centre) <= 1)
  {
    FirstNear(o.creeps, centre, WaitingMiner)
  }

  /** The taxi has a live DELIVER target and a miner to carry. */
  predicate Carrying(st: Store, c: Creep, o: Obs, tw: Twin) {
    && GetTask(st, c).Some?
    && Present(o, GetTask(st, c).value.target)
    && FindMinerForDelivery(o, SearchCentre(tw, o)).Some?
  }

  /** performDelivery: with a miner in tow, walk to the source and complete the
      task on arrival; without task, source or miner, give the task up. */
  function PerformDelivery(st: Store, c: Creep, o: Obs, tw: Twin): (r: Step)
    ensures Carrying(st, c, o, tw) && o.pos != o.targetPos ==>
              r == Step(st, c, [MoveTo(GetTask(st, c).value.target)])
    ensures Carrying(st, c, o, tw) && o.pos == o.targetPos ==>
              var t := GetTask(st, c).value;
              r.actions == [] && r.creep == c.(task := Cleared) && Get(r.store, t.id) == Some(Finished(t))
    ensures !Carrying(st, c, o, tw) ==>
              r == Step(CreepPrototype.ReleaseTask(st, c).store, CreepPrototype.ReleaseTask(st, c).creep, [])
    ensures HasTask(c) ==> (r.creep.task == Cleared <==> !(Carrying(st, c, o, tw) && o.pos != o.targetPos))
    ensures forall i | 0 <= i < |r.actions| :: IsMove(r.actions[i])
    ensures Valid(st) ==> Valid(r.store)
    ensures Inv(st) ==> Inv(r.store)
  {
    if !Carrying(st, c, o, tw) then
      var b := CreepPrototype.ReleaseTask(st, c);
      Step(b.store, b.creep, [])
    else if o.pos == o.targetPos then
      var b := CreepPrototype.CompleteTask(st, c);
      Step(b.store, b.creep, [])
    else Step(st, c, [MoveTo(GetTask(st, c).value.target)])
  }

  /** run: a bound taxi delivers; an idle one takes the first DELIVER_MINER
      task and delivers at once, or else falls back to findAndAssignTask. */
  function Run(st: Store, c: Creep, o: Obs, tw: Twin): (r: Step)
    ensures HasTask(c) ==> r == PerformDelivery(st, c, o, tw)
    ensures !HasTask(c) && FirstOfType(st, c, {DeliverMiner}).None? ==> r == FindAndAssignTask(st, c, o)
    ensures Valid(st) && !HasTask(c) && FirstOfType(st, c, {DeliverMiner}).Some? ==>
              r == PerformDelivery(AssignFirstOfType(st, c, {DeliverMiner}).store,
                                   c.(task := Bound(FirstOfType(st, c, {DeliverMiner}).value.id)), o, tw)
    ensures r.creep.name == c.name && r.creep.role == c.role
    ensures Valid(st) ==> Valid(r.store)
    ensures Inv(st) ==> Inv(r.store)
  {
    var a := if !HasTask(c) then AssignFirstOfType(st, c, {DeliverMiner}) else Bind(st, c, false);
    if HasTask(a.creep) then PerformDelivery(a.store, a.creep, o, tw)
    else FindAndAssignTask(a.store, a.creep, o)
  }

  /** The two copies behave alike once the taxi stands on the source. */
  lemma TwinsAgreeOnSource(st: Store, c: Creep, o: Obs)
    requires o.pos == o.targetPos
    ensures PerformDelivery(st, c, o, RoleFile) == PerformDelivery(st, c, o, PrototypeFile)
  {
  }

  /** With the search centred on the taxi, a waiting miner next to the taxi
      keeps the delivery going: away from the source the taxi walks on. */
  lemma DeliveryFindsAdjacentMiner(st: Store, c: Creep, o: Obs, i: nat)
    requires GetTask(st, c).Some? && Present(o, GetTask(st, c).value.target)
    requires i < |o.creeps| && WaitingMiner(o.creeps[i]) && Range(o.creeps[i].pos, o.pos) <= 1
    requires o.pos != o.targetPos
    ensures PerformDelivery(st, c, o, RoleFile) == Step(st, c, [MoveTo(GetTask(st, c).value.target)])
  {
    assert FindMinerForDelivery(o, o.pos).Some?;
  }

  /** The prototype copy drops a delivery although a waiting miner stands next
      to the taxi, because it looks around the source instead. */
  lemma PrototypeMissesAdjacentMiner()
    ensures var t := Task(0, DeliverMiner, "src", None, Medium, [Taxi], InProgress, 0, 100, false, 0, ["taxi"], 1);
            var st := Store([t], 1);
            var c := Creep("taxi", "W1N1", Some(Taxi), Bound(0), None, None);
            var miner := CreepView("miner", Pos(10, 11), Some(Miner), None, Unset);
            var o := Obs({"src"}, Pos(10, 10), Pos(30, 30), 0, 50, Ok, Ok, Ok, Ok, Ok,
                         None, None, None, None, None, false, false, 0, [miner], false);
            && PerformDelivery(st, c, o, RoleFile).actions == [MoveTo("src")]
            && PerformDelivery(st, c, o, RoleFile).creep.task == Bound(0)
            && PerformDelivery(st, c, o, PrototypeFile).actions == []
            && PerformDelivery(st, c, o, PrototypeFile).creep.task == Cleared
  {
    var t := Task(0, DeliverMiner, "src", None, Medium, [Taxi], InProgress, 0, 100, false, 0, ["taxi"], 1);
    var st := Store([t], 1);
    var miner := CreepView("miner", Pos(10, 11), Some(Miner), None, Unset);
    var o := Obs({"src"}, Pos(10, 10), Pos(30, 30), 0, 50, Ok, Ok, Ok, Ok, Ok,
                 None, None, None, None, None, false, false, 0, [miner], false);
    assert Get(st, 0) == Some(t);
    assert Range(miner.pos, Pos(10, 10)) == 1;
    assert Range(miner.pos, Pos(30, 30)) == 20;
    assert FindMinerForDelivery(o, Pos(30, 30)).None?;
  }

  /** The taxi as seen by deliverMinerToSource: where it is and what it carries. */
  datatype Carrier = Carrier(pos: Pos, capacity: nat, energy: nat)

  /** A game object with an id and a position. */
  datatype Thing = Thing(id: EntityId, pos: Pos)

  /** deliverMinerToSource: true once an empty taxi stands on the miner's tile;
      an empty taxi elsewhere walks to the miner. */
  function DeliverMinerToSource(taxi: Option<Carrier>, miner: Option<Thing>, source: Option<Thing>): (r: (bool, seq<Action>))
    ensures r.0 <==> taxi.Some? && miner.Some? && source.Some? && taxi.value.capacity > 0 &&
                     taxi.value.energy == 0 && taxi.value.pos == miner.value.pos
    ensures r.0 ==> r.1 == []
    ensures r.1 != [] <==> taxi.Some? && miner.Some? && source.Some? && taxi.value.capacity > 0 &&
                           taxi.value.energy == 0 && taxi.value.pos != miner.value.pos
    ensures r.1 != [] ==> r.1 == [MoveTo(miner.value.id)]
  {
    if taxi.None? || miner.None? || source.None? then (false, [])
    else if taxi.value.capacity > 0 && taxi.value.energy == 0 then
      if taxi.value.pos == miner.value.pos then (true, [])
      else (false, [MoveTo(miner.value.id)])
    else (false, [])
  }

  /** unloadMinerAtSource: true on the source tile, otherwise walk there. */
  function UnloadMinerAtSource(taxi: Option<Pos>, source: Option<Thing>): (r: (bool, seq<Action>))
    ensures r.0 <==> taxi.Some? && source.Some? && taxi.value == source.value.pos
    ensures r.0 || taxi.None? || source.None? ==> r.1 == []
    ensures !r.0 && taxi.Some? && source.Some? ==> r.1 == [MoveTo(source.value.id)]
  {
    if taxi.None? || source.None? then (false, [])
    else if taxi.value == source.value.pos then (true, [])
    else (false, [MoveTo(source.value.id)])
  }
}

=== FILE: transfer_energy.dfy ===
/** task.transferEnergy.js: a creep ferries energy in four phases kept in
    memory.taskExecutionData: findSource -> transferring -> findDestination
    -> delivering, with reset edges back to the searches. */
module TransferEnergy {
  import opened Types

  datatype Phase = FindSource | Transferring | FindDestination | Delivering

  /** state.lastAction: how energy is taken from the chosen source. */
  datatype Gather = PickupFrom | WithdrawFrom | HarvestFrom

  /** memory.taskExecutionData */
  datatype XferState = XferState(
    phase: Phase,
    sourceId: Option<EntityId>,
    destinationId: Option<EntityId>,
    lastAction: Option<Gather>)

  /** What the transfer logic asks of the game in one tick. Actions in a tick
      are queued intents, so the creep's energy is the same throughout, and
      every query about one object answers the same within the tick. */
  datatype XObs = XObs(
    /** the creep's energy and free capacity */
    energy: nat,
    free: nat,
    /** the closest dropped energy; container or storage holding energy; source with energy */
    dropped: Option<EntityId>,
    stocked: Option<EntityId>,
    source: Option<EntityId>,
    /** the closest own spawn or extension, and storage, with free capacity */
    spawnSink: Option<EntityId>,
    storageSink: Option<EntityId>,
    /** the room's controller, and whether it is owned and adjacent to the creep */
    roomController: Option<EntityId>,
    ownNear: bool,
    /** ids Game.getObjectById resolves */
    present: set<EntityId>,
    /** the result of moveTo(target) */
    move: EntityId -> Code,
    /** getRangeTo(target) <= 1 */
    near: EntityId -> bool,
    /** the result of the pickup/withdraw/harvest or transfer/upgradeController on a target */
    result: EntityId -> Code,
    /** after a successful take: the source holds nothing (amount, store or energy is 0) */
    drained: EntityId -> bool,
    /** after a successful delivery: the destination has a store with no free capacity */
    destFull: EntityId -> bool)

  /** The initial execution data. */
  function Init(): XferState { XferState(FindSource, None, None, None) }

  /** findEnergySource: dropped energy, else a container or storage holding
      energy, else a source with energy; the choice sets the source, the way
      to take from it and the transferring phase. */
  function FindEnergySource(s: XferState, o: XObs): (r: XferState)
    ensures o.dropped.Some? ==> r == s.(phase := Transferring, sourceId := o.dropped, lastAction := Some(PickupFrom))
    ensures o.dropped.None? && o.stocked.Some? ==>
              r == s.(phase := Transferring, sourceId := o.stocked, lastAction := Some(WithdrawFrom))
    ensures o.dropped.None? && o.stocked.None? && o.source.Some? ==>
              r == s.(phase := Transferring, sourceId := o.source, lastAction := Some(HarvestFrom))
    ensures o.dropped.None? && o.stocked.None? && o.source.None? ==> r == s
    ensures r.destinationId == s.destinationId
  {
    if o.dropped.Some? then s.(phase := Transferring, sourceId := o.dropped, lastAction := Some(PickupFrom))
    else if o.stocked.Some? then s.(phase := Transferring, sourceId := o.stocked, lastAction := Some(WithdrawFrom))
    else if o.source.Some? then s.(phase := Transferring, sourceId := o.source, lastAction := Some(HarvestFrom))
    else s
  }

  function GatherAction(g: Gather, src: EntityId): Action {
    match g
    case PickupFrom => Pickup(src)
    case WithdrawFrom => Withdraw(src)
    case HarvestFrom => Harvest(src)
  }

  /** The source id resolves this tick. */
  predicate Known(id: Option<EntityId>, o: XObs) { id.Some? && id.value in o.present }

  /** transferToCreep: walk to the source and take energy once adjacent. */
  function TransferToCreep(s: XferState, o: XObs): (r: (XferState, seq<Action>))
    ensures !Known(s.sourceId, o) ==> r == (s.(phase := FindSource, sourceId := None, destinationId := None), [])
    ensures Known(s.sourceId, o) ==> |r.1| >= 1 && r.1[0] == MoveTo(s.sourceId.value)
    ensures Known(s.sourceId, o) && (o.move(s.sourceId.value) != Ok || !o.near(s.sourceId.value)) ==>
              r == (s, [MoveTo(s.sourceId.value)])
    ensures r.0.phase == FindDestination && s.phase != FindDestination ==>
              && Known(s.sourceId, o) && s.lastAction.Some?
              && o.result(s.sourceId.value) == Ok && (o.free == 0 || o.drained(s.sourceId.value))
              && r.0 == s.(phase := FindDestination, sourceId := None)
    ensures Known(s.sourceId, o) && o.move(s.sourceId.value) == Ok && o.near(s.sourceId.value) && s.lastAction.Some? ==>
              var src := s.sourceId.value;
              && r.1 == [MoveTo(src), GatherAction(s.lastAction.value, src)]
              && (o.result(src) in {ErrNotEnough, ErrInvalidTarget} ==> r.0 == s.(phase := FindSource, sourceId := None))
              && (o.result(src) !in {Ok, ErrNotEnough, ErrInvalidTarget} ==> r.0 == s)
    ensures r.0.phase != s.phase ==> r.0.sourceId.None?
  {
    if !Known(s.sourceId, o) then (s.(phase := FindSource, sourceId := None, destinationId := None), [])
    else
      var src := s.sourceId.value;
      var walk := [MoveTo(src)];
      if o.move(src) != Ok || !o.near(src) then (s, walk)
      else
        match s.lastAction
        case None => (s, walk)
        case Some(g) =>
          var acts := walk + [GatherAction(g, src)];
          var res := o.result(src);
          if res == Ok then
            if o.free == 0 || o.drained(src) then (s.(phase := FindDestination, sourceId := None), acts)
            else (s, acts)
          else if res == ErrNotEnough || res == ErrInvalidTarget then (s.(phase := FindSource, sourceId := None), acts)
          else (s, acts)
  }

  /** An owned controller next to the creep: the last-resort destination. */
  function NearController(o: XObs): Option<EntityId> {
    if o.roomController.Some? && o.ownNear then o.roomController else None
  }

  /** The destination findEnergyDestination prefers: a spawn or extension with
      room, else storage with room, else an owned adjacent controller. */
  function BestDestination(o: XObs): (r: Option<EntityId>)
    ensures o.spawnSink.Some? ==> r == o.spawnSink
    ensures o.spawnSink.None? && o.storageSink.Some? ==> r == o.storageSink
    ensures o.spawnSink.None? && o.storageSink.None? ==> r == NearController(o)
  {
    if o.spawnSink.Some? then o.spawnSink
    else if o.storageSink.Some? then o.storageSink
    else NearController(o)
  }

  /** findEnergyDestination. The result is the new execution data (None once
      cleared) and the function's return value. */
  function FindEnergyDestination(s: XferState, o: XObs): (r: (Option<XferState>, bool))
    ensures o.energy == 0 ==> r == (Some(s.(phase := FindSource, destinationId := None)), false)
    ensures o.energy > 0 && BestDestination(o).Some? ==>
              r == (Some(s.(destinationId := BestDestination(o), phase := Delivering)), false)
    ensures o.energy > 0 && BestDestination(o).None? ==> r == (None, true)
    ensures r.1 <==> r.0.None?
  {
    if o.energy == 0 then (Some(s.(phase := FindSource, destinationId := None)), false)
    else
      match BestDestination(o)
      case Some(d) => (Some(s.(destinationId := Some(d), phase := Delivering)), false)
      case None => (None, true)
  }

  /** What deliverEnergy leaves: the execution data (None once cleared), its
      return value (true when the delivery cycle is over), and the actions. */
  datatype Delivery = Delivery(data: Option<XferState>, done: bool, actions: seq<Action>)

  /** transfer, or upgradeController when the destination is the room's controller. */
  function DeliverAction(o: XObs, d: EntityId): Action {
    if o.roomController == Some(d) then UpgradeAt(d) else Transfer(d)
  }

  /** The delivery is refused: the destination is full or not a valid target. */
  predicate Refused(c: Code) { c == ErrFull || c == ErrInvalidTarget }

  /** deliverEnergy as written. On a refusal next to an owned controller it
      retargets the controller and calls itself again with nothing else
      changed; `fuel` bounds the nesting, and None means the calls were still
      nesting when it ran out. */
  function DeliverAsWritten(s: XferState, o: XObs, fuel: nat): (r: Option<Delivery>)
    decreases fuel
  {
    if fuel == 0 then None
    else if o.energy == 0 then Some(Delivery(Some(s.(phase := FindSource, destinationId := None)), false, []))
    else if !Known(s.destinationId, o) then Some(Delivery(Some(s.(phase := FindDestination, destinationId := None)), false, []))
    else
      var d := s.destinationId.value;
      if o.move(d) != Ok || !o.near(d) then Some(Delivery(Some(s), false, [MoveTo(d)]))
      else
        var acts := [MoveTo(d), DeliverAction(o, d)];
        var res := o.result(d);
        if res == Ok then
          if o.destFull(d) then Some(Delivery(None, true, acts)) else Some(Delivery(Some(s), false, acts))
        else if Refused(res) then
          match NearController(o)
          case Some(c) =>
            (match DeliverAsWritten(s.(destinationId := Some(c)), o, fuel - 1)
             case None => None
             case Some(t) => Some(t.(actions := acts + t.actions)))
          case None => Some(Delivery(None, true, acts))
        else Some(Delivery(Some(s), false, acts))
  }

  /** A creep standing next to its owned controller, whose upgradeController
      is refused (for instance while upgrading is blocked), never gets an
      answer from deliverEnergy: however deep the calls go, they go deeper. */
  lemma {:induction false} DeliverRecursesForever(s: XferState, o: XObs, fuel: nat)
    requires o.energy > 0 && NearController(o).Some?
    requires var c := NearController(o).value;
             c in o.present && o.move(c) == Ok && o.near(c) && Refused(o.result(c))
    requires s.destinationId == NearController(o)
    ensures DeliverAsWritten(s, o, fuel).None?
    decreases fuel
  {
    if fuel > 0 {
      DeliverRecursesForever(s.(destinationId := NearController(o)), o, fuel - 1);
    }
  }

  /** The creep got next to d this tick: moveTo answered OK and it is within range 1. */
  predicate Reached(o: XObs, d: EntityId) { o.move(d) == Ok && o.near(d) }

  /** deliverEnergy with the evident intent: the controller is tried once as a
      fallback, and a refusal there ends the cycle like having no controller.
      Once the creep reaches its destination: OK with the creep empty or the
      destination full clears the data and reports the cycle over; OK
      otherwise keeps going; a refusal retargets an owned adjacent controller,
      or without one clears the data and reports the cycle over; any other
      code keeps the state. */
  function DeliverEnergy(s: XferState, o: XObs): (r: Delivery)
    ensures o.energy == 0 ==> r == Delivery(Some(s.(phase := FindSource, destinationId := None)), false, [])
    ensures o.energy > 0 && !Known(s.destinationId, o) ==>
              r == Delivery(Some(s.(phase := FindDestination, destinationId := None)), false, [])
    ensures o.energy > 0 && Known(s.destinationId, o) && !Reached(o, s.destinationId.value) ==>
              r == Delivery(Some(s), false, [MoveTo(s.destinationId.value)])
    ensures o.energy > 0 && Known(s.destinationId, o) && Reached(o, s.destinationId.value) ==>
              var d := s.destinationId.value;
              var acts := [MoveTo(d), DeliverAction(o, d)];
              && 2 <= |r.actions| && r.actions[..2] == acts
              && (o.result(d) == Ok && o.destFull(d) ==> r == Delivery(None, true, acts))
              && (o.result(d) == Ok && !o.destFull(d) ==> r == Delivery(Some(s), false, acts))
              && (Refused(o.result(d)) && NearController(o).None? ==> r == Delivery(None, true, acts))
              && (o.result(d) != Ok && !Refused(o.result(d)) ==> r == Delivery(Some(s), false, acts))
    ensures o.energy > 0 && Known(s.destinationId, o) && Reached(o, s.destinationId.value) &&
            Refused(o.result(s.destinationId.value)) && NearController(o).Some? ==>
              var c := NearController(o).value;
              var s2 := s.(destinationId := Some(c));
              && (c !in o.present ==> r.data == Some(s.(phase := FindDestination, destinationId := None)) && !r.done)
              && (c in o.present && !Reached(o, c) ==> r.data == Some(s2) && !r.done)
              && (c in o.present && Reached(o, c) && o.result(c) == Ok ==>
                    (r.done <==> o.destFull(c)) && (!r.done ==> r.data == Some(s2)))
              && (c in o.present && Reached(o, c) && Refused(o.result(c)) ==> r.done)
              && (c in o.present && Reached(o, c) && o.result(c) != Ok && !Refused(o.result(c)) ==>
                    r.data == Some(s2) && !r.done)
    ensures r.done <==> r.data.None?
    ensures r.data.Some? ==> r.data.value.phase != Delivering || r.data.value.destinationId.Some?
    ensures |r.actions| <= 4
  {
    DeliverTo(s, o, true)
  }

  /** One delivery attempt; `retry` says whether the controller fallback is still open. */
  function DeliverTo(s: XferState, o: XObs, retry: bool): (r: Delivery)
    ensures o.energy == 0 ==> r == Delivery(Some(s.(phase := FindSource, destinationId := None)), false, [])
    ensures o.energy > 0 && !Known(s.destinationId, o) ==>
              r == Delivery(Some(s.(phase := FindDestination, destinationId := None)), false, [])
    ensures r.done <==> r.data.None?
    ensures r.data.Some? && r.data.value.phase == Delivering ==> r.data.value.destinationId.Some?
    ensures r.data.Some? ==> r.data.value.phase != Delivering || r.data.value.destinationId == s.destinationId ||
                             r.data.value.destinationId == NearController(o)
    ensures |r.actions| <= if retry then 4 else 2
    decreases retry
  {
    if o.energy == 0 then Delivery(Some(s.(phase := FindSource, destinationId := None)), false, [])
    else if !Known(s.destinationId, o) then Delivery(Some(s.(phase := FindDestination, destinationId := None)), false, [])
    else
      var d := s.destinationId.value;
      if o.move(d) != Ok || !o.near(d) then Delivery(Some(s), false, [MoveTo(d)])
      else
        var acts := [MoveTo(d), DeliverAction(o, d)];
        var res := o.result(d);
        if res == Ok then
          if o.destFull(d) then Delivery(None, true, acts) else Delivery(Some(s), false, acts)
        else if Refused(res) then
          match NearController(o)
          case Some(c) =>
            if retry then
              var t := DeliverTo(s.(destinationId := Some(c)), o, false);
              t.(actions := acts + t.actions)
            else Delivery(None, true, acts)
          case None => Delivery(None, true, acts)
        else Delivery(Some(s), false, acts)
  }

  /** Where the controller fallback is not refused again, the corrected
      deliverEnergy answers exactly as the original does. */
  lemma DeliverAgrees(s: XferState, o: XObs)
    requires NearController(o).Some? ==>
               var c := NearController(o).value;
               !(c in o.present && o.move(c) == Ok && o.near(c) && Refused(o.result(c)))
    ensures DeliverAsWritten(s, o, 2) == Some(DeliverEnergy(s, o))
  {
    if o.energy > 0 && Known(s.destinationId, o) {
      var d := s.destinationId.value;
      if o.move(d) == Ok && o.near(d) && Refused(o.result(d)) && NearController(o).Some? {
        var s2 := s.(destinationId := NearController(o));
        assert DeliverAsWritten(s2, o, 1) == Some(DeliverTo(s2, o, false));
      }
    }
  }

  /** Under the same conditions as DeliverRecursesForever, the corrected
      deliverEnergy ends the cycle and clears the execution data. */
  lemma DeliverGivesUpOnRefusingController(s: XferState, o: XObs)
    requires o.energy > 0 && NearController(o).Some?
    requires var c := NearController(o).value;
             c in o.present && o.move(c) == Ok && o.near(c) && Refused(o.result(c))
    requires s.destinationId == NearController(o)
    ensures DeliverEnergy(s, o).data.None? && DeliverEnergy(s, o).done
  {
  }

  /** The outcome of run: the execution data afterwards, the return value
      (true once a delivery cycle is over) and the actions. */
  datatype Tick = Tick(data: Option<XferState>, done: bool, actions: seq<Action>)

  /** run: initialise missing execution data, then act on the phase. */
  function Run(data: Option<XferState>, o: XObs): (r: Tick)
    ensures var s := if data.None? then Init() else data.value;
            && (r.done ==> s.phase == Delivering && r.data.None?)
            && (s.phase == FindSource ==> r == Tick(Some(FindEnergySource(s, o)), false, []))
            && (s.phase == Transferring ==> r == Tick(Some(TransferToCreep(s, o).0), false, TransferToCreep(s, o).1))
            && (s.phase == FindDestination ==> r == Tick(FindEnergyDestination(s, o).0, false, []))
            && (s.phase == Delivering ==> r == Tick(DeliverEnergy(s, o).data, DeliverEnergy(s, o).done, DeliverEnergy(s, o).actions))
  {
    var s := if data.None? then Init() else data.value;
    match s.phase
    case FindSource => Tick(Some(FindEnergySource(s, o)), false, [])
    case Transferring =>
      var (s2, acts) := TransferToCreep(s, o);
      Tick(Some(s2), false, acts)
    case FindDestination => Tick(FindEnergyDestination(s, o).0, false, [])
    case Delivering =>
      var d := DeliverEnergy(s, o);
      Tick(d.data, d.done, d.actions)
  }

  /** run as written, over the original deliverEnergy; None when the
      delivering phase was still nesting calls when the fuel ran out. */
  function RunAsWritten(data: Option<XferState>, o: XObs, fuel: nat): Option<Tick> {
    var s := if data.None? then Init() else data.value;
    if s.phase == Delivering then
      match DeliverAsWritten(s, o, fuel)
      case None => None
      case Some(d) => Some(Tick(d.data, d.done, d.actions))
    else Some(Run(data, o))
  }

  /** run over the corrected delivery answers as the original run does,
      except next to an owned controller that refuses the delivery, where the
      original never returns. */
  lemma RunAgrees(data: Option<XferState>, o: XObs)
    requires NearController(o).Some? ==>
               var c := NearController(o).value;
               !(c in o.present && o.move(c) == Ok && o.near(c) && Refused(o.result(c)))
    ensures RunAsWritten(data, o, 2) == Some(Run(data, o))
  {
    var s := if data.None? then Init() else data.value;
    if s.phase == Delivering {
      DeliverAgrees(s, o);
    }
  }

  /** On that input the original run never returns from the delivering phase. */
  lemma RunAsWrittenNeverReturns(s: XferState, o: XObs, fuel: nat)
    requires s.phase == Delivering && o.energy > 0 && NearController(o).Some?
    requires var c := NearController(o).value;
             c in o.present && o.move(c) == Ok && o.near(c) && Refused(o.result(c))
    requires s.destinationId == NearController(o)
    ensures RunAsWritten(Some(s), o, fuel).None?
  {
    DeliverRecursesForever(s, o, fuel);
  }

  /** A creep without execution data starts looking for a source in the same
      tick, with nothing chosen yet. */
  lemma FreshStart(o: XObs)
    ensures Run(None, o).data.Some?
    ensures var s := Run(None, o).data.value;
            s.destinationId.None? &&
            (s.phase == Transferring <==> o.dropped.Some? || o.stocked.Some? || o.source.Some?)
    ensures !Run(None, o).done
  {
  }

  /** run reports a finished cycle only from the delivering phase: when
      findEnergyDestination finds nowhere to deliver it clears the execution
      data and returns true, but run drops that value and returns false. */
  lemma DestinationSearchNeverFinishes(s: XferState, o: XObs)
    requires s.phase == FindDestination && o.energy > 0 && BestDestination(o).None?
    ensures FindEnergyDestination(s, o) == (None, true)
    ensures Run(Some(s), o) == Tick(None, false, [])
  {
  }

  /** The phase machine only takes the edges of the cycle and its resets. */
  predicate Edge(a: Phase, b: Phase) {
    || a == b
    || (a == FindSource && b == Transferring)
    || (a == Transferring && (b == FindDestination || b == FindSource))
    || (a == FindDestination && (b == Delivering || b == FindSource))
    || (a == Delivering && (b == FindSource || b == FindDestination))
  }

  lemma RunFollowsEdges(data: Option<XferState>, o: XObs)
    ensures var s := if data.None? then Init() else data.value;
            Run(data, o).data.Some? ==> Edge(s.phase, Run(data, o).data.value.phase)
  {
    var s := if data.None? then Init() else data.value;
    if s.phase == Delivering {
      DeliverPhases(s, o, true);
    }
  }

  /** A delivery attempt leaves the data in the delivering, findSource or
      findDestination phase, or clears it. */
  lemma DeliverPhases(s: XferState, o: XObs, retry: bool)
    requires s.phase == Delivering
    ensures var r := DeliverTo(s, o, retry);
            r.data.Some? ==> r.data.value.phase in {Delivering, FindSource, FindDestination}
    decreases retry
  {
    if retry && NearController(o).Some? {
      DeliverPhases(s.(destinationId := NearController(o)), o, false);
    }
  }
}

=== FILE: types.dfy ===
/** Vocabulary shared by every module of the colony model: the enums of the
    task manager, the game's return codes, tile positions and the world
    actions a tick can request. */
module Types {

  datatype Option<+T> = None | Some(value: T)

  /** A game object id as handed out by the simulation (source, site, structure, ...). */
  type EntityId = string
  type CreepName = string
  type RoomName = string

  /** Task ids. The original draws them from Math.random; here they come from a counter. */
  type TaskId = nat

  datatype Priority = High | Medium | Low

  datatype TaskType =
    | MineSource | DeliverMiner | CollectFromPile | Build | Repair
    | Upgrade | Transport | Defend | SpawnCreep

  /** The roles of taskManager.ROLE, plus the 'universal' role string of common.js
      (which taskManager.ROLE does not define). */
  datatype Role =
    | Miner | Taxi | Courier | Builder | Repairer | Upgrader | Defender | Spawner
    | Universal

  datatype TaskState = Pending | InProgress | Completed

  /** The game's return codes. ERR_NOT_ENOUGH_ENERGY and ERR_NOT_ENOUGH_RESOURCES
      are the same value (-6) in the game API, hence the single ErrNotEnough. */
  datatype Code =
    | Ok | ErrNotOwner | ErrNoPath | ErrNameExists | ErrBusy | ErrNotFound
    | ErrNotEnough | ErrInvalidTarget | ErrFull | ErrNotInRange | ErrInvalidArgs
    | ErrTired | ErrNoBodypart | ErrRclNotEnough | ErrGclNotEnough

  /** A tile inside one room. */
  datatype Pos = Pos(x: int, y: int)

  function Abs(n: int): nat { if n < 0 then -n else n }

  /** The game's range: the larger of the two coordinate distances. */
  function Range(a: Pos, b: Pos): (d: nat)
    ensures d == 0 <==> a == b
  {
    if Abs(a.x - b.x) < Abs(a.y - b.y) then Abs(a.y - b.y) else Abs(a.x - b.x)
  }

  /** World actions a tick can request; their outcomes are inputs of the step. */
  datatype Action =
    | MoveTo(target: EntityId)
    | Harvest(target: EntityId)
    | Pickup(target: EntityId)
    | Withdraw(target: EntityId)
    | Transfer(target: EntityId)
    | BuildAt(target: EntityId)
    | RepairAt(target: EntityId)
    | UpgradeAt(target: EntityId)

  predicate IsMove(a: Action) { a.MoveTo? }
}

=== FILE: universal.dfy ===
/** The universal creep of creep.prototype.universal.js: takes any task,
    preferring task types by a fixed ranking, and caches the type of the
    task it is working on in memory.currentTaskType. */
module Universal {
  import opened Types
  import opened Sorting
  import opened TaskManager
  import opened Creeps
  import opened CreepPrototype
  import opened Roles

  /** The ranking of findPriorityTasks; a type it does not list ranks 0. */
  function TypeRank(t: Task): nat {
    match t.ttype
    case Upgrade => 6
    case Build => 5
    case Repair => 4
    case MineSource => 3
    case CollectFromPile => 2
    case DeliverMiner => 1
    case _ => 0
  }

  /** findPriorityTasks: the available tasks re-sorted (stably) by type rank,
      so equal type ranks keep the priority order getAvailableTasks gave them. */
  function FindPriorityTasks(st: Store, c: Creep): (r: seq<Task>)
    ensures multiset(r) == multiset(GetAvailableTasks(st, c))
    ensures forall t :: t in r <==> t in st.tasks && Eligible(t, c)
    ensures forall i, j | 0 <= i < j < |r| ::
              TypeRank(r[i]) > TypeRank(r[j]) ||
              (TypeRank(r[i]) == TypeRank(r[j]) && PriorityRank(r[i]) >= PriorityRank(r[j]))
  {
    var avail := GetAvailableTasks(st, c);
    RankSortKeeps(avail);
    SortDesc(avail, TypeRank, 6)
  }

  /** Sorting by type rank permutes the tasks and keeps a priority-sorted
      list priority-sorted within each type rank. */
  lemma RankSortKeeps(ts: seq<Task>)
    requires forall i, j | 0 <= i < j < |ts| :: PriorityRank(ts[i]) >= PriorityRank(ts[j])
    ensures multiset(SortDesc(ts, TypeRank, 6)) == multiset(ts)
    ensures forall t :: t in SortDesc(ts, TypeRank, 6) <==> t in ts
    ensures forall i, j | 0 <= i < j < |SortDesc(ts, TypeRank, 6)| ::
              var r := SortDesc(ts, TypeRank, 6);
              TypeRank(r[i]) > TypeRank(r[j]) ||
              (TypeRank(r[i]) == TypeRank(r[j]) && PriorityRank(r[i]) >= PriorityRank(r[j]))
  {
    RankSortPermutes(ts, SortDesc(ts, TypeRank, 6));
    RankSortTies(ts, SortDesc(ts, TypeRank, 6));
  }

  lemma RankSortPermutes(ts: seq<Task>, r: seq<Task>)
    requires r == SortDesc(ts, TypeRank, 6)
    ensures multiset(r) == multiset(ts)
    ensures forall t :: t in r <==> t in ts
  {
    SortDescPermutes(ts, TypeRank, 6);
    forall t ensures t in r <==> t in ts {
      assert t in r <==> multiset(r)[t] > 0;
      assert t in ts <==> multiset(ts)[t] > 0;
    }
  }

  lemma RankSortTies(ts: seq<Task>, r: seq<Task>)
    requires forall i, j | 0 <= i < j < |ts| :: PriorityRank(ts[i]) >= PriorityRank(ts[j])
    requires r == SortDesc(ts, TypeRank, 6)
    ensures forall i, j | 0 <= i < j < |r| ::
              TypeRank(r[i]) > TypeRank(r[j]) ||
              (TypeRank(r[i]) == TypeRank(r[j]) && PriorityRank(r[i]) >= PriorityRank(r[j]))
  {
    SortDescByKeyThenRank(ts, TypeRank, 6, PriorityRank);
  }

  /** `delete memory.currentTaskType` */
  function Forget(c: Creep): Creep { c.(currentTaskType := None) }

  /** completeTask followed by forgetting the cached type. */
  function Finish(st: Store, c: Creep, acts: seq<Action>): (r: Step)
    ensures r.creep == Forget(CreepPrototype.CompleteTask(st, c).creep)
    ensures r.store == CreepPrototype.CompleteTask(st, c).store && r.actions == acts
    ensures Valid(st) ==> Valid(r.store)
    ensures Inv(st) ==> Inv(r.store)
  {
    var b := CreepPrototype.CompleteTask(st, c);
    Step(b.store, Forget(b.creep), acts)
  }

  /** The progress report of a successful action: the carried energy. */
  function Progress(st: Store, c: Creep, o: Obs): (r: Store)
    ensures forall id | !HasTask(c) || id != c.task.id :: Get(r, id) == Get(st, id)
    ensures HasTask(c) ==> Get(r, c.task.id).Some? == Get(st, c.task.id).Some?
    ensures HasTask(c) && Get(st, c.task.id).Some? ==>
              Get(r, c.task.id).value == Get(st, c.task.id).value.(progress := Get(r, c.task.id).value.progress)
    ensures Valid(st) ==> Valid(r)
    ensures Inv(st) ==> Inv(r)
  {
    CreepPrototype.UpdateTaskProgress(st, c, o.energy).store
  }

  /** performUniversalMining: like a courier at a pile, but harvesting, and
      never completing the task. */
  function Mining(st: Store, c: Creep, t: Task, o: Obs): (r: Step)
    ensures !Present(o, t.target) ==> r == GiveUp(st, c)
    ensures Present(o, t.target) ==> r.creep == c
    ensures Present(o, t.target) && o.energy >= o.capacity ==> r == Step(st, c, Unload(o))
    ensures Present(o, t.target) && o.energy < o.capacity ==>
              && |r.actions| >= 1 && r.actions[0] == Harvest(t.target)
              && (o.work == Ok ==> r.store == Progress(st, c, o))
              && (o.work != Ok ==> r.store == st)
              && (o.work == ErrNotInRange <==> MoveTo(t.target) in r.actions)
    ensures Valid(st) ==> Valid(r.store)
    ensures Inv(st) ==> Inv(r.store)
  {
    if !Present(o, t.target) then GiveUp(st, c)
    else if o.energy >= o.capacity then Step(st, c, Unload(o))
    else
      var h := [Harvest(t.target)];
      if o.work == Ok then Step(Progress(st, c, o), c, h)
      else if o.work == ErrNotInRange then Step(st, c, h + [MoveTo(t.target)])
      else Step(st, c, h)
  }

  /** performUniversalDelivery. findMinerForDelivery is called with the source
      as its only argument, so (with this file's definition) the search for a
      waiting miner is centred on the source. */
  function Delivery(st: Store, c: Creep, t: Task, o: Obs): (r: Step)
    ensures !Present(o, t.target) || FirstNear(o.creeps, o.targetPos, WaitingMiner).None? ==> r == GiveUp(st, c)
    ensures Present(o, t.target) && FirstNear(o.creeps, o.targetPos, WaitingMiner).Some? ==>
              if o.pos == o.targetPos then r == Finish(st, c, [])
              else r == Step(st, c, [MoveTo(t.target)])
    ensures Valid(st) ==> Valid(r.store)
    ensures Inv(st) ==> Inv(r.store)
  {
    if !Present(o, t.target) then GiveUp(st, c)
    else if FirstNear(o.creeps, o.targetPos, WaitingMiner).None? then GiveUp(st, c)
    else if o.pos == o.targetPos then Finish(st, c, [])
    else Step(st, c, [MoveTo(t.target)])
  }

  /** performUniversalCollection: a successful pickup that empties the pile
      completes the task. */
  function Collection(st: Store, c: Creep, t: Task, o: Obs): (r: Step)
    ensures !Present(o, t.target) ==> r == GiveUp(st, c)
    ensures Present(o, t.target) && o.energy >= o.capacity ==> r == Step(st, c, Unload(o))
    ensures Present(o, t.target) && o.energy < o.capacity ==>
              && |r.actions| >= 1 && r.actions[0] == Pickup(t.target)
              && (o.work == Ok && o.pileAmount <= 0 ==> r == Finish(Progress(st, c, o), c, [Pickup(t.target)]))
              && (o.work == Ok && o.pileAmount > 0 ==> r == Step(Progress(st, c, o), c, [Pickup(t.target)]))
              && (o.work != Ok ==> r.store == st && r.creep == c)
              && (o.work == ErrFull ==> r.actions == [Pickup(t.target)] + Unload(o))
    ensures Valid(st) ==> Valid(r.store)
    ensures Inv(st) ==> Inv(r.store)
  {
    if !Present(o, t.target) then GiveUp(st, c)
    else if o.energy >= o.capacity then Step(st, c, Unload(o))
    else
      var p := [Pickup(t.target)];
      if o.work == Ok then
        var u := Progress(st, c, o);
        if o.pileAmount <= 0 then Finish(u, c, p) else Step(u, c, p)
      else if o.work == ErrNotInRange then Step(st, c, p + [MoveTo(t.target)])
      else if o.work == ErrFull then Step(st, c, p + Unload(o))
      else Step(st, c, p)
  }

  /** performUniversalBuilding, performUniversalRepair and performUniversalUpgrade:
      refill when empty; after a successful action report progress and, when
      `done` holds of the updated table, complete. */
  function Work(st: Store, c: Creep, t: Task, o: Obs, act: Action, done: Store -> bool): (r: Step)
    ensures !Present(o, t.target) ==> r == GiveUp(st, c)
    ensures Present(o, t.target) && o.energy == 0 ==> r == Step(st, c, Refill(o))
    ensures Present(o, t.target) && o.energy > 0 ==>
              && |r.actions| >= 1 && r.actions[0] == act
              && (o.work == Ok && done(Progress(st, c, o)) ==> r == Finish(Progress(st, c, o), c, [act]))
              && (o.work == Ok && !done(Progress(st, c, o)) ==> r == Step(Progress(st, c, o), c, [act]))
              && (o.work != Ok ==> r.store == st && r.creep == c)
              && (o.work == ErrNotInRange ==> r.actions == [act, MoveTo(t.target)])
              && (o.work == ErrNotEnough ==> r.actions == [act] + Refill(o))
    ensures Valid(st) ==> Valid(r.store)
    ensures Inv(st) ==> Inv(r.store)
  {
    if !Present(o, t.target) then GiveUp(st, c)
    else if o.energy == 0 then Step(st, c, Refill(o))
    else
      if o.work == Ok then
        var u := Progress(st, c, o);
        if done(u) then Finish(u, c, [act]) else Step(u, c, [act])
      else if o.work == ErrNotInRange then Step(st, c, [act, MoveTo(t.target)])
      else if o.work == ErrNotEnough then Step(st, c, [act] + Refill(o))
      else Step(st, c, [act])
  }

  /** A build is complete once the site has reached its total progress. */
  function BuildDone(o: Obs): Store -> bool { (s: Store) => o.siteComplete }

  /** A repair is complete once the structure is back to full hits. */
  function RepairDone(o: Obs): Store -> bool { (s: Store) => o.hitsFull }

  /** The upgrade is complete after a successful action when the task, looked
      up again, exists and is not infinite. */
  function UpgradeDone(c: Creep): Store -> bool {
    (s: Store) => GetTask(s, c).Some? && !GetTask(s, c).value.infinite
  }

  /** The type the dispatch switches on: the cached one, or the task's own
      when nothing is cached. */
  function Key(c: Creep, t: Task): TaskType {
    if c.currentTaskType.Some? then c.currentTaskType.value else t.ttype
  }

  /** performTask of the universal creep (the code as written). */
  function PerformTask(st: Store, c: Creep, o: Obs): (r: Step)
    ensures GetTask(st, c).None? ==> r == GiveUp(st, c)
    ensures GetTask(st, c).Some? ==>
              var t := GetTask(st, c).value;
              var c1 := c.(currentTaskType := Some(Key(c, t)));
              match Key(c, t)
              case MineSource => r == Mining(st, c1, t, o)
              case DeliverMiner => r == Delivery(st, c1, t, o)
              case CollectFromPile => r == Collection(st, c1, t, o)
              case Build => r == Work(st, c1, t, o, BuildAt(t.target), BuildDone(o))
              case Repair => r == Work(st, c1, t, o, RepairAt(t.target), RepairDone(o))
              case Upgrade => r == Work(st, c1, t, o, UpgradeAt(t.target), UpgradeDone(c1))
              case _ => r == GiveUp(st, c1)
    ensures r.creep.name == c.name && r.creep.role == c.role && r.creep.sourceId == c.sourceId
    ensures Valid(st) ==> Valid(r.store)
    ensures Inv(st) ==> Inv(r.store)
  {
    match GetTask(st, c)
    case None => GiveUp(st, c)
    case Some(t) =>
      var c1 := c.(currentTaskType := Some(Key(c, t)));
      match Key(c, t)
      case MineSource => Mining(st, c1, t, o)
      case DeliverMiner => Delivery(st, c1, t, o)
      case CollectFromPile => Collection(st, c1, t, o)
      case Build => Work(st, c1, t, o, BuildAt(t.target), BuildDone(o))
      case Repair => Work(st, c1, t, o, RepairAt(t.target), RepairDone(o))
      case Upgrade => Work(st, c1, t, o, UpgradeAt(t.target), UpgradeDone(c1))
      case _ => GiveUp(st, c1)
  }

  /** The cached type belongs to the task the creep is bound to (nothing is
      cached while the creep is idle). */
  predicate CacheFresh(st: Store, c: Creep) {
    c.currentTaskType.Some? ==>
      GetTask(st, c).Some? && c.currentTaskType.value == GetTask(st, c).value.ttype
  }

  /** With a fresh cache, performTask does what it does with no cache at all:
      the cache only matters once it is stale. */
  lemma FreshCacheIsNoCache(st: Store, c: Creep, o: Obs)
    requires CacheFresh(st, c)
    ensures PerformTask(st, c, o) == PerformTask(st, c.(currentTaskType := None), o)
  {
  }

  /** As written, giving a task up keeps the cached type: a creep whose BUILD
      site vanished is idle afterwards but still caches BUILD. */
  lemma ReleaseKeepsCache(st: Store, c: Creep, o: Obs)
    requires HasTask(c) && c.currentTaskType == Some(Build)
    requires GetTask(st, c).Some? && GetTask(st, c).value.ttype == Build
    requires !Present(o, GetTask(st, c).value.target)
    ensures PerformTask(st, c, o).creep == c.(task := Cleared)
    ensures !CacheFresh(PerformTask(st, c, o).store, PerformTask(st, c, o).creep)
  {
  }

  /** ... so the next task is dispatched as the old one: the creep "builds"
      the controller of the UPGRADE task it takes next. */
  lemma StaleCacheMisroutes(st: Store, c: Creep, o: Obs)
    requires c.currentTaskType == Some(Build)
    requires GetTask(st, c).Some? && GetTask(st, c).value.ttype == Upgrade
    requires Present(o, GetTask(st, c).value.target) && o.energy > 0
    ensures |PerformTask(st, c, o).actions| > 0
    ensures PerformTask(st, c, o).actions[0] == BuildAt(GetTask(st, c).value.target)
    ensures PerformTask(st, c, o).actions[0] != UpgradeAt(GetTask(st, c).value.target)
  {
  }

  /** A concrete table for the two steps below: the creep is bound to a BUILD
      task whose site has vanished, and an UPGRADE task is open. */
  const ExampleBuild := Task(0, Build, "site", None, Medium, [Universal], InProgress, 0, 1000, false, 0, ["u"], 1)
  const ExampleUpgrade := Task(1, Upgrade, "ctrl", None, Medium, [Universal], Pending, 0, 1000, true, 0, [], 1)
  const ExampleStore := Store([ExampleBuild, ExampleUpgrade], 2)
  const ExampleCreep := Creep("u", "W1N1", Some(Universal), Bound(0), None, Some(Build))
  const ExampleObs := Obs({"ctrl"}, Pos(1, 1), Pos(2, 2), 50, 50, Ok, Ok, Ok, Ok, Ok,
                          None, None, None, None, None, false, false, 0, [], false)

  /** First step: the creep gives the BUILD task up, still caching BUILD, and
      the UPGRADE task is untouched. */
  lemma ExampleReleases()
    ensures var r1 := PerformTask(ExampleStore, ExampleCreep, ExampleObs);
            && r1.creep == ExampleCreep.(task := Cleared)
            && Get(r1.store, 1) == Some(ExampleUpgrade)
  {
    FindInStore(ExampleStore, 0);
    FindInStore(ExampleStore, 1);
    ReleaseKeepsCache(ExampleStore, ExampleCreep, ExampleObs);
  }

  /** The two steps in sequence: the creep then takes the UPGRADE task and
      builds at the controller. */
  lemma StaleCacheExample()
    ensures var r1 := PerformTask(ExampleStore, ExampleCreep, ExampleObs);
            var a := AssignTask(r1.store, r1.creep, 1);
            var acts := PerformTask(a.store, a.creep, ExampleObs).actions;
            && r1.creep.currentTaskType == Some(Build)
            && a.ok && |acts| > 0 && acts[0] == BuildAt("ctrl")
  {
    ExampleReleases();
    var r1 := PerformTask(ExampleStore, ExampleCreep, ExampleObs);
    var a := AssignTask(r1.store, r1.creep, 1);
    assert a.ok;
    assert a.creep == ExampleCreep.(task := Bound(1));
    assert GetTask(a.store, a.creep) == Some(ExampleUpgrade.(assignees := ExampleUpgrade.assignees + ["u"], state := InProgress));
    StaleCacheMisroutes(a.store, a.creep, ExampleObs);
  }

  /** performTask with the evident intent: a creep that ends the step without
      a task (released or finished) no longer carries a cached type. */
  function PerformTaskCorrected(st: Store, c: Creep, o: Obs): (r: Step)
    ensures !HasTask(r.creep) ==> r.creep.currentTaskType.None?
    ensures CacheFresh(st, c) ==> CacheFresh(r.store, r.creep)
    ensures r.store == PerformTask(st, c, o).store && r.actions == PerformTask(st, c, o).actions
    ensures Valid(st) ==> Valid(r.store)
    ensures Inv(st) ==> Inv(r.store)
  {
    var r := PerformTask(st, c, o);
    KeepsBinding(st, c, o);
    if HasTask(r.creep) then r else r.(creep := Forget(r.creep))
  }

  /** A creep still bound after performTask is bound to the same task, which
      kept its type, and caches that type. */
  lemma KeepsBinding(st: Store, c: Creep, o: Obs)
    ensures var r := PerformTask(st, c, o);
            HasTask(r.creep) ==>
              && r.creep.task == c.task && GetTask(st, c).Some?
              && GetTask(r.store, r.creep).Some?
              && GetTask(r.store, r.creep).value.ttype == GetTask(st, c).value.ttype
              && r.creep.currentTaskType == Some(Key(c, GetTask(st, c).value))
  {
    var r := PerformTask(st, c, o);
    if GetTask(st, c).Some? && HasTask(r.creep) {
      var t := GetTask(st, c).value;
      var c1 := c.(currentTaskType := Some(Key(c, t)));
      StaysOnTask(st, c, o);
      assert Get(r.store, c.task.id).Some? && Get(r.store, c.task.id).value.ttype == t.ttype;
    }
  }

  /** A creep still bound after performTask is the creep it was, caching the
      dispatched type, and the table at most took a progress report. */
  lemma StaysOnTask(st: Store, c: Creep, o: Obs)
    requires GetTask(st, c).Some?
    ensures var r := PerformTask(st, c, o);
            var c1 := c.(currentTaskType := Some(Key(c, GetTask(st, c).value)));
            HasTask(r.creep) ==> r.creep == c1 && (r.store == st || r.store == Progress(st, c1, o))
  {
    var r := PerformTask(st, c, o);
    match GetTask(st, c)
    case Some(t) =>
      var c1 := c.(currentTaskType := Some(Key(c, t)));
      var s: Step;
      match Key(c, t) {
        case MineSource => s := Mining(st, c1, t, o);
        case DeliverMiner => s := Delivery(st, c1, t, o);
        case CollectFromPile => s := Collection(st, c1, t, o); CollectionKeeps(st, c1, t, o);
        case Build => s := Work(st, c1, t, o, BuildAt(t.target), BuildDone(o));
          WorkKeeps(st, c1, t, o, BuildAt(t.target), BuildDone(o));
        case Repair => s := Work(st, c1, t, o, RepairAt(t.target), RepairDone(o));
          WorkKeeps(st, c1, t, o, RepairAt(t.target), RepairDone(o));
        case Upgrade => s := Work(st, c1, t, o, UpgradeAt(t.target), UpgradeDone(c1));
          WorkKeeps(st, c1, t, o, UpgradeAt(t.target), UpgradeDone(c1));
        case _ => s := GiveUp(st, c1);
      }
      assert r == s;
  }

  /** Only a step that neither gives up nor finishes leaves the creep bound,
      and such a step at most reports progress. */
  lemma CollectionKeeps(st: Store, c: Creep, t: Task, o: Obs)
    ensures var r := Collection(st, c, t, o);
            HasTask(r.creep) ==> r.creep == c && (r.store == st || r.store == Progress(st, c, o))
  {
  }

  lemma WorkKeeps(st: Store, c: Creep, t: Task, o: Obs, act: Action, done: Store -> bool)
    ensures var r := Work(st, c, t, o, act, done);
            HasTask(r.creep) ==> r.creep == c && (r.store == st || r.store == Progress(st, c, o))
  {
  }

  /** findAnyTask: the first available task, performed at once when assigned. */
  function FindAnyTask(st: Store, c: Creep, o: Obs): (r: Step)
    ensures GetAvailableTasks(st, c) == [] || HasTask(c) ==> r == Step(st, c, [])
    ensures !HasTask(c) && GetAvailableTasks(st, c) != [] ==>
              var a := AssignTask(st, c, GetAvailableTasks(st, c)[0].id);
              && (a.ok ==> r == PerformTask(a.store, a.creep, o))
              && (!a.ok ==> r == Step(st, c, []))
    ensures r.creep.name == c.name && r.creep.role == c.role
    ensures Valid(st) ==> Valid(r.store)
    ensures Inv(st) ==> Inv(r.store)
  {
    var avail := GetAvailableTasks(st, c);
    if |avail| == 0 then Step(st, c, [])
    else
      var a := AssignTask(st, c, avail[0].id);
      if !a.ok then Step(st, c, []) else PerformTask(a.store, a.creep, o)
  }

  /** On a valid table an idle creep with tasks open to it takes the first of
      getAvailableTasks and performs it: the task first in priority and table
      order, whatever its type rank. */
  lemma FindAnyTakesFirst(st: Store, c: Creep, o: Obs)
    requires Valid(st) && !HasTask(c) && GetAvailableTasks(st, c) != []
    ensures var t := GetAvailableTasks(st, c)[0];
            && AssignTask(st, c, t.id).ok
            && FindAnyTask(st, c, o) == PerformTask(AssignTask(st, c, t.id).store, AssignTask(st, c, t.id).creep, o)
            && forall u | u in st.tasks && Eligible(u, c) && u != t :: Precedes(t, u)
  {
    var avail := GetAvailableTasks(st, c);
    var t := avail[0];
    assert t in avail;
    GetMember(st, t);
    forall u | u in st.tasks && Eligible(u, c) && u != t ensures Precedes(t, u) {
      var k :| 0 <= k < |avail| && avail[k] == u;
    }
  }

  /** findAndAssignTask of the universal creep: the top of findPriorityTasks. */
  function FindAndAssignTask(st: Store, c: Creep, o: Obs): (r: Step)
    ensures HasTask(c) ==> r == Step(st, c, [])
    ensures FindPriorityTasks(st, c) == [] ==> r == Step(st, c, [])
    ensures r.creep.name == c.name && r.creep.role == c.role
    ensures Valid(st) ==> Valid(r.store)
    ensures Inv(st) ==> Inv(r.store)
  {
    if HasTask(c) then Step(st, c, [])
    else
      var pri := FindPriorityTasks(st, c);
      if |pri| > 0 then TakeTask(st, c, pri[0].id, o)
      else
        assert multiset(GetAvailableTasks(st, c)) == multiset{};
        FindAnyTask(st, c, o)
  }

  /** assignTask, and performTask when it succeeds. */
  function TakeTask(st: Store, c: Creep, id: TaskId, o: Obs): (r: Step)
    ensures r.creep.name == c.name && r.creep.role == c.role
    ensures Valid(st) ==> Valid(r.store)
    ensures Inv(st) ==> Inv(r.store)
  {
    var a := AssignTask(st, c, id);
    if a.ok then PerformTask(a.store, a.creep, o) else Step(st, c, [])
  }

  /** On a valid table an idle creep with tasks open to it takes the task of
      the highest type rank, and performs it. */
  lemma TakesTopRank(st: Store, c: Creep, o: Obs)
    requires Valid(st) && !HasTask(c) && FindPriorityTasks(st, c) != []
    ensures var t := FindPriorityTasks(st, c)[0];
            && AssignTask(st, c, t.id).ok
            && FindAndAssignTask(st, c, o) == PerformTask(AssignTask(st, c, t.id).store, AssignTask(st, c, t.id).creep, o)
            && forall u | u in st.tasks && Eligible(u, c) :: TypeRank(u) <= TypeRank(t)
  {
    var t := FindPriorityTasks(st, c)[0];
    assert t in FindPriorityTasks(st, c);
    GetMember(st, t);
    TopRankIsHighest(st, c);
  }

  /** The head of findPriorityTasks has the highest type rank of any task open
      to the creep. */
  lemma TopRankIsHighest(st: Store, c: Creep)
    requires FindPriorityTasks(st, c) != []
    ensures forall u | u in st.tasks && Eligible(u, c) :: TypeRank(u) <= TypeRank(FindPriorityTasks(st, c)[0])
  {
    var pri := FindPriorityTasks(st, c);
    forall u | u in st.tasks && Eligible(u, c) ensures TypeRank(u) <= TypeRank(pri[0]) {
      assert u in pri;
      var k :| 0 <= k < |pri| && pri[k] == u;
    }
  }

  /** runUniversal */
  function Run(st: Store, c: Creep, o: Obs): (r: Step)
    ensures r.creep.name == c.name && r.creep.role == c.role
    ensures Valid(st) ==> Valid(r.store)
    ensures Inv(st) ==> Inv(r.store)
  {
    var a := if !HasTask(c) then FindAndAssignTask(st, c, o) else Step(st, c, []);
    if HasTask(a.creep) then
      var p := PerformTask(a.store, a.creep, o);
      Step(p.store, p.creep, a.actions + p.actions)
    else
      var f := FindAnyTask(a.store, a.creep, o);
      Step(f.store, f.creep, a.actions + f.actions)
  }

  /** An idle creep left without a task by findAndAssignTask (none was open,
      or performTask gave the taken one up) falls through to findAnyTask in
      the same tick, which may pick the very task just given up. */
  lemma GiveUpThenFindsAny(st: Store, c: Creep, o: Obs)
    requires !HasTask(c)
    ensures var a := FindAndAssignTask(st, c, o);
            !HasTask(a.creep) ==>
              var f := FindAnyTask(a.store, a.creep, o);
              Run(st, c, o) == Step(f.store, f.creep, a.actions + f.actions)
  {
  }

  /** An idle creep that takes a task and is still bound afterwards performs
      that task twice in the same tick: once inside findAndAssignTask and
      once more in runUniversal. */
  lemma TakenTaskRunsTwice(st: Store, c: Creep, o: Obs)
    requires !HasTask(c)
    ensures var a := FindAndAssignTask(st, c, o);
            HasTask(a.creep) ==>
              Run(st, c, o).actions == a.actions + PerformTask(a.store, a.creep, o).actions
  {
  }
}

=== FILE: workers.dfy ===
/** The builder, repairer and upgrader roles (roles/builder.js,
    roles/repairer.js, roles/upgrader.js and their creep.prototype twins).
    The three differ only in the task type they look for, the action they
    perform, and when a task counts as done. */
module Workers {
  import opened Types
  import Sorting
  import opened TaskManager
  import opened Creeps
  import opened CreepPrototype
  import opened Roles

  datatype Kind = BuilderKind | RepairerKind | UpgraderKind

  /** The task type assign<Role>Task filters for. */
  function WorkType(k: Kind): TaskType {
    match k
    case BuilderKind => Build
    case RepairerKind => Repair
    case UpgraderKind => Upgrade
  }

  /** build(site), repair(structure) or upgradeController(controller). */
  function WorkAction(k: Kind, target: EntityId): Action {
    match k
    case BuilderKind => BuildAt(target)
    case RepairerKind => RepairAt(target)
    case UpgraderKind => UpgradeAt(target)
  }

  /** After a successful action: the site is finished (progress >= progressTotal),
      the structure is whole (hits >= hitsMax); an upgrade is never done. */
  predicate Done(k: Kind, o: Obs) {
    match k
    case BuilderKind => o.siteComplete
    case RepairerKind => o.hitsFull
    case UpgraderKind => false
  }

  /** The worker has a task whose target is live. */
  predicate Working(st: Store, c: Creep, o: Obs) {
    GetTask(st, c).Some? && Present(o, GetTask(st, c).value.target)
  }

  /** performBuilding / performRepair / performUpgrade */
  function Perform(st: Store, c: Creep, o: Obs, k: Kind): (r: Step)
    ensures !Working(st, c, o) ==>
              r == Step(CreepPrototype.ReleaseTask(st, c).store, CreepPrototype.ReleaseTask(st, c).creep, [])
    ensures Working(st, c, o) && o.energy == 0 ==> r == Step(st, c, Refill(o))
    ensures Working(st, c, o) && o.energy > 0 ==>
              var t := GetTask(st, c).value;
              && |r.actions| >= 1 && r.actions[0] == WorkAction(k, t.target)
              && (o.work == ErrNotInRange ==> r.actions == [WorkAction(k, t.target), MoveTo(t.target)])
              && (o.work == ErrNotEnough ==> r.actions == [WorkAction(k, t.target)] + Refill(o))
              && (o.work != Ok ==> r.store == st && r.creep == c)
    ensures Working(st, c, o) && o.energy > 0 && o.work == Ok ==>
              var u := CreepPrototype.UpdateTaskProgress(st, c, o.energy).store;
              if Done(k, o) then r.store == CreepPrototype.CompleteTask(u, c).store && r.creep == c.(task := Cleared)
              else r.store == u && r.creep == c
    ensures r.creep == c || r.creep == c.(task := Cleared)
    ensures Valid(st) ==> Valid(r.store)
    ensures Inv(st) ==> Inv(r.store)
  {
    if !Working(st, c, o) then
      var b := CreepPrototype.ReleaseTask(st, c);
      Step(b.store, b.creep, [])
    else if o.energy == 0 then Step(st, c, Refill(o))
    else
      var t := GetTask(st, c).value;
      var act := WorkAction(k, t.target);
      if o.work == Ok then
        var u := CreepPrototype.UpdateTaskProgress(st, c, o.energy);
        if Done(k, o) then
          var b := CreepPrototype.CompleteTask(u.store, c);
          Step(b.store, b.creep, [act])
        else Step(u.store, c, [act])
      else if o.work == ErrNotInRange then Step(st, c, [act, MoveTo(t.target)])
      else if o.work == ErrNotEnough then Step(st, c, [act] + Refill(o))
      else Step(st, c, [act])
  }

  /** run: a bound worker works; an idle one takes the first task of its
      kind and works it at once, or else falls back to findAndAssignTask. */
  function Run(st: Store, c: Creep, o: Obs, k: Kind): (r: Step)
    ensures HasTask(c) ==> r == Perform(st, c, o, k)
    ensures !HasTask(c) && FirstOfType(st, c, {WorkType(k)}).None? ==> r == FindAndAssignTask(st, c, o)
    ensures Valid(st) && !HasTask(c) && FirstOfType(st, c, {WorkType(k)}).Some? ==>
              r == Perform(AssignFirstOfType(st, c, {WorkType(k)}).store,
                           c.(task := Bound(FirstOfType(st, c, {WorkType(k)}).value.id)), o, k)
    ensures r.creep.name == c.name && r.creep.role == c.role
    ensures Valid(st) ==> Valid(r.store)
    ensures Inv(st) ==> Inv(r.store)
  {
    var a := if !HasTask(c) then AssignFirstOfType(st, c, {WorkType(k)}) else Bind(st, c, false);
    if HasTask(a.creep) then Perform(a.store, a.creep, o, k)
    else FindAndAssignTask(a.store, a.creep, o)
  }

  /** A worker lets go of its task exactly when the task or its target is gone,
      or when the work succeeded and finished the job. */
  lemma WorkerLetsGoOnlyWhenDone(st: Store, c: Creep, o: Obs, k: Kind)
    requires HasTask(c)
    ensures Perform(st, c, o, k).creep.task == Cleared <==>
              !Working(st, c, o) || (o.energy > 0 && o.work == Ok && Done(k, o))
  {
  }

  /** The upgrader never completes a task: every task it leaves COMPLETED was
      COMPLETED before. */
  lemma UpgraderNeverCompletes(st: Store, c: Creep, o: Obs)
    ensures var r := Perform(st, c, o, UpgraderKind);
            forall id | Get(r.store, id).Some? && Get(r.store, id).value.state == Completed ::
              Get(st, id).Some? && Get(st, id).value.state == Completed
  {
    var r := Perform(st, c, o, UpgraderKind);
    forall id | Get(r.store, id).Some? && Get(r.store, id).value.state == Completed
      ensures Get(st, id).Some? && Get(st, id).value.state == Completed
    {
      if HasTask(c) && id == c.task.id {
        if !Working(st, c, o) {
          assert Get(st, id).Some?;
          assert Get(r.store, id) == Some(Released(Get(st, id).value, Some(c.name)));
        } else if o.energy > 0 && o.work == Ok {
          var t := Get(st, id).value;
          assert Get(r.store, id) == Get(CreepPrototype.UpdateTaskProgress(st, c, o.energy).store, id);
        }
      }
    }
  }

  /** A builder or repairer retires its (finite, IN_PROGRESS) task in the tick
      its successful work finishes the job, and only then. */
  lemma FiniteWorkCompletes(st: Store, c: Creep, o: Obs, k: Kind)
    requires k != UpgraderKind
    requires Working(st, c, o)
    requires GetTask(st, c).value.state == InProgress && !GetTask(st, c).value.infinite
    ensures var t := GetTask(st, c).value;
            var r := Perform(st, c, o, k);
            (Get(r.store, t.id).Some? && Get(r.store, t.id).value.state == Completed) <==>
              (o.energy > 0 && o.work == Ok && Done(k, o))
  {
    var t := GetTask(st, c).value;
    if o.energy > 0 && o.work == Ok {
      var u := CreepPrototype.UpdateTaskProgress(st, c, o.energy).store;
      assert Get(u, t.id).Some? && Get(u, t.id).value.state == InProgress;
    }
  }

  /** repairer's prioritizeRepair: a damaged road or container within range 3
      comes first, then a damaged wall or rampart within range 3. */
  datatype Structure = Structure(id: EntityId, kind: StructureKind, hits: int, hitsMax: int)
  datatype StructureKind = Road | Container | Wall | Rampart | Other

  predicate Damaged(s: Structure) { s.hits < s.hitsMax }

  predicate Urgent(s: Structure) { Damaged(s) && (s.kind == Road || s.kind == Container) }

  predicate Defensive(s: Structure) { Damaged(s) && (s.kind == Wall || s.kind == Rampart) }

  /** `inRange` lists the structures within range 3, in search order. */
  function PrioritizeRepair(inRange: seq<Structure>): (r: Option<Structure>)
    ensures r.Some? ==> r.value in inRange && Damaged(r.value)
    ensures (exists i | 0 <= i < |inRange| :: Urgent(inRange[i])) ==> r.Some? && Urgent(r.value)
    ensures r.Some? && !Urgent(r.value) ==> Defensive(r.value)
    ensures r.None? <==> forall i | 0 <= i < |inRange| :: !Urgent(inRange[i]) && !Defensive(inRange[i])
  {
    var urgent := Sorting.FindFirst(inRange, Urgent);
    if urgent.Some? then urgent else Sorting.FindFirst(inRange, Defensive)
  }
}
